=== FILE: README.md ===
# Character profiles for a chat server, in Dafny

This project models the server side of a chat-server plugin that lets a user
write as "character profiles". A character profile has an identifier
(`haddock`), a display name (`Captain Haddock`) and optionally a picture. A
message written as a character carries props that override the sender's name
and icon. The identifiers `""`, `me` and `myself` stand for the user's real
profile.

The model covers:

- **The store.** The host's key-value store, its messages, file records,
  users, teams and channel members are in `host.dfy`. They follow the
  in-memory backend that the plugin's own tests use.
- **String sets** (`strset.dfy`). These are sorted string arrays stored under
  one key.
- **Id sets** (`idset.dfy`, `iteration.dfy`). An id set shards 26-character
  ids by their two-character prefix and keeps a prefix set as a superset.
  `iteration.dfy` covers resumable, bounded iteration over an id set.
- **Profiles** (`profile.dfy`): validation, populating, reading with a mask
  of accepted statuses, storing, listing and per-channel default profiles.
- **Message tagging** (`post.dfy`). This covers the choice of profile for a
  new or edited message, a one-off `id: message` prefix, registering tagged
  messages, rewriting every message of a character, and counting them.
- **The plugin hooks** and the icon address (`plugin.dfy`).
- **The `/character` command** (`command.dfy`): trigger parsing, query
  classification, create/modify, delete, `I am`, ordering of channel
  mentions and the label of a group chat.

## How the model works

- Every operation is a pure function of a `Backend` value. An operation that
  writes returns the new `Backend`.
- The host's error results are `Result`/`Option` values.
- A JSON encoding is replaced by a concrete byte codec (`codec.dfy`). The
  codec is proved injective and canonical, so "the stored bytes decode to X"
  means what it means in the source.
- The status bit mask of `getProfile` is a set of statuses.
- Strings compare as Go compares them, byte-wise over UTF-8. That is the same
  as comparing code points, which is what `Strings.Less` does.
- Refusals of the command are modelled as codes (`Commands.Refusal`).
  `Commands.Text` holds the source's wording for each code.
- `post.go` calls `GetProfile`, `IsMe` and `getDefaultProfileIdentifier` as
  free functions taking the backend. Those functions are not part of this
  model. They are modelled by the method bodies of `profile.go`, which take
  the same arguments.

## Model

| member | source | states |
|---|---|---|
| Wrappers.ErrorPre | server/profile.go:350-357 | the status code is kept and the message is the prefix, `": "`, then the old message |
| Host.KvCompareAndSet | server/backend_mock.go:111-137 | the write happens exactly when the stored value equals the expected one (absent matches absent); otherwise the store is unchanged; no other key changes |
| Host.KvSet | server/backend_mock.go:145-148 | the key reads back the value; every other key reads as before |
| Host.KvDelete | server/backend_mock.go:138-141 | the key reads back absent; every other key reads as before |
| Host.KvGet | server/backend_mock.go:142-144 | a value is returned exactly when the key is stored, and it is the stored value |
| Host.GetFileInfo | server/backend_mock.go:80-86 | succeeds exactly for a known file id, with that file's record |
| Host.GetTeam | server/backend_mock.go:97-103 | succeeds exactly for a known team id, with that team |
| Host.GetUser | server/backend_mock.go:104-110 | succeeds exactly for a known user id, with that user |
| Host.GetPost | server/backend_mock.go:87-93 | succeeds exactly for a stored message that is not deleted; otherwise a not-found error |
| Host.UpdatePost | server/backend_mock.go:171-177 | succeeds exactly when the message id is known; replaces that message only; nothing else changes |
| Host.GetChannelMembers | server/backend_mock.go:31-50 | the members of the channel, in order, cut to the requested page with both bounds clipped at the end |
| Host.MembersOf | server/backend_mock.go:32-39 | every member kept belongs to the channel and is in the member list, and every member of the channel in the list is kept |
| Host.MembersOfConcat | server/backend_mock.go:32-39 | filtering two lists one after the other gives the two filtered lists one after the other, so the members keep their order |
| Host.Page | server/backend_mock.go:40-49 | at most a page of items, read in order from page times page size, both bounds clipped at the end of the list |
| Host.PagesTile | server/backend_mock.go:40-48 | consecutive pages read in order give the first items of the list, with no gap and no overlap |
| Codec.StringsRoundTrip | server/strset.go:26 | decoding an encoded string array gives the array back |
| Codec.StringsInjective | server/strset.go:56 | equal encodings mean equal arrays |
| Codec.StringsCanonical | server/strset.go:60 | bytes that decode are the encoding of what they decode to, so comparing bytes compares arrays |
| Strset.SearchLowerBound | server/strset.go:46 | on a sorted array, the search index splits the elements below the target from the rest (`sort.SearchStrings`) |
| Strset.SearchFinds | server/strset.go:100-101 | the element at the index equals the target exactly when the target is in the sorted array |
| Strset.StrsetGet | server/strset.go:17-37 | a missing key reads as empty; undecodable bytes are the unmarshal error; otherwise the bytes are the encoding of the result |
| Strset.ReadSet | server/strset.go:17-32 | fails with the unmarshal error exactly when the key holds bytes that do not decode; a missing key reads as empty with no raw bytes; the raw bytes are the stored ones and encode the result |
| Strset.GetAfterStore | server/strset.go:34-37 | reading a key just written with an encoded array gives the array back |
| Strset.StrsetInsert | server/strset.go:41-65 | fails exactly when the read fails; afterwards the set holds the old elements and the new one; no other key changes |
| Strset.StrsetRemove | server/strset.go:69-92 | fails exactly when the read fails; afterwards the set holds no element it did not hold; no other key changes |
| Strset.StrsetHas | server/strset.go:95-102 | on a sorted array, true exactly when the element is in the set |
| Strset.InsertedSorted | server/strset.go:46-55 | inserting at the search index into a sorted array without the element keeps it sorted, and the members are the old ones plus the element |
| Strset.RemovedSorted | server/strset.go:74-82 | removing a present element at the search index keeps the array sorted, and the members are the old ones minus the element |
| Strset.InsertSemantics | server/strset.go:41-65 | on a sorted set, insert succeeds, does nothing when the element is present, and leaves a sorted set of the old elements plus the new one |
| Strset.RemoveSemantics | server/strset.go:69-92 | on a sorted set, remove succeeds, does nothing when the element is absent, and leaves a sorted set of the old elements minus the removed one |
| Idset.IdValidate | server/idset.go:131-136 | accepts exactly 26 characters from `a-z0-9`; otherwise the fixed error |
| Idset.ShardKeyInjective | server/idset.go:48 | different id sets or prefixes never share a shard key |
| Idset.PrefixKeyNotShardKey | server/idset.go:39 | the prefix-set key is never a shard key |
| Idset.EmptyWellFormed | server/idset.go:16-22 | a store without any of the id set's keys holds a well-formed, empty id set |
| Idset.IdsetInsert | server/idset.go:72-91 | an invalid id is rejected with nothing written; only the prefix set and the id's shard can change; success exactly when both reads succeed |
| Idset.IdsetRemove | server/idset.go:94-110 | an invalid id is rejected; only the id's shard can change; the prefix set is left alone |
| Idset.IdsetHas | server/idset.go:113-128 | on a well-formed shard, the answer is membership in the id set |
| Idset.InsertKeepsSuperset | server/idset.go:16-22 | insert keeps the invariant that the prefix set covers the prefix of every stored id |
| Idset.RemoveKeepsSuperset | server/idset.go:106-108 | remove keeps that invariant although it never shrinks the prefix set |
| Idset.InsertSemantics | server/idset.go:72-91 | on a well-formed id set and a valid id, insert succeeds, keeps the set well formed, and the members are the old ones plus the id |
| Idset.RemoveSemantics | server/idset.go:94-110 | on a well-formed id set and a valid id, remove succeeds, keeps the set well formed, and the members are the old ones minus the id |
| Idset.HasSemantics | server/idset.go:113-128 | on a well-formed id set, `IdsetHas` answers membership |
| Iteration.IdsetIter | server/idset.go:28-42 | an invalid resume id and an undecodable prefix set are reported before anything runs |
| Iteration.After | server/idset.go:52-55 | keeps exactly the ids after the resume id |
| Iteration.Limit | server/idset.go:59-64 | a positive limit keeps the first that many ids (or all, if fewer); zero or less keeps all |
| Iteration.AfterEmptyCursor | server/idset.go:24-26 | with no resume id, no non-empty id is skipped |
| Iteration.AfterAll | server/idset.go:52-55 | when every id is after the resume id, none is skipped |
| Iteration.VisitsWhole | server/idset.go:24-27 | with no resume id and no limit, the ids visited are the members, each once |
| Iteration.IterationSpec | server/idset.go:28-69 | on a well-formed id set, iteration is the callback run in order over the ids after the resume id, cut to the limit, even when the callback rewrites its own shard |
| Iteration.VisitsSpec | server/idset.go:43-66 | the ids visited are sorted, are exactly the members after the resume id, and a positive limit keeps a prefix of that many |
| Iteration.AfterResume | server/idset.go:25-27 | resuming after a visited id continues with the ids that follow it |
| Iteration.RunObeysLaw | server/idset.go:52-58 | a callback that obeys a per-message law, run over distinct ids, leaves every message as the law says and stops at the first failure |
| Iteration.CollectAll | server/idset.go:28-69 | collecting every id visits each member exactly once, in sorted order |
| Profiles.ProfileRoundTrip | server/profile.go:137-150 | a stored profile decodes to its display name and picture file |
| Profiles.ProfileKeyInjective | server/profile.go:152-154 | one user's profiles with different identifiers have different keys |
| Profiles.ProfileKeyPrefix | server/profile.go:152-154 | every profile key of a user starts with the user's listing prefix, and removing it gives the identifier |
| Profiles.ProfileExists | server/profile.go:156-162 | true exactly when the profile's key is stored |
| Profiles.Validate | server/profile.go:62-134 | no error exactly when the identifier matches and is 1-60 lowercase letters, the name is 1-200 characters without format characters, the picture fields agree, and the profile is a character or the real profile, without an error, as its identifier says |
| Profiles.ValidatePicture | server/profile.go:86-111 | no error exactly when the file is an image with a jpg/jpeg/png extension (any case), is valid, and sits alone in a live message |
| Profiles.ValidatePictureFields | server/profile.go:82-111 | no error exactly when a profile without a picture has no file record or message and one with a picture passes the picture checks |
| Profiles.ValidateStatus | server/profile.go:113-132 | no error exactly when the profile has no error, is a character or the real profile, and its identifier agrees with that |
| Profiles.MeNeedsIdentifier | server/profile.go:70-73 | a real profile with the empty identifier fails validation |
| Profiles.MeNamedPasses | server/profile.go:62-134 | a real profile named `me` or `myself`, with a valid display name, consistent picture fields and no error, passes validation for its own identifier |
| Profiles.ValidStatusMatchesIdentifier | server/profile.go:113-132 | in a valid profile, the status is character exactly when the identifier is not `me`, `myself` or empty |
| Profiles.Populate | server/profile.go:35-60 | fetches only what is missing: the file record by the picture id, then the message by the record; nothing else changes; errors carry the populate prefix |
| Profiles.PopulateIdempotent | server/profile.go:41-50 | populating a populated profile changes nothing |
| Profiles.GetProfile | server/profile.go:164-243 | the real profile is the user's display name and exists exactly when the user does; a missing record is nonexistent; an undecodable record is corrupt with the decode error; a status is returned only if accepted, with an error exactly when it is corrupt or nonexistent; a returned character is valid and its picture is populated |
| Profiles.GetProfileStored | server/profile.go:207-242 | for a stored record that decodes: a populate error is passed on; a record that fails validation is corrupt with the `is corrupt and needs to be recreated` error when corrupt is accepted and that error otherwise; a valid record is returned with the stored name and picture exactly when character is accepted |
| Profiles.GetProfileMeIgnoresStore | server/profile.go:166-184 | the real profile reads the same whatever the store holds |
| Profiles.GetProfileReadsOneKey | server/profile.go:187 | the answer depends on the store only through the profile's own key |
| Profiles.SetProfile | server/profile.go:245-259 | stores exactly when the populated profile validates under its own identifier; only the profile key changes, and it decodes to the name and picture |
| Profiles.SetThenGet | server/profile.go:245-259 | a character stored by `setProfile` reads back as that character, populated afresh |
| Profiles.DeleteProfile | server/profile.go:261-263 | the profile no longer exists, and every other key reads as before |
| Profiles.DeleteThenGet | server/profile.go:261-263 | after deletion the profile reads as nonexistent, or as an error when that status is not accepted |
| Profiles.GetKeysAfterPrefix | server/profile.go:301-320 | the listed keys that start with the prefix, prefix removed, in listing order, read page by page |
| Profiles.KeysAfterPrefixMembers | server/profile.go:309-313 | a suffix is returned exactly when prefix plus suffix is a listed key |
| Profiles.FilterPage | server/profile.go:309-313 | computes the suffixes of the keys of one page that carry the prefix |
| Profiles.ProfileLessStrictOrder | server/profile.go:289-299 | the order given to the sort is a strict order |
| Profiles.SortProfiles | server/profile.go:289-299 | a permutation with the real profile last and the characters ordered by identifier |
| Profiles.ListProfiles | server/profile.go:266-286 | the listing succeeds exactly when the real profile and every listed identifier resolve; its entries are, as a multiset, what `getProfile` returns for each listed identifier (character or corrupt) plus the real profile, which comes last; one entry per listed identifier; the characters are ordered by identifier |
| Profiles.ResolveListed | server/profile.go:271-278 | the loop (one `getProfile` call per identifier, through the helper `ResolveOne`) succeeds exactly when every identifier resolves as a character or as corrupt, and then returns the reference `Resolved`: the resolved profiles in listing order |
| Profiles.ResolvedShape | server/profile.go:271-278 | when every identifier resolves, the resolved profiles match the identifiers one for one, each a character or corrupt profile of the user |
| Profiles.SetDefaultProfileIdentifier | server/profile.go:338-348 | binds the channel exactly when the identifier reads as a character, and returns it; only the binding key changes |
| Profiles.RemoveDefaultProfile | server/profile.go:326-328 | the channel reads back as unbound; nothing else changes |
| Profiles.GetDefaultProfileIdentifier | server/profile.go:330-336 | an unbound channel reads as the real profile, `""` |
| Profiles.DefaultNeverMe | server/profile.go:330-336 | a bound channel never names the real profile through a stored `me` or `myself` |
| Icons.ProfileIconUrl | server/plugin.go:166-188 | every address starts with the site address; a character with a picture gets the file's address (thumbnail or not); one without gets the plugin's character image; the real profile gets the user's image; anything else gets the no-sign image |
| Icons.PictureUrlInjective | server/plugin.go:176-179 | two characters with pictures get the same address exactly when they have the same picture file |
| Icons.PictureUrlNamesFile | server/plugin.go:176-179 | the file id can be read back from a character's picture address |
| PluginHooks.MessageWillBePosted | server/plugin.go:62-67 | without a backend, the fixed refusal; otherwise a returned message differs only in its profile props and message and shows its current profile |
| PluginHooks.MessageWillBeUpdated | server/plugin.go:69-74 | without a backend, the fixed refusal; otherwise a returned message is the edited one with only its profile props and message changed, showing its current profile |
| PluginHooks.EditAgreesWithPost | server/plugin.go:62-74 | whenever an edit gets a result, posting the same message gives the same result |
| Posts.ProfilePost | server/post.go:97-115 | only a character or the real profile can be applied; the real profile clears the four props; a character sets its identifier, name, icon and the webhook flag; nothing else changes |
| Posts.ProfilePostOverrides | server/post.go:97-115 | applying a second profile gives what applying it alone gives |
| Posts.ProfilePostFixpoint | server/post.go:97-115 | a message that already shows a character is unchanged by applying it again |
| Posts.ProfilePostIdempotent | server/post.go:97-115 | applying the same profile twice is applying it once |
| Posts.ParseOneOff | server/post.go:51-54 | a match gives the identifier and the rest of the message in the one-off form |
| Posts.OneOffRoundTrip | server/post.go:51-54 | a lowercase identifier, `:`, a space or newline and any text parse back to that identifier and text |
| Posts.ShowsProfile | server/post.go:97-115 | a message shown as a profile that resolves for its user shows its current profile |
| Posts.OneOffParse | server/post.go:51 | the one-off pattern matches exactly `letters`, `:`, a space or newline, then the rest |
| Posts.ProfiledPost | server/post.go:37-94 | system and user-less messages are left alone; a result differs only in its profile props and, for a one-off, the cut message; every result shows a profile that resolves now |
| Posts.OneOffWins | server/post.go:50-62 | a one-off prefix naming a resolvable profile decides, for new and edited messages alike |
| Posts.EditedResult | server/post.go:64-79 | an edit without a one-off takes the tagged character if it still resolves, and otherwise is left alone |
| Posts.EditLeavesUntagged | server/post.go:64-79 | an edit with neither a one-off nor a resolvable tag is left alone |
| Posts.NewResult | server/post.go:81-93 | a new message without a one-off or a live tag takes the channel's default profile, if it resolves |
| Posts.ReprofileStable | server/post.go:37-94 | re-running the hook on a message it produced (without a new prefix) keeps it as it is |
| Posts.DefaultAppliesToNewPosts | server/post.go:81-90 | after `I am` binds a channel, new untagged messages there show that character |
| Posts.IdsetKeyInjective | server/post.go:119-121 | different characters of a user have different id sets |
| Posts.RegisterPost | server/post.go:12-32 | no message is an error; an untagged message writes nothing; a tagged message with an invalid id is rejected without writing; otherwise only the prefix set and the id's shard of its character's id set can change |
| Posts.RegisterSemantics | server/post.go:24-30 | on a well-formed id set, a tagged message becomes a member of its character's set and nothing else joins |
| Posts.GetPostIfExists | server/post.go:204-213 | never fails with this host; a live message is returned and a missing or deleted one reads as none |
| Posts.Decide | server/post.go:148-178 | a message of another user or without a tag fails, and so does one with the old tag when the new profile is neither a character nor the real profile; a message tagged otherwise or already showing the new profile is skipped; any other is retagged only, showing the new profile |
| Posts.RewriteFor | server/post.go:138-193 | a message is only retagged; a deleted message or one not using the old tag is unchanged; one that does not fail ends up showing the new profile |
| Posts.StepEffect | server/post.go:139-193 | one step rewrites only its own message and removes it from the old id set exactly when its new tag differs |
| Posts.UpdatePostsForProfile | server/post.go:128-137 | the real profile cannot be the old one, and a new profile that does not resolve is reported before anything changes |
| Posts.UpdateSpec | server/post.go:128-199 | on a well-formed id set, the update succeeds exactly when no stored message of the set fails the decision; then each such message is rewritten as decided, every other message is unchanged, and the set keeps exactly the messages that still carry the old tag |
| Posts.IterUpdates | server/post.go:138-193 | iterating the id set runs the update step over exactly its members and each message ends as the step's law says |
| Posts.CountPostsForProfile | server/post.go:227-231 | the real profile cannot be counted |
| Posts.CountSpec | server/post.go:227-251 | on a well-formed id set, the count is the number of live messages in the set |
| Posts.IterCount | server/post.go:234-246 | iterating a well-formed id set with the counting step counts its live messages and changes nothing |
| Posts.RunCountWhole | server/post.go:234-246 | running the counting step over the visited ids counts the live messages of the set |
| Commands.ParseTrigger | server/character-command.go:56-60 | succeeds exactly for `/character ` followed by a query without a line break, and returns that query; otherwise the trigger error |
| Commands.TriggerRoundTrip | server/character-command.go:56-60 | any single-line query behind the trigger is read back |
| Commands.Classify | server/character-command.go:62-274 | a query is help exactly when it is `help`, `--help`, `h` or `-h`; a define names a word identifier and sets a picture or a single-line name; delete and `I am` name a word identifier |
| Commands.ClassifyRender | server/character-command.go:62-229 | every command the grammar can express is classified back from its canonical query |
| Commands.RenderClassify | server/character-command.go:70-229 | every recognized query other than help is the canonical query of its command |
| Commands.DeleteRoundTrip | server/character-command.go:162-164 | `delete` followed by a word is classified as deleting that identifier |
| Commands.IAmRoundTrip | server/character-command.go:193-195 | `I am` followed by a word is classified as that command |
| Commands.WhoAmIRoundTrip | server/character-command.go:228-229 | `who am I` is classified as that query |
| Commands.PictureRoundTrip | server/character-command.go:70-82 | a picture define, with or without a name, is classified back from its canonical query |
| Commands.NameRoundTrip | server/character-command.go:70-82 | a name define is classified back from its canonical query |
| Commands.RootPicture | server/character-command.go:85-106 | a picture is taken exactly when there is a thread root that is readable and holds one non-empty file id; no thread is refused; a read failure is passed on |
| Commands.Modification | server/character-command.go:107-136 | happens exactly when the profile reads as a character or corrupt; keeps the identifier, takes the new name and picture when given and the old ones otherwise |
| Commands.Creation | server/character-command.go:137-153 | a new profile needs a name and is otherwise refused; it is built fresh from the name and picture |
| Commands.DefineProfileAsWritten | server/character-command.go:70-159 | `me` is refused; a failure of the root message's picture is passed on; a new profile without a name is refused; a failure changes nothing; success writes only the profile's key, and the record stored there decodes to the requested name and picture, or the prior ones where none was requested |
| Commands.DefineStores | server/character-command.go:107-158 | a successful define stores a record that decodes; its name and picture are the requested ones or the prior profile's; a new profile has a name, and no picture unless one was set |
| Commands.RenameAsWritten | server/character-command.go:107-158 | renaming an existing valid character to a valid display name succeeds as written |
| Commands.PictureChangeFinding | server/character-command.go:110-136 | changing the picture of a character that has one fails as written and succeeds when the profile is rebuilt |
| Commands.PictureChangeExample | server/character-command.go:110-136 | for one concrete host (character `x` with picture `f`, thread root `r` holding image `g`), `/character picture x` is refused as written and succeeds when rebuilt |
| Commands.StalePictureRefused | server/profile.go:245-253 | storing a valid profile with a new picture id but its old file record and message fails |
| Commands.CorruptRepairFinding | server/character-command.go:110-114 | defining a valid name over a corrupt profile fails as written and succeeds when the profile is rebuilt |
| Commands.CorruptRepairExample | server/character-command.go:110-114 | for one concrete host (a record for `x` with an empty display name), `/character x=X` is refused as written and repairs the profile when rebuilt |
| Commands.CorruptRefused | server/profile.go:245-253 | a corrupt profile is never stored |
| Commands.DefineProfile | server/character-command.go:70-159 | `me` is refused; a picture outside a thread is refused, and any other failure of the root message's picture is passed on; a new profile without a name is refused; a failure changes nothing; success writes only the profile's key, which reads back with the requested name and picture |
| Commands.DefineSucceeds | server/character-command.go:107-158 | with a valid identifier, a usable picture and, for a new profile, a valid name, the define query succeeds |
| Commands.DefineReadsBack | server/character-command.go:154-158 | after a successful define, the profile reads back with the requested name and picture |
| Commands.FreshStores | server/character-command.go:137-153 | a fresh profile with a valid identifier, a valid name and a usable or no picture is stored |
| Commands.DeleteCommand | server/character-command.go:162-180 | succeeds exactly for a stored character that is not the real profile; deleting yourself and a missing profile are refused; only the profile key changes and it is gone |
| Commands.DeleteTwice | server/character-command.go:172-174 | a second delete of the same profile is refused |
| Commands.DefineThenDelete | server/character-command.go:154-179 | a profile just defined can be deleted |
| Commands.DeleteThenCreate | server/character-command.go:137-153 | after deletion, the identifier can be created again with a valid name |
| Commands.IAmCommand | server/character-command.go:193-226 | `me` on an unbound channel changes nothing and replies that you are already yourself; `me` on a bound channel unbinds it and replies that you are yourself again, or fails when the user is unknown; another identifier binds it exactly when it reads as a character; only the binding key changes; the reply names the character, saying whether it was already bound |
| Commands.IAmTwice | server/character-command.go:221-223 | repeating `I am x` changes nothing more and says you already are x |
| Commands.DefaultKeyNotProfileKey | server/profile.go:322-324 | a channel binding's key is never a profile key |
| Commands.CategoryOrder | server/character-command.go:412-428 | comparing the category labels as strings orders channels, group chats, direct messages and others by that rank |
| Commands.Rank | server/character-command.go:412-428 | every mention has one of four ranks |
| Commands.MentionLessByRank | server/character-command.go:410-430 | one mention sorts before another exactly when its rank is lower, or the ranks are equal and it is the smaller string |
| Commands.MentionLessStrictOrder | server/character-command.go:410-430 | the comparison given to the sort is a strict order |
| Commands.SortChannelMentions | server/character-command.go:409-431 | the same mentions, ordered by category and by string within a category |
| Commands.MergeLastReads | server/character-command.go:398-403 | merging the last two names with " and " and joining with ", " reads "a, b and c" |
| Commands.JoinAppend | server/character-command.go:403 | joining one more name adds the separator and the name at the end |
| Commands.Shown | server/character-command.go:394-397 | all names when there are at most five; otherwise five entries, the last counting the others |
| Commands.LessStrictOrder | server/character-command.go:390 | string order is a strict order |
| Commands.ShownSpec | server/character-command.go:390-397 | up to five names are all shown, sorted; of more, the four smallest are shown and every omitted name is at least each of them |
| Commands.GroupChatLabel | server/character-command.go:390-403 | no other member is an error; otherwise a link to the group chat followed by the shown names as an English list |
| Commands.Execute | server/character-command.go:53-275 | a bad trigger fails; only the store can change; the classified query goes to its handler (help, the corrected define of Findings, delete, `I am`); list, `who am I` and unrecognized queries leave the host unchanged; an unrecognized query is refused |

## Left out

- Errors from the store and the host API that the in-memory backend never
  returns. `KVGet`, `KVSet` and `KVDelete` are infallible, and
  `GetPostIfExists`'s branch for errors other than not-found cannot be
  reached.
- Concurrency. `KVCompareAndSet` is modelled, but there are no concurrent
  writers, so a lost compare-and-set race is not modelled.
- JSON leniency. `encoding/json` accepts many spellings of the same array.
  The model's codec has one spelling per value. So a store holding
  non-canonical JSON is not modelled.
- Key enumeration (`KVList`). It is not part of the in-memory backend.
  `GetKeysAfterPrefix` and `ListProfiles` take the store's key listing as a
  parameter and read it in pages of 50.
- Host facts. `IsImage`, `IsValid` and `GetDisplayName` are fields of the file
  and user records, taken as given. `NewId` is not modelled.
- The `who am I` query. It walks the team's channels and reads members, users
  and teams for each. `Execute` takes its reply as a parameter. Its parts are
  modelled: `SortChannelMentions` and `GroupChatLabel`.
- Channel mentions for direct and public channels (character-command.go:332-360).
  These are host reads; only the group-chat label is modelled.
- The help text (an embedded file). `Execute` takes it as a parameter.
- Attachments. The Slack attachments built for a reply
  (character-command.go:285-330) are not modelled; a reply is its text or
  refusal.
- Commands.Execute: for `list` it returns only the heading, not the listed
  profiles, because those are carried by the attachments.
- The HTTP handler, the UI and plugin activation (`http.go`, `ui.go`,
  plugin.go:28-60, 155-164).
- `DeepClonePost` (post.go:217-225). Messages are values in the model, so a
  copy is the message itself and no sharing can be observed.
- The older copy of `ProfiledPost` and `profilePost` in plugin.go:76-153.
  It differs from post.go:37-115. It tags a message sent under the real
  profile with `profile_identifier` `"myself"` (plugin.go:139), where post.go:101
  stores null. It copies the message shallowly (plugin.go:87), where post.go:48
  deep-copies it. It calls `getProfile`, where post.go calls `GetProfile`. The two
  could not be compiled together, and the model follows post.go.
- The nil root message branch (character-command.go:93-95) and the nil
  profile check after `setDefaultProfileIdentifier`
  (character-command.go:218-220). The host never returns nil without an
  error, so neither can happen.
- Posts.UpdateSpec: the comment at post.go:179 says updating a message also
  inserts it into the new character's id set. Nothing in the modelled code
  does that, so it is not modelled.
- Posts.Decide: a tag prop holding a value other than null or a string is
  one opaque alternative (`POther`). Go compares such values with `==` at
  post.go:172-176; the model compares them as equal only when they are
  identical.
- Profiles.ListProfiles: a stored profile whose picture message is gone fails
  the whole listing, as `getProfile` returns the populate error
  (profile.go:219-222). The test expectation at character-command_test.go:179
  lists such a profile as corrupt instead; the model follows the code.
- Commands.Execute: define queries go to the corrected Commands.DefineProfile,
  not to Commands.DefineProfileAsWritten. So changing the picture of a
  character that has one, and redefining a corrupt profile, succeed here where
  `doExecuteCommand` refuses them (see Findings).
- Commands.DefineProfile: refusals are codes; `Commands.Text` gives each
  code the source's wording. The success message is modelled with its text.

## Findings

| source | as written | input that shows it | evidently intended | confidence | as-written member | corrected member |
|---|---|---|---|---|---|---|
| server/character-command.go:110-136, server/profile.go:245-253 | modifying a profile copies the old profile, including its populated picture file record and message, and only replaces the picture id; `setProfile` does not refetch them, so validation compares the old message's file with the new id and fails | an existing character with a picture, and `/character picture x` in a thread whose root holds a different valid image (character-command_test.go:159-164 expects success) | the new picture is fetched and validated, so changing a picture succeeds | high, not executed | Commands.PictureChangeFinding and Commands.PictureChangeExample (about Commands.DefineProfileAsWritten) | Commands.DefineProfile, with Commands.DefineSucceeds |
| server/character-command.go:110-114, server/profile.go:229-233 | modifying a corrupt profile copies its corrupt status and error into the new profile, and validation rejects any status other than character or me, so a corrupt profile can never be repaired | a stored record for `x` that decodes but has an empty display name, and `/character x=X` (as in Commands.CorruptRepairExample); character-command_test.go:165-172 instead breaks the profile by deleting its picture message, a populate error that the corrected member refuses too | the modified profile is rebuilt as a character, so a valid name and picture repair it | high, not executed | Commands.CorruptRepairFinding and Commands.CorruptRepairExample (about Commands.DefineProfileAsWritten) | Commands.DefineProfile, with Commands.DefineSucceeds |

=== FILE: codec.dfy ===
/** The bytes the plugin stores in the KV store.

    The plugin stores JSON (string arrays and profile records) and raw string
    bytes (default-profile bindings). What the rest of the model relies on is
    only that encoding is a function and that decoding inverts it, so a
    simpler concrete code is used here in place of JSON and UTF-8:
    - every character is three bytes, its code point in base 256 (the first
      byte is then at most 16);
    - a list of strings is an opening byte `[` followed by each string's
      characters and a terminator byte 255.
    Decoding a list fails on anything that is not such an encoding, as
    `json.Unmarshal` fails on malformed input; decoding raw bytes never fails,
    as Go's `string(b)` never does.
 */
module Codec {
  import opened Wrappers

  newtype byte = b: int | 0 <= b < 256
  type Bytes = seq<byte>

  const ListOpen: byte := 91
  const Terminator: byte := 255

  /** The code points Dafny's `char` can hold. */
  predicate IsScalar(n: int) {
    (0 <= n < 0xD800) || (0xE000 <= n < 0x11_0000)
  }

  function EncodeChar(c: char): (r: Bytes)
    ensures |r| == 3 && r[0] <= 16
  {
    var n := c as int;
    var hi := n / 256;
    assert hi < 0x1100;
    [(hi / 256) as byte, (hi % 256) as byte, (n % 256) as byte]
  }

  function DecodeChar(a: byte, b: byte, c: byte): Option<char>
  {
    var n := a as int * 65536 + b as int * 256 + c as int;
    if IsScalar(n) then Some(n as char) else None
  }

  lemma CharRoundTrip(c: char)
    ensures var e := EncodeChar(c); DecodeChar(e[0], e[1], e[2]) == Some(c)
  {
    var n := c as int;
    var hi := n / 256;
    assert n == hi * 256 + n % 256;
    assert hi == (hi / 256) * 256 + hi % 256;
    var e := EncodeChar(c);
    assert e[0] as int * 65536 + e[1] as int * 256 + e[2] as int == n;
  }

  /** The raw bytes of a string (`[]byte(s)`). */
  function EncodeChars(s: string): (r: Bytes)
    ensures |r| == 3 * |s|
    decreases |s|
  {
    if |s| == 0 then [] else EncodeChar(s[0]) + EncodeChars(s[1..])
  }

  /** A string as raw bytes read back (`string(b)`): undecodable groups and
      trailing bytes become the replacement character U+FFFD. */
  function DecodeRaw(bs: Bytes): string
    decreases |bs|
  {
    if |bs| == 0 then ""
    else if |bs| < 3 then ['�'] + DecodeRaw(bs[1..])
    else
      match DecodeChar(bs[0], bs[1], bs[2])
      case Some(c) => [c] + DecodeRaw(bs[3..])
      case None => ['�'] + DecodeRaw(bs[3..])
  }

  /** Reading back the raw bytes of a string gives the string. */
  lemma {:induction false} RawRoundTrip(s: string)
    ensures DecodeRaw(EncodeChars(s)) == s
    decreases |s|
  {
    if |s| > 0 {
      var e := EncodeChars(s);
      assert e == EncodeChar(s[0]) + EncodeChars(s[1..]);
      CharRoundTrip(s[0]);
      assert e[3..] == EncodeChars(s[1..]);
      RawRoundTrip(s[1..]);
      assert s == [s[0]] + s[1..];
    }
  }

  function EncodeItems(xs: seq<string>): Bytes
    decreases |xs|
  {
    if |xs| == 0 then [] else EncodeChars(xs[0]) + [Terminator] + EncodeItems(xs[1..])
  }

  /** `json.Marshal` of a string array. */
  function EncodeStrings(xs: seq<string>): (r: Bytes)
    ensures |r| >= 1 && r[0] == ListOpen
  {
    [ListOpen] + EncodeItems(xs)
  }

  /** Reads one string up to its terminator; returns it and what follows. */
  function DecodeItem(bs: Bytes): (r: Option<(string, Bytes)>)
    ensures r.Some? ==> |r.value.1| < |bs|
    decreases |bs|
  {
    if |bs| == 0 then None
    else if bs[0] == Terminator then Some(("", bs[1..]))
    else if |bs| < 3 then None
    else
      match DecodeChar(bs[0], bs[1], bs[2])
      case None => None
      case Some(c) =>
        match DecodeItem(bs[3..])
        case None => None
        case Some(rest) => Some(([c] + rest.0, rest.1))
  }

  function DecodeItems(bs: Bytes): Option<seq<string>>
    decreases |bs|
  {
    if |bs| == 0 then Some([])
    else
      match DecodeItem(bs)
      case None => None
      case Some(first) =>
        match DecodeItems(first.1)
        case None => None
        case Some(more) => Some([first.0] + more)
  }

  /** `json.Unmarshal` into a string array. */
  function DecodeStrings(bs: Bytes): Option<seq<string>>
  {
    if |bs| > 0 && bs[0] == ListOpen then DecodeItems(bs[1..]) else None
  }

  lemma {:induction false} DecodeItemRoundTrip(s: string, rest: Bytes)
    ensures DecodeItem(EncodeChars(s) + [Terminator] + rest) == Some((s, rest))
    decreases |s|
  {
    var bs := EncodeChars(s) + [Terminator] + rest;
    if |s| > 0 {
      var e := EncodeChar(s[0]);
      assert EncodeChars(s) == e + EncodeChars(s[1..]);
      assert bs[..3] == e;
      assert bs[3..] == EncodeChars(s[1..]) + [Terminator] + rest;
      CharRoundTrip(s[0]);
      DecodeItemRoundTrip(s[1..], rest);
      assert s == [s[0]] + s[1..];
    } else {
      assert bs == [Terminator] + rest;
    }
  }

  lemma {:induction false} DecodeItemsRoundTrip(xs: seq<string>)
    ensures DecodeItems(EncodeItems(xs)) == Some(xs)
    decreases |xs|
  {
    if |xs| > 0 {
      var rest := EncodeItems(xs[1..]);
      assert EncodeItems(xs) == EncodeChars(xs[0]) + [Terminator] + rest;
      DecodeItemsRoundTrip(xs[1..]);
      DecodeItemsStep(xs[0], rest, xs[1..]);
      assert xs == [xs[0]] + xs[1..];
    }
  }

  /** One more encoded string in front of an encoded array decodes as one
      more string in front of the array. */
  lemma DecodeItemsStep(first: string, rest: Bytes, more: seq<string>)
    requires DecodeItems(rest) == Some(more)
    ensures DecodeItems(EncodeChars(first) + [Terminator] + rest) == Some([first] + more)
  {
    var bs := EncodeChars(first) + [Terminator] + rest;
    DecodeItemRoundTrip(first, rest);
    assert |bs| > 0;
  }

  /** Decoding an encoded string array gives back the array. */
  lemma StringsRoundTrip(xs: seq<string>)
    ensures DecodeStrings(EncodeStrings(xs)) == Some(xs)
  {
    assert EncodeStrings(xs)[1..] == EncodeItems(xs);
    DecodeItemsRoundTrip(xs);
  }

  /** Hence encoding is injective: equal bytes mean equal arrays. */
  lemma StringsInjective(xs: seq<string>, ys: seq<string>)
    requires EncodeStrings(xs) == EncodeStrings(ys)
    ensures xs == ys
  {
    StringsRoundTrip(xs);
    StringsRoundTrip(ys);
  }

  /** The code is canonical: three bytes that decode are the encoding of the
      character they decode to. */
  lemma CharCanonical(a: byte, b: byte, c: byte)
    requires DecodeChar(a, b, c).Some?
    ensures EncodeChar(DecodeChar(a, b, c).value) == [a, b, c]
  {
    var n := a as int * 65536 + b as int * 256 + c as int;
    var hi := a as int * 256 + b as int;
    assert n == hi * 256 + c as int;
    assert n / 256 == hi && n % 256 == c as int;
    assert hi / 256 == a as int && hi % 256 == b as int;
  }

  lemma {:induction false} DecodeItemCanonical(bs: Bytes)
    requires DecodeItem(bs).Some?
    ensures EncodeChars(DecodeItem(bs).value.0) + [Terminator] + DecodeItem(bs).value.1 == bs
    decreases |bs|
  {
    if bs[0] == Terminator {
      assert bs == [bs[0]] + bs[1..];
    } else {
      var c := DecodeChar(bs[0], bs[1], bs[2]).value;
      var rest := DecodeItem(bs[3..]).value;
      assert DecodeItem(bs).value == ([c] + rest.0, rest.1);
      CharCanonical(bs[0], bs[1], bs[2]);
      DecodeItemCanonical(bs[3..]);
      ConsCanonical(bs, c, rest.0, rest.1);
    }
  }

  /** One character's bytes in front of an item's encoding. */
  lemma ConsCanonical(bs: Bytes, c: char, s: string, rest: Bytes)
    requires |bs| >= 3 && EncodeChar(c) == [bs[0], bs[1], bs[2]]
    requires EncodeChars(s) + [Terminator] + rest == bs[3..]
    ensures EncodeChars([c] + s) + [Terminator] + rest == bs
  {
    EncodeCharsCons(c, s);
    assert bs[..3] == [bs[0], bs[1], bs[2]];
    calc {
      EncodeChars([c] + s) + [Terminator] + rest;
      EncodeChar(c) + (EncodeChars(s) + [Terminator] + rest);
      bs[..3] + bs[3..];
      bs;
    }
  }

  lemma EncodeCharsCons(c: char, s: string)
    ensures EncodeChars([c] + s) == EncodeChar(c) + EncodeChars(s)
  {
    assert ([c] + s)[1..] == s;
  }

  lemma {:induction false} DecodeItemsCanonical(bs: Bytes)
    requires DecodeItems(bs).Some?
    ensures EncodeItems(DecodeItems(bs).value) == bs
    decreases |bs|
  {
    if |bs| > 0 {
      var first := DecodeItem(bs).value;
      DecodeItemCanonical(bs);
      DecodeItemsCanonical(first.1);
      var xs := DecodeItems(bs).value;
      assert xs == [first.0] + DecodeItems(first.1).value;
      assert xs[1..] == DecodeItems(first.1).value;
    }
  }

  /** Bytes that decode as a string array are exactly that array's encoding,
      so decoding is injective too and re-encoding what was read reproduces
      the stored bytes. */
  lemma StringsCanonical(bs: Bytes)
    requires DecodeStrings(bs).Some?
    ensures EncodeStrings(DecodeStrings(bs).value) == bs
  {
    DecodeItemsCanonical(bs[1..]);
    assert bs == [bs[0]] + bs[1..];
  }
}

=== FILE: command.dfy ===
/** The `/character` slash command (`server/character-command.go`): the
    grammar of its queries and the checks each kind of query makes before
    it touches the store.

    A command is `/character ` followed by a query on one line. The query is
    classified in the source's order: help, defining a profile (its name,
    its picture, or both), deleting one, listing, choosing the channel's
    default profile, asking which defaults are set; anything else is not
    recognized.
 */
module Commands {
  import opened Wrappers
  import opened Strings
  import opened Sorting
  import opened Host
  import opened Profiles

  // ---------------------------------------------------------------------
  // The grammar

  const Trigger: string := "/character "

  /** Go's `.` does not match a line break. */
  predicate NoNewline(s: string) {
    forall i :: 0 <= i < |s| ==> s[i] != '\n'
  }

  /** `[a-z]+`. */
  predicate IsWord(s: string) {
    |s| > 0 && AllLowerLetters(s)
  }

  /** `^/character (.*)$`: the query after the trigger, which must not span
      lines. */
  function ParseTrigger(command: string): (r: Result<string>)
    ensures r.Ok? <==> HasPrefix(command, Trigger) && NoNewline(command[|Trigger|..])
    ensures r.Ok? ==> Trigger + r.value == command
    ensures r.Err? ==> r.error == NewError("Expected trigger /character but got " + command)
  {
    if HasPrefix(command, Trigger) && NoNewline(command[|Trigger|..]) then
      assert command == command[..|Trigger|] + command[|Trigger|..];
      Ok(command[|Trigger|..])
    else Err(NewError("Expected trigger /character but got " + command))
  }

  /** Every one-line query can be given. */
  lemma TriggerRoundTrip(query: string)
    requires NoNewline(query)
    ensures ParseTrigger(Trigger + query) == Ok(query)
  {
    assert (Trigger + query)[|Trigger|..] == query;
    assert (Trigger + query)[..|Trigger|] == Trigger;
  }

  /** What a query asks for. `Define` carries the three groups of
      `(picture )?([a-z]+)(=.*)?`: whether a picture is to be set, the
      identifier, and the display name after `=`, if any. */
  datatype Command =
    | Help
    | Define(setPicture: bool, profileId: string, name: Option<string>)
    | Delete(profileId: string)
    | List
    | IAm(profileId: string)
    | WhoAmI
    | Unrecognized

  const HelpWords: set<string> := {"help", "--help", "h", "-h"}
  const PicturePrefix: string := "picture "
  const DeletePrefix: string := "delete "
  const IAmPrefix: string := "I am "

  /** `([a-z]+)(=.*)?$` on what follows the optional `picture `: the
      longest run of letters, then the end or `=` and the rest of the line. */
  function DefineTail(s: string): (r: Option<(string, Option<string>)>)
    ensures r.Some? ==> IsWord(r.value.0)
    ensures r.Some? ==> s == r.value.0 + (if r.value.1.Some? then "=" + r.value.1.value else "")
    ensures r.Some? && r.value.1.Some? ==> NoNewline(r.value.1.value)
  {
    var n := LowerRun(s);
    if n == 0 then None
    else if n == |s| then
      assert s[..n] == s;
      Some((s, None))
    else if s[n] == '=' && NoNewline(s[n + 1..]) then
      assert s == s[..n] + "=" + s[n + 1..];
      Some((s[..n], Some(s[n + 1..])))
    else None
  }

  /** `^(picture )?([a-z]+)(=.*)?$`: the regular expression prefers to take
      `picture ` when the rest still matches; when it cannot, the letters of
      `picture` are followed by a space and nothing matches. */
  function MatchDefine(q: string): (r: Option<(bool, string, Option<string>)>)
  {
    if HasPrefix(q, PicturePrefix) && DefineTail(q[|PicturePrefix|..]).Some? then
      var t := DefineTail(q[|PicturePrefix|..]).value;
      Some((true, t.0, t.1))
    else match DefineTail(q)
      case Some(t) => Some((false, t.0, t.1))
      case None => None
  }

  /** `^<prefix>([a-z]+)$`: the word after the prefix. */
  function MatchWordAfter(prefix: string, q: string): (r: Option<string>)
    ensures r.Some? <==> HasPrefix(q, prefix) && IsWord(q[|prefix|..])
    ensures r.Some? ==> q == prefix + r.value
  {
    if HasPrefix(q, prefix) && IsWord(q[|prefix|..]) then
      assert q == q[..|prefix|] + q[|prefix|..];
      Some(q[|prefix|..])
    else None
  }

  /** The classification of `doExecuteCommand`, first match wins. The
      define form counts only when it asks for a picture or a name: a bare
      word is not a command. */
  function Classify(q: string): (r: Command)
    ensures r.Help? <==> q in HelpWords
    ensures r.Define? ==> IsWord(r.profileId) && (r.setPicture || r.name.Some?)
    ensures r.Define? && r.name.Some? ==> NoNewline(r.name.value)
    ensures r.Delete? || r.IAm? ==> IsWord(r.profileId)
  {
    if q in HelpWords then Help
    else if MatchDefine(q).Some? && (MatchDefine(q).value.0 || MatchDefine(q).value.2.Some?) then
      var m := MatchDefine(q).value;
      Define(m.0, m.1, m.2)
    else if MatchWordAfter(DeletePrefix, q).Some? then Delete(MatchWordAfter(DeletePrefix, q).value)
    else if q == "list" then List
    else if MatchWordAfter(IAmPrefix, q).Some? then IAm(MatchWordAfter(IAmPrefix, q).value)
    else if q == "who am I" then WhoAmI
    else Unrecognized
  }

  /** The commands a query can express. */
  predicate Expressible(c: Command) {
    match c
    case Define(setPicture, id, name) =>
      IsWord(id) && (setPicture || name.Some?) && (name.Some? ==> NoNewline(name.value))
    case Delete(id) => IsWord(id)
    case IAm(id) => IsWord(id)
    case _ => true
  }

  /** The canonical query for a command (`help` for help, the empty query
      for one that is not recognized). */
  function Render(c: Command): string {
    match c
    case Help => "help"
    case Define(setPicture, id, name) =>
      (if setPicture then PicturePrefix else "") + id + (if name.Some? then "=" + name.value else "")
    case Delete(id) => DeletePrefix + id
    case List => "list"
    case IAm(id) => IAmPrefix + id
    case WhoAmI => "who am I"
    case Unrecognized => ""
  }

  /** Every expressible command is read back from its query. */
  lemma ClassifyRender(c: Command)
    requires Expressible(c)
    ensures Classify(Render(c)) == c
  {
    match c
    case Help =>
    case Define(setPicture, id, name) =>
      if setPicture {
        PictureRoundTrip(id, name);
      } else {
        NameRoundTrip(id, name.value);
      }
    case Delete(id) => DeleteRoundTrip(id);
    case List => BareWord("list");
    case IAm(id) => IAmRoundTrip(id);
    case WhoAmI => WhoAmIRoundTrip();
    case Unrecognized =>
  }

  lemma DeleteRoundTrip(id: string)
    requires IsWord(id)
    ensures Classify(DeletePrefix + id) == Delete(id)
  {
    WordAfterRoundTrip(DeletePrefix, id);
    NotDefine(DeletePrefix + id, 6);
    NotHelp(DeletePrefix + id, 6);
  }

  lemma IAmRoundTrip(id: string)
    requires IsWord(id)
    ensures Classify(IAmPrefix + id) == IAm(id)
  {
    var q := IAmPrefix + id;
    WordAfterRoundTrip(IAmPrefix, id);
    NotDefine(q, 0);
    NotHelp(q, 1);
    assert !HasPrefix(q, DeletePrefix) by {
      assert q[0] != DeletePrefix[0];
    }
  }

  lemma WhoAmIRoundTrip()
    ensures Classify("who am I") == WhoAmI
  {
    NotDefine("who am I", 3);
    assert !HasPrefix("who am I", DeletePrefix) && !HasPrefix("who am I", IAmPrefix);
  }

  /** Every recognized query other than help is its command's canonical
      query: the classification loses nothing. */
  lemma RenderClassify(q: string)
    requires Classify(q) != Help && Classify(q) != Unrecognized
    ensures Render(Classify(q)) == q
  {
    if MatchDefine(q).Some? {
      MatchDefineRender(q);
    }
  }

  /** What the define pattern matched spells the query back. */
  lemma MatchDefineRender(q: string)
    requires MatchDefine(q).Some?
    ensures var m := MatchDefine(q).value;
      (if m.0 then PicturePrefix else "") + m.1 + (if m.2.Some? then "=" + m.2.value else "") == q
  {
    if HasPrefix(q, PicturePrefix) && DefineTail(q[|PicturePrefix|..]).Some? {
      assert q == q[..|PicturePrefix|] + q[|PicturePrefix|..];
    }
  }

  /** A query whose letters stop at position `n` at a character that is
      neither `=` nor the end, and that does not start with `picture `, is
      not a define query. */
  lemma NotDefine(q: string, n: nat)
    requires n < |q| && AllLowerLetters(q[..n]) && !IsLowerLetter(q[n]) && q[n] != '='
    requires !HasPrefix(q, PicturePrefix)
    ensures MatchDefine(q).None?
  {
    assert q == q[..n] + q[n..];
    LowerRunOf(q[..n], q[n..]);
  }

  /** A bare word is matched by the define pattern but asks for nothing, so
      it is not a define query. */
  lemma BareWord(q: string)
    requires IsWord(q) && !HasPrefix(q, PicturePrefix)
    ensures MatchDefine(q) == Some((false, q, None))
  {
    LowerRunOf(q, "");
    assert q + "" == q;
    assert q[..|q|] == q;
  }

  /** No help word has a space or `=` in it. */
  lemma NotHelp(q: string, n: nat)
    requires n < |q| && (q[n] == ' ' || q[n] == '=')
    ensures q !in HelpWords
  {
  }

  lemma WordAfterRoundTrip(prefix: string, id: string)
    requires IsWord(id)
    ensures MatchWordAfter(prefix, prefix + id) == Some(id)
  {
    assert (prefix + id)[..|prefix|] == prefix;
    assert (prefix + id)[|prefix|..] == id;
  }

  lemma DefineTailRoundTrip(id: string, name: Option<string>)
    requires IsWord(id) && (name.Some? ==> NoNewline(name.value))
    ensures DefineTail(id + (if name.Some? then "=" + name.value else "")) == Some((id, name))
  {
    var tail := if name.Some? then "=" + name.value else "";
    var s := id + tail;
    LowerRunOf(id, tail);
    assert s[..|id|] == id;
    if name.Some? {
      assert s[|id| + 1..] == name.value;
    }
  }

  /** `picture <id>[=<name>]` reads back as a picture definition. */
  lemma PictureRoundTrip(id: string, name: Option<string>)
    requires IsWord(id) && (name.Some? ==> NoNewline(name.value))
    ensures Classify(Render(Define(true, id, name))) == Define(true, id, name)
  {
    var tail := id + (if name.Some? then "=" + name.value else "");
    var q := PicturePrefix + tail;
    assert Render(Define(true, id, name)) == q;
    DefineTailRoundTrip(id, name);
    assert q[|PicturePrefix|..] == tail;
    assert q[..|PicturePrefix|] == PicturePrefix;
    NotHelp(q, 7);
  }

  /** `<id>=<name>` reads back as a name definition: the identifier cannot
      swallow `picture `, because it stops at the `=`. */
  lemma NameRoundTrip(id: string, name: string)
    requires IsWord(id) && NoNewline(name)
    ensures Classify(Render(Define(false, id, Some(name)))) == Define(false, id, Some(name))
  {
    var q := id + ("=" + name);
    assert Render(Define(false, id, Some(name))) == q;
    DefineTailRoundTrip(id, Some(name));
    assert q[|id|] == '=';
    // where `picture ` has its space, the query has a letter or the `=`
    var k := if |id| > 7 then 7 else |id|;
    assert q[k] == (if |id| > 7 then id[7] else '=');
    assert q[k] != PicturePrefix[k];
    NotHelp(q, |id|);
  }

  // ---------------------------------------------------------------------
  // Replies

  /** Why a command refuses to run; `Text` gives each its wording. */
  datatype Refusal =
    | MeAsCharacter
    | NotInThread
    | ManyFiles
    | NoFile
    | EmptyFileId
    | NameNeeded(profileId: string)
    | DeleteSelf
    | NoSuchProfile(profileId: string)
    | NotRecognized

  function Text(why: Refusal): string {
    match why
    case MeAsCharacter =>
      "You cannot use `myself` or `me` as a character profile identifyer. Use the Mattermost built-in functionality to change the display name or profile picture for your real Mattermost profile."
    case NotInThread =>
      "Setting character profile picture can only be done in a thread, with the parent post containing the picture."
    case ManyFiles => "Parent post cannot have more than one file when creating or modifying a character profile."
    case NoFile => "No more than one file when creating or modifying a character profile."
    case EmptyFileId => "Could not find file Id in parent post."
    case NameNeeded(profileId) =>
      "No character profile with identifyer `" + profileId + "` exists. In order to create it, you must at least provide a display name. Try `/character help` for details."
    case DeleteSelf =>
      "Please do not try to delete yourself. If you have suicidal thoughts, call 90101 (Sweden) or +1-800-273-8255 (International)."
    case NoSuchProfile(profileId) => "Character profile `" + profileId + "` does not exist."
    case NotRecognized => "Unrecognized command. Try `/character help`."
  }

  /** What a step of a command comes to: a value, a refusal of the command's
      own, or an error passed on from the store or the host. */
  datatype Outcome<+T> = Done(value: T) | Refused(why: Refusal) | Failed(error: AppError) {
    /** The source's view: every refusal is an error with status 400. */
    function AsResult(): Result<T> {
      match this
      case Done(v) => Ok(v)
      case Refused(why) => Err(NewError(Text(why)))
      case Failed(e) => Err(e)
    }

    /** A step that produced nothing, seen as a step of another type. */
    function Cast<U>(): Outcome<U>
      requires !Done?
    {
      match this
      case Refused(why) => Refused(why)
      case Failed(e) => Failed(e)
    }
  }

  /** What a command leaves behind: the backend after it ran, and the text
      shown to the user or why there is none. */
  datatype Reply = Reply(be: Backend, answer: Outcome<string>)

  function Refuse(be: Backend, why: Refusal): Reply {
    Reply(be, Refused(why))
  }

  // ---------------------------------------------------------------------
  // Defining a profile

  /** The picture a command in a thread takes: the one file of the thread's
      root message. */
  function RootPicture(be: Backend, rootId: string): (r: Outcome<string>)
    ensures r.Done? <==> rootId != "" && GetPost(be, rootId).Ok? && |be.posts[rootId].fileIds| == 1 && be.posts[rootId].fileIds[0] != ""
    ensures r.Done? ==> r.value == be.posts[rootId].fileIds[0]
    ensures rootId == "" ==> r == Refused(NotInThread)
    ensures rootId != "" && GetPost(be, rootId).Err? ==> r == Failed(GetPost(be, rootId).error)
  {
    if rootId == "" then Refused(NotInThread)
    else
      match GetPost(be, rootId)
      case Err(e) => Failed(e)
      case Ok(root) =>
        if |root.fileIds| > 1 then Refused(ManyFiles)
        else if |root.fileIds| == 0 then Refused(NoFile)
        else if root.fileIds[0] == "" then Refused(EmptyFileId)
        else Done(root.fileIds[0])
  }

  /** A picture file a profile can show: a known image file with a
      permitted extension, the only file of a live message. */
  predicate HostPicture(be: Backend, fileId: string) {
    && fileId in be.fileInfos
    && GetPost(be, be.fileInfos[fileId].postId).Ok?
    && PictureValid(fileId, be.fileInfos[fileId], Some(be.posts[be.fileInfos[fileId].postId]))
  }

  function CreatedMessage(profileId: string, name: string, setPicture: bool): string {
    "Character profile `" + profileId + "` created with display name \"" + name + "\""
      + (if setPicture then " and a profile picture" else "")
  }

  /** The report of a modification, naming what changed and what stayed. */
  function ModifiedMessage(profileId: string, prior: Profile, name: Option<string>, setPicture: bool, pictureFileId: string): string {
    "Character profile `" + profileId + "` modified by"
      + NameReport(prior, name)
      + (if setPicture then PictureReport(prior, name.Some?, pictureFileId) else "")
  }

  function NameReport(prior: Profile, name: Option<string>): string {
    match name
    case None => ""
    case Some(n) =>
      if n == prior.name then " setting the display name to \"" + n + "\" (same as before)"
      else " changing the display name from \"" + prior.name + "\" to \"" + n + "\""
  }

  function PictureReport(prior: Profile, afterName: bool, pictureFileId: string): string {
    (if afterName then " and" else "")
      + (if pictureFileId == prior.pictureFileId then " updating the profile picture (to the same as before)"
         else " updating the profile picture")
  }

  /** A profile with only what is stored filled in, as it is read back. */
  function Fresh(userId: string, profileId: string, name: string, pictureFileId: string): Profile {
    Profile(userId, profileId, name, pictureFileId, None, None, Character, None)
  }

  /** The profile to store for an existing identifier, and the report. With
      `rebuild`, only the stored name and picture file are carried over;
      without it, the profile as read is copied whole (its file record, its
      message, its status and error) and the new name or picture file
      written over it, as the source does. */
  function Modification(be: Backend, userId: string, profileId: string, setPicture: bool, pictureFileId: string,
                        name: Option<string>, rebuild: bool): (r: Outcome<(Profile, string)>)
    ensures !r.Refused?
    ensures r.Done? <==> GetProfile(be, userId, profileId, {Character, Corrupt}).Ok?
    ensures r.Done? ==> var prior := GetProfile(be, userId, profileId, {Character, Corrupt}).value;
      && r.value.0.identifier == profileId
      && r.value.0.name == (if name.Some? then name.value else prior.name)
      && r.value.0.pictureFileId == (if setPicture then pictureFileId else prior.pictureFileId)
    ensures r.Done? && rebuild ==> r.value.0.pictureFileInfo.None? && r.value.0.picturePost.None? && r.value.0.status == Character
  {
    match GetProfile(be, userId, profileId, {Character, Corrupt})
    case Err(e) => Failed(e)
    case Ok(prior) =>
      var newName := if name.Some? then name.value else prior.name;
      var newPicture := if setPicture then pictureFileId else prior.pictureFileId;
      var p := if rebuild then Fresh(userId, profileId, newName, newPicture)
               else prior.(name := newName, pictureFileId := newPicture);
      Done((p, ModifiedMessage(profileId, prior, name, setPicture, pictureFileId)))
  }

  /** The profile to store for a new identifier, which needs a name. */
  function Creation(userId: string, profileId: string, setPicture: bool, pictureFileId: string, name: Option<string>): (r: Outcome<(Profile, string)>)
    ensures r.Done? <==> name.Some?
    ensures !r.Done? ==> r == Refused(NameNeeded(profileId))
    ensures r.Done? ==> r.value.0 == Fresh(userId, profileId, name.value, pictureFileId)
  {
    match name
    case None => Refused(NameNeeded(profileId))
    case Some(n) => Done((Fresh(userId, profileId, n, pictureFileId), CreatedMessage(profileId, n, setPicture)))
  }

  /** Storing the profile a define query built, or passing on why none
      was built. */
  function StoreBuilt(be: Backend, userId: string, profileId: string, built: Outcome<(Profile, string)>): (r: Reply)
    requires built.Done? ==> built.value.0.identifier == profileId
    ensures r.answer.Done? <==> built.Done? && SetProfile(be, userId, built.value.0).Ok?
    ensures !built.Done? ==> r == Reply(be, built.Cast())
    ensures !r.answer.Done? ==> r.be == be
    ensures r.answer.Done? ==> r.be == SetProfile(be, userId, built.value.0).value && r.answer.value == built.value.1
    ensures r.answer.Done? ==> r.be.(kv := be.kv) == be
    ensures r.answer.Done? ==> forall k :: k != ProfileKey(userId, profileId) ==> KvGet(r.be.kv, k) == KvGet(be.kv, k)
    ensures r.answer.Done? ==> ProfileExists(r.be.kv, userId, profileId)
  {
    match built
    case Refused(why) => Reply(be, Refused(why))
    case Failed(e) => Reply(be, Failed(e))
    case Done(job) =>
      match SetProfile(be, userId, job.0)
      case Err(e) => Reply(be, Failed(e))
      case Ok(stored) => Reply(stored, Done(job.1))
  }

  /** The define query: the picture is looked up first, then the profile is
      created or modified and stored. `rebuild` chooses how a modification
      builds the profile it stores. */
  function DefineWith(be: Backend, userId: string, rootId: string, setPicture: bool, profileId: string,
                      name: Option<string>, rebuild: bool): (r: Reply)
    ensures IsMe(profileId) ==> r == Refuse(be, MeAsCharacter)
    ensures !IsMe(profileId) && setPicture && !RootPicture(be, rootId).Done? ==> r == Reply(be, RootPicture(be, rootId).Cast())
    ensures !IsMe(profileId) && !ProfileExists(be.kv, userId, profileId) && name.None? && (setPicture ==> RootPicture(be, rootId).Done?) ==>
      r == Refuse(be, NameNeeded(profileId))
    ensures !r.answer.Done? ==> r.be == be
    ensures r.answer.Done? ==> r.be.(kv := be.kv) == be
    ensures r.answer.Done? ==> forall k :: k != ProfileKey(userId, profileId) ==> KvGet(r.be.kv, k) == KvGet(be.kv, k)
    ensures r.answer.Done? ==> ProfileExists(r.be.kv, userId, profileId)
  {
    if IsMe(profileId) then Refuse(be, MeAsCharacter)
    else
      var existed := ProfileExists(be.kv, userId, profileId);
      match (if setPicture then RootPicture(be, rootId) else Done(""))
      case Refused(why) => Refuse(be, why)
      case Failed(e) => Reply(be, Failed(e))
      case Done(pictureFileId) =>
        StoreBuilt(be, userId, profileId,
          if existed then Modification(be, userId, profileId, setPicture, pictureFileId, name, rebuild)
          else Creation(userId, profileId, setPicture, pictureFileId, name))
  }

  /** The define query as the source writes it. */
  function DefineProfileAsWritten(be: Backend, userId: string, rootId: string, setPicture: bool, profileId: string,
                                  name: Option<string>): (r: Reply)
    ensures IsMe(profileId) ==> r == Refuse(be, MeAsCharacter)
    ensures !IsMe(profileId) && setPicture && !RootPicture(be, rootId).Done? ==> r == Reply(be, RootPicture(be, rootId).Cast())
    ensures !IsMe(profileId) && !ProfileExists(be.kv, userId, profileId) && name.None? && (setPicture ==> RootPicture(be, rootId).Done?) ==>
      r == Refuse(be, NameNeeded(profileId))
    ensures !r.answer.Done? ==> r.be == be
    ensures r.answer.Done? ==> r.be.(kv := be.kv) == be
    ensures r.answer.Done? ==> forall k :: k != ProfileKey(userId, profileId) ==> KvGet(r.be.kv, k) == KvGet(be.kv, k)
    ensures r.answer.Done? ==> StoresRecord(be, r.be, userId, rootId, setPicture, profileId, name)
  {
    var r := DefineWith(be, userId, rootId, setPicture, profileId, name, false);
    if r.answer.Done? then
      DefineStores(be, userId, rootId, setPicture, profileId, name, false);
      r
    else r
  }

  /** After a successful definition the profile's key holds a record of the
      name and picture file asked for; what was not asked for is kept from
      the profile as it was, and a new profile has no picture unless one was
      given. */
  ghost predicate StoresRecord(before: Backend, after: Backend, userId: string, rootId: string, setPicture: bool,
                               profileId: string, name: Option<string>) {
    var key := ProfileKey(userId, profileId);
    && key in after.kv
    && var record := DecodeProfile(after.kv[key]);
    && record.Some?
    && (name.Some? ==> record.value.0 == name.value)
    && (setPicture ==> RootPicture(before, rootId).Done? && record.value.1 == RootPicture(before, rootId).value)
    && (!ProfileExists(before.kv, userId, profileId) ==> name.Some? && (!setPicture ==> record.value.1 == ""))
    && (ProfileExists(before.kv, userId, profileId) ==>
          var prior := GetProfile(before, userId, profileId, {Character, Corrupt});
          && prior.Ok?
          && (name.None? ==> record.value.0 == prior.value.name)
          && (!setPicture ==> record.value.1 == prior.value.pictureFileId))
  }

  /** Whichever way a modification is built, a successful define stores
      the record asked for. */
  lemma DefineStores(be: Backend, userId: string, rootId: string, setPicture: bool, profileId: string,
                     name: Option<string>, rebuild: bool)
    requires DefineWith(be, userId, rootId, setPicture, profileId, name, rebuild).answer.Done?
    ensures StoresRecord(be, DefineWith(be, userId, rootId, setPicture, profileId, name, rebuild).be,
                         userId, rootId, setPicture, profileId, name)
  {
    var existed := ProfileExists(be.kv, userId, profileId);
    var pictureFileId := if setPicture then RootPicture(be, rootId).value else "";
    var built := if existed then Modification(be, userId, profileId, setPicture, pictureFileId, name, rebuild)
                 else Creation(userId, profileId, setPicture, pictureFileId, name);
    assert DefineWith(be, userId, rootId, setPicture, profileId, name, rebuild).be == SetProfile(be, userId, built.value.0).value;
  }

  /** As written, renaming a character succeeds whenever the new name is
      valid: the copied profile keeps a file record and message that match
      its own picture. */
  lemma RenameAsWritten(be: Backend, userId: string, profileId: string, name: string)
    requires !IsMe(profileId) && ProfileExists(be.kv, userId, profileId) && ValidDisplayName(name)
    requires GetProfile(be, userId, profileId, {Character, Corrupt}).Ok?
    requires GetProfile(be, userId, profileId, {Character, Corrupt}).value.status == Character
    ensures DefineProfileAsWritten(be, userId, "", false, profileId, Some(name)).answer.Done?
  {
    var prior := GetProfile(be, userId, profileId, {Character, Corrupt}).value;
    var p := prior.(name := name);
    assert ProfileValid(prior, profileId);
    assert Populate(be, p) == Ok(p);
    assert ProfileValid(p, profileId);
  }

  /** After a successful definition the identifier resolves as a valid
      character with the name and picture asked for; what was not asked for
      is kept from the profile as it was, and a new profile has no picture
      unless one was given. */
  ghost predicate ReadsBack(before: Backend, after: Backend, userId: string, rootId: string, setPicture: bool,
                            profileId: string, name: Option<string>) {
    var got := GetProfile(after, userId, profileId, {Character});
    && got.Ok?
    && (name.Some? ==> got.value.name == name.value)
    && (setPicture ==> RootPicture(before, rootId).Done? && got.value.pictureFileId == RootPicture(before, rootId).value)
    && (!ProfileExists(before.kv, userId, profileId) ==> name.Some? && (!setPicture ==> got.value.pictureFileId == ""))
    && (ProfileExists(before.kv, userId, profileId) ==>
          var prior := GetProfile(before, userId, profileId, {Character, Corrupt});
          && prior.Ok?
          && (name.None? ==> got.value.name == prior.value.name)
          && (!setPicture ==> got.value.pictureFileId == prior.value.pictureFileId))
  }

  /** The define query, storing only the name and picture file of a modified
      profile so that it is populated and validated afresh. */
  function DefineProfile(be: Backend, userId: string, rootId: string, setPicture: bool, profileId: string,
                         name: Option<string>): (r: Reply)
    ensures IsMe(profileId) ==> r == Refuse(be, MeAsCharacter)
    ensures !IsMe(profileId) && setPicture && rootId == "" ==> r == Refuse(be, NotInThread)
    ensures !IsMe(profileId) && setPicture && !RootPicture(be, rootId).Done? ==> r == Reply(be, RootPicture(be, rootId).Cast())
    ensures !IsMe(profileId) && !ProfileExists(be.kv, userId, profileId) && name.None? && (setPicture ==> RootPicture(be, rootId).Done?) ==>
      r == Refuse(be, NameNeeded(profileId))
    ensures !r.answer.Done? ==> r.be == be
    ensures r.answer.Done? ==> r.be.(kv := be.kv) == be
    ensures r.answer.Done? ==> forall k :: k != ProfileKey(userId, profileId) ==> KvGet(r.be.kv, k) == KvGet(be.kv, k)
    ensures r.answer.Done? ==> ReadsBack(be, r.be, userId, rootId, setPicture, profileId, name)
  {
    var r := DefineWith(be, userId, rootId, setPicture, profileId, name, true);
    if r.answer.Done? then
      DefineReadsBack(be, userId, rootId, setPicture, profileId, name);
      r
    else r
  }

  lemma DefineReadsBack(be: Backend, userId: string, rootId: string, setPicture: bool, profileId: string, name: Option<string>)
    requires DefineWith(be, userId, rootId, setPicture, profileId, name, true).answer.Done?
    ensures ReadsBack(be, DefineWith(be, userId, rootId, setPicture, profileId, name, true).be, userId, rootId, setPicture, profileId, name)
  {
    var existed := ProfileExists(be.kv, userId, profileId);
    var pictureFileId := if setPicture then RootPicture(be, rootId).value else "";
    var built := if existed then Modification(be, userId, profileId, setPicture, pictureFileId, name, true)
                 else Creation(userId, profileId, setPicture, pictureFileId, name);
    var p := built.value.0;
    assert DefineWith(be, userId, rootId, setPicture, profileId, name, true).be == SetProfile(be, userId, p).value;
    SetThenGet(be, userId, p, {Character});
  }

  /** A profile built afresh from a valid identifier, a valid name and a
      picture file that is either absent or showable is stored. */
  lemma FreshStores(be: Backend, userId: string, profileId: string, name: string, pictureFileId: string)
    requires !IsMe(profileId) && ValidIdentifier(profileId) && ValidDisplayName(name)
    requires pictureFileId == "" || HostPicture(be, pictureFileId)
    ensures SetProfile(be, userId, Fresh(userId, profileId, name, pictureFileId)).Ok?
  {
    var p := Fresh(userId, profileId, name, pictureFileId);
    if pictureFileId != "" {
      var q := Populate(be, p).value;
      assert q.pictureFileInfo == Some(be.fileInfos[pictureFileId]);
      assert PictureConsistent(q);
    }
  }

  /** When everything the stored profile needs is at hand, defining
      succeeds, for a new profile, a character or a corrupt one alike. */
  lemma DefineSucceeds(be: Backend, userId: string, rootId: string, setPicture: bool, profileId: string, name: Option<string>)
    requires !IsMe(profileId) && ValidIdentifier(profileId)
    requires setPicture ==> RootPicture(be, rootId).Done? && HostPicture(be, RootPicture(be, rootId).value)
    requires !ProfileExists(be.kv, userId, profileId) ==> name.Some? && ValidDisplayName(name.value)
    requires ProfileExists(be.kv, userId, profileId) ==>
      var prior := GetProfile(be, userId, profileId, {Character, Corrupt});
      && prior.Ok?
      && ValidDisplayName(if name.Some? then name.value else prior.value.name)
      && (!setPicture ==> prior.value.pictureFileId == "" || HostPicture(be, prior.value.pictureFileId))
    ensures DefineProfile(be, userId, rootId, setPicture, profileId, name).answer.Done?
  {
    var existed := ProfileExists(be.kv, userId, profileId);
    var pictureFileId := if setPicture then RootPicture(be, rootId).value else "";
    var built := if existed then Modification(be, userId, profileId, setPicture, pictureFileId, name, true)
                 else Creation(userId, profileId, setPicture, pictureFileId, name);
    var p := built.value.0;
    assert p == Fresh(userId, profileId, p.name, p.pictureFileId);
    FreshStores(be, userId, profileId, p.name, p.pictureFileId);
  }

  /** Changing the picture of a character that already has one: the source
      keeps the file record and message of the old picture, so validation
      finds the message does not hold the new file and the change is always
      refused; built afresh, the change goes through. */
  lemma PictureChangeFinding(be: Backend, userId: string, rootId: string, profileId: string)
    requires !IsMe(profileId) && ProfileExists(be.kv, userId, profileId)
    requires var prior := GetProfile(be, userId, profileId, {Character, Corrupt});
      prior.Ok? && prior.value.status == Character && prior.value.pictureFileId != ""
    requires RootPicture(be, rootId).Done? && HostPicture(be, RootPicture(be, rootId).value)
    requires RootPicture(be, rootId).value != GetProfile(be, userId, profileId, {Character, Corrupt}).value.pictureFileId
    ensures !DefineProfileAsWritten(be, userId, rootId, true, profileId, None).answer.Done?
    ensures DefineProfile(be, userId, rootId, true, profileId, None).answer.Done?
  {
    var prior := GetProfile(be, userId, profileId, {Character, Corrupt}).value;
    assert ProfileValid(prior, profileId);
    StalePictureRefused(be, userId, prior, RootPicture(be, rootId).value);
    DefineSucceeds(be, userId, rootId, true, profileId, None);
  }

  lemma StalePictureRefused(be: Backend, userId: string, prior: Profile, pictureFileId: string)
    requires prior.pictureFileId != "" && prior.pictureFileInfo.Some? && ProfileValid(prior, prior.identifier)
    requires pictureFileId != prior.pictureFileId
    ensures SetProfile(be, userId, prior.(pictureFileId := pictureFileId)).Err?
  {
    var p := prior.(pictureFileId := pictureFileId);
    assert Populate(be, p) == Ok(p);
  }

  /** A host in which user `u` owns character `x`, whose picture is file
      `f` attached alone to message `p`, and in which message `r` holds only
      the image `g`. */
  function PictureChangeHost(): Backend {
    var x := Profile("u", "x", "X", "f", None, None, Character, None);
    Backend(
      map[ProfileKey("u", "x") := EncodeProfile(x)],
      map["p" := Post("p", "u", "c", "", "", 0, ["f"], map[]),
          "r" := Post("r", "u", "c", "", "", 0, ["g"], map[])],
      map["f" := FileInfo("f", "p", "f.png", "png", true, None),
          "g" := FileInfo("g", "r", "g.png", "png", true, None)],
      map[], map[], [], "")
  }

  /** The input that shows the picture finding: `/character picture x` in
      the thread of `r` is refused as written and succeeds when rebuilt. */
  lemma PictureChangeExample()
    ensures !DefineProfileAsWritten(PictureChangeHost(), "u", "r", true, "x", None).answer.Done?
    ensures DefineProfile(PictureChangeHost(), "u", "r", true, "x", None).answer.Done?
  {
    PictureChangeStored();
    PictureChangeRoot();
    PictureChangeFinding(PictureChangeHost(), "u", "r", "x");
  }

  lemma PictureChangeStored()
    ensures ProfileExists(PictureChangeHost().kv, "u", "x")
    ensures var prior := GetProfile(PictureChangeHost(), "u", "x", {Character, Corrupt});
      prior.Ok? && prior.value.status == Character && prior.value.pictureFileId == "f"
  {
    var be := PictureChangeHost();
    var x := Profile("u", "x", "X", "f", None, None, Character, None);
    ProfileRoundTrip(x);
    var p := x.(pictureFileInfo := Some(be.fileInfos["f"]), picturePost := Some(be.posts["p"]));
    assert Populate(be, x) == Ok(p);
    assert ValidDisplayName("X");
    assert ValidExtension("png") by { assert LowerAsciiString("png") == "png"; }
    assert ProfileValid(p, "x");
  }

  lemma PictureChangeRoot()
    ensures RootPicture(PictureChangeHost(), "r") == Done("g")
    ensures HostPicture(PictureChangeHost(), "g")
    ensures "g" != "f"
  {
    assert ValidExtension("png") by { assert LowerAsciiString("png") == "png"; }
  }

  /** Modifying a profile that reads as corrupt: the source copies its
      status and error into the profile it stores, so validation always
      refuses it; built afresh, a new name (and a showable picture, if it
      has one) repairs it. */
  lemma CorruptRepairFinding(be: Backend, userId: string, rootId: string, setPicture: bool, profileId: string, name: string)
    requires !IsMe(profileId) && ValidIdentifier(profileId) && ValidDisplayName(name)
    requires ProfileExists(be.kv, userId, profileId)
    requires var prior := GetProfile(be, userId, profileId, {Character, Corrupt});
      prior.Ok? && prior.value.status == Corrupt
    requires setPicture ==> RootPicture(be, rootId).Done? && HostPicture(be, RootPicture(be, rootId).value)
    requires !setPicture ==> GetProfile(be, userId, profileId, {Character, Corrupt}).value.pictureFileId == ""
    ensures !DefineProfileAsWritten(be, userId, rootId, setPicture, profileId, Some(name)).answer.Done?
    ensures DefineProfile(be, userId, rootId, setPicture, profileId, Some(name)).answer.Done?
  {
    var prior := GetProfile(be, userId, profileId, {Character, Corrupt}).value;
    var pictureFileId := if setPicture then RootPicture(be, rootId).value else prior.pictureFileId;
    CorruptRefused(be, userId, prior.(name := name, pictureFileId := pictureFileId));
    DefineSucceeds(be, userId, rootId, setPicture, profileId, Some(name));
  }

  /** A host in which user `u` has a record for `x` that decodes but holds
      an empty display name, so `x` reads as corrupt. */
  function CorruptHost(): Backend {
    var x := Profile("u", "x", "", "", None, None, Character, None);
    Backend(map[ProfileKey("u", "x") := EncodeProfile(x)], map[], map[], map[], map[], [], "")
  }

  /** The input that shows the corrupt finding: `/character x=X` is refused
      as written and repairs the profile when rebuilt. */
  lemma CorruptRepairExample()
    ensures !DefineProfileAsWritten(CorruptHost(), "u", "", false, "x", Some("X")).answer.Done?
    ensures DefineProfile(CorruptHost(), "u", "", false, "x", Some("X")).answer.Done?
  {
    var be := CorruptHost();
    ProfileRoundTrip(Profile("u", "x", "", "", None, None, Character, None));
    assert !ValidDisplayName("");
    assert ValidDisplayName("X");
    assert GetProfile(be, "u", "x", {Character, Corrupt}).value.status == Corrupt;
    CorruptRepairFinding(be, "u", "", false, "x", "X");
  }

  lemma CorruptRefused(be: Backend, userId: string, p: Profile)
    requires p.status == Corrupt
    ensures SetProfile(be, userId, p).Err?
  {
  }

  // ---------------------------------------------------------------------
  // Deleting a profile

  /** The delete query: only an existing character profile is deleted. */
  function DeleteCommand(be: Backend, userId: string, profileId: string): (r: Reply)
    ensures r.answer.Done? <==> !IsMe(profileId) && ProfileExists(be.kv, userId, profileId)
    ensures IsMe(profileId) ==> r == Refuse(be, DeleteSelf)
    ensures !IsMe(profileId) && !ProfileExists(be.kv, userId, profileId) ==> r == Refuse(be, NoSuchProfile(profileId))
    ensures !r.answer.Done? ==> r.be == be
    ensures r.answer.Done? ==> r.be.(kv := be.kv) == be && !ProfileExists(r.be.kv, userId, profileId)
    ensures r.answer.Done? ==> forall k :: k != ProfileKey(userId, profileId) ==> KvGet(r.be.kv, k) == KvGet(be.kv, k)
  {
    if IsMe(profileId) then Refuse(be, DeleteSelf)
    else if !ProfileExists(be.kv, userId, profileId) then Refuse(be, NoSuchProfile(profileId))
    else Reply(be.(kv := DeleteProfile(be.kv, userId, profileId)), Done("Deleted character profile `" + profileId + "`."))
  }

  /** A profile is deleted once: deleting it again is refused and changes
      nothing. */
  lemma DeleteTwice(be: Backend, userId: string, profileId: string)
    requires DeleteCommand(be, userId, profileId).answer.Done?
    ensures var after := DeleteCommand(be, userId, profileId).be;
      DeleteCommand(after, userId, profileId) == Refuse(after, NoSuchProfile(profileId))
  {
  }

  /** What was defined can be deleted. */
  lemma DefineThenDelete(be: Backend, userId: string, rootId: string, setPicture: bool, profileId: string, name: Option<string>)
    requires DefineProfile(be, userId, rootId, setPicture, profileId, name).answer.Done?
    ensures DeleteCommand(DefineProfile(be, userId, rootId, setPicture, profileId, name).be, userId, profileId).answer.Done?
  {
  }

  /** After a deletion the identifier is free: naming it creates a new
      profile. */
  lemma DeleteThenCreate(be: Backend, userId: string, profileId: string, name: string)
    requires DeleteCommand(be, userId, profileId).answer.Done?
    requires ValidIdentifier(profileId) && ValidDisplayName(name)
    ensures DefineProfile(DeleteCommand(be, userId, profileId).be, userId, "", false, profileId, Some(name)).answer
      == Done(CreatedMessage(profileId, name, false))
  {
    var after := DeleteCommand(be, userId, profileId).be;
    DefineSucceeds(after, userId, "", false, profileId, Some(name));
  }

  // ---------------------------------------------------------------------
  // Choosing the channel's profile

  const AlreadyYourself: string := "You are already yourself. Multiplicity was a fun movie, but let's leave it at that."
  const YourselfAgain: string := "You are now yourself again. Hope that feels ok."

  function AlreadyAs(name: string): string {
    "You are already \"" + name + "\", and if that's not enough you should've rolled better stats."
  }

  function KnownAs(name: string): string {
    "You are now known as \"" + name + "\"."
  }

  /** The `I am` query: `me` or `myself` unbinds the channel, any other
      identifier binds it to that character. */
  function IAmCommand(be: Backend, userId: string, channelId: string, profileId: string): (r: Reply)
    ensures var before := GetDefaultProfileIdentifier(be.kv, userId, channelId);
      r.answer.Done? <==>
        if IsMe(profileId) then IsMe(before) || userId in be.users
        else GetProfile(be, userId, profileId, {Character}).Ok?
    ensures !r.answer.Refused?
    ensures r.be.(kv := be.kv) == be
    ensures forall k :: k != DefaultProfileKey(userId, channelId) ==> KvGet(r.be.kv, k) == KvGet(be.kv, k)
    ensures r.answer.Done? ==> (IsMe(GetDefaultProfileIdentifier(r.be.kv, userId, channelId)) <==> IsMe(profileId))
    ensures r.answer.Done? && !IsMe(profileId) ==> GetDefaultProfileIdentifier(r.be.kv, userId, channelId) == profileId
    ensures !IsMe(profileId) && !r.answer.Done? ==> r.be == be
    ensures IsMe(profileId) && !IsMe(GetDefaultProfileIdentifier(be.kv, userId, channelId)) ==>
      GetDefaultProfileIdentifier(r.be.kv, userId, channelId) == ""
    ensures IsMe(profileId) && IsMe(GetDefaultProfileIdentifier(be.kv, userId, channelId)) ==>
      r == Reply(be, Done(AlreadyYourself))
    ensures IsMe(profileId) && !IsMe(GetDefaultProfileIdentifier(be.kv, userId, channelId)) ==>
      r.answer == if userId in be.users then Done(YourselfAgain) else Failed(GetUser(be, userId).error)
    ensures r.answer.Done? && !IsMe(profileId) ==>
      var name := GetProfile(be, userId, profileId, {Character}).value.name;
      r.answer.value == if GetDefaultProfileIdentifier(be.kv, userId, channelId) == profileId then AlreadyAs(name) else KnownAs(name)
  {
    var before := GetDefaultProfileIdentifier(be.kv, userId, channelId);
    if IsMe(profileId) then
      if IsMe(before) then Reply(be, Done(AlreadyYourself))
      else
        var unbound := be.(kv := RemoveDefaultProfile(be.kv, userId, channelId));
        match GetProfile(unbound, userId, "", {Me})
        case Err(e) => Reply(unbound, Failed(e))
        case Ok(_) => Reply(unbound, Done(YourselfAgain))
    else
      match SetDefaultProfileIdentifier(be, userId, channelId, profileId)
      case Err(e) => Reply(be, Failed(e))
      case Ok(bound) =>
        Reply(bound.0, Done(if before == profileId then AlreadyAs(bound.1.name) else KnownAs(bound.1.name)))
  }

  /** The default-profile keys and the profile keys never meet. */
  lemma DefaultKeyNotProfileKey(userId: string, channelId: string, owner: string, profileId: string)
    ensures DefaultProfileKey(userId, channelId) != ProfileKey(owner, profileId)
  {
    assert DefaultProfileKey(userId, channelId)[0] != ProfileKey(owner, profileId)[0];
  }

  /** Saying who you are twice: the second time changes nothing and says
      you already are. */
  lemma IAmTwice(be: Backend, userId: string, channelId: string, profileId: string)
    requires IAmCommand(be, userId, channelId, profileId).answer.Done?
    ensures var once := IAmCommand(be, userId, channelId, profileId).be;
      var twice := IAmCommand(once, userId, channelId, profileId);
      && twice.be == once
      && twice.answer == Done(if IsMe(profileId) then AlreadyYourself
                              else AlreadyAs(GetProfile(be, userId, profileId, {Character}).value.name))
  {
    var once := IAmCommand(be, userId, channelId, profileId).be;
    if !IsMe(profileId) {
      DefaultKeyNotProfileKey(userId, channelId, userId, profileId);
      GetProfileReadsOneKey(be, once.kv, userId, profileId, {Character});
      assert once.(kv := be.kv) == be;
      assert GetProfile(once, userId, profileId, {Character}) == GetProfile(be, userId, profileId, {Character});
    }
  }

  // ---------------------------------------------------------------------
  // Listing the channels a profile is the default in

  /** The place of a mention's group in the listing: channels, then group
      chats, then direct messages, then anything else. */
  function Rank(mention: string): (n: nat)
    ensures 1 <= n <= 4
  {
    if HasPrefix(mention, "~") then 1
    else if HasPrefix(mention, "[Group") then 2
    else if HasPrefix(mention, "@") then 3
    else 4
  }

  /** The labels `sortChannelMentions` gives the groups. */
  function CategoryLabel(n: nat): string
    requires 1 <= n <= 4
  {
    if n == 1 then "1: Channel"
    else if n == 2 then "2: Group"
    else if n == 3 then "3: Direct message"
    else "4: Unknown"
  }

  /** The label of the group a mention is in; the source compares these
      labels as strings. */
  function MentionCategory(mention: string): string {
    CategoryLabel(Rank(mention))
  }

  /** Each label starts with its place written as a digit. */
  lemma LabelDigit(n: nat)
    requires 1 <= n <= 4
    ensures |CategoryLabel(n)| > 0 && CategoryLabel(n)[0] as int == '0' as int + n
  {
  }

  /** Labels of different places differ in their first character. */
  lemma LabelsByDigit(la: string, lb: string, n: nat, k: nat)
    requires 1 <= n <= 4 && 1 <= k <= 4
    requires |la| > 0 && |lb| > 0 && la[0] as int == '0' as int + n && lb[0] as int == '0' as int + k
    ensures n != k ==> (Less(la, lb) <==> n < k)
    ensures n != k ==> la != lb
  {
  }

  /** Comparing the labels as strings orders the groups by their place. */
  lemma CategoryOrder(a: string, b: string)
    ensures Less(MentionCategory(a), MentionCategory(b)) <==> Rank(a) < Rank(b)
    ensures MentionCategory(a) == MentionCategory(b) <==> Rank(a) == Rank(b)
  {
    var n, k := Rank(a), Rank(b);
    LabelDigit(n);
    LabelDigit(k);
    LabelsByDigit(CategoryLabel(n), CategoryLabel(k), n, k);
    if n == k {
      LessIrreflexive(CategoryLabel(n));
    }
  }

  /** The `less` function `sortChannelMentions` gives `sort.Slice`. */
  function MentionLess(a: string, b: string): bool {
    if MentionCategory(a) != MentionCategory(b) then Less(MentionCategory(a), MentionCategory(b))
    else Less(a, b)
  }

  /** Groups first, then the mentions themselves within a group. */
  lemma MentionLessByRank(a: string, b: string)
    ensures MentionLess(a, b) <==> Rank(a) < Rank(b) || (Rank(a) == Rank(b) && Less(a, b))
  {
    CategoryOrder(a, b);
  }

  lemma MentionLessStrictOrder()
    ensures StrictOrder(MentionLess)
  {
    forall x, y | MentionLess(x, y)
      ensures !MentionLess(y, x)
    {
      MentionLessByRank(x, y);
      MentionLessByRank(y, x);
      LessAsymmetric(x, y);
    }
    forall x, y, z | MentionLess(x, y) && MentionLess(y, z)
      ensures MentionLess(x, z)
    {
      MentionLessByRank(x, y);
      MentionLessByRank(y, z);
      MentionLessByRank(x, z);
      if Rank(x) == Rank(y) == Rank(z) {
        LessTransitive(x, y, z);
      }
    }
  }

  /** `sortChannelMentions`: the same mentions, channels first, then group
      chats, then direct messages, then the rest, each group in string
      order. */
  function SortChannelMentions(mentions: seq<string>): (r: seq<string>)
    ensures multiset(r) == multiset(mentions)
    ensures forall i, j :: 0 <= i < j < |r| ==> Rank(r[i]) <= Rank(r[j])
    ensures forall i, j :: 0 <= i < j < |r| && Rank(r[i]) == Rank(r[j]) ==> !Less(r[j], r[i])
  {
    MentionLessStrictOrder();
    var r := SortBy(mentions, MentionLess);
    forall i, j | 0 <= i < j < |r|
      ensures Rank(r[i]) <= Rank(r[j]) && (Rank(r[i]) == Rank(r[j]) ==> !Less(r[j], r[i]))
    {
      assert !MentionLess(r[j], r[i]);
      MentionLessByRank(r[j], r[i]);
    }
    r
  }

  // ---------------------------------------------------------------------
  // Naming a group chat

  /** The source's way of writing "a, b and c": the last two items merged
      with " and ", to be joined with the rest by ", ". */
  function MergeLast(items: seq<string>): (r: seq<string>)
    requires |items| >= 1
  {
    if |items| == 1 then items
    else items[..|items| - 2] + [items[|items| - 2] + " and " + items[|items| - 1]]
  }

  /** "a, b and c" spelt out: all but the last item joined by ", ", then
      " and " and the last. */
  function EnglishList(items: seq<string>): string
    requires |items| >= 1
  {
    if |items| == 1 then items[0]
    else Join(items[..|items| - 1], ", ") + " and " + items[|items| - 1]
  }

  lemma {:induction false} JoinAppend(s: seq<string>, x: string, sep: string)
    requires |s| >= 1
    ensures Join(s + [x], sep) == Join(s, sep) + sep + x
    decreases |s|
  {
    if |s| > 1 {
      assert (s + [x])[1..] == s[1..] + [x];
      JoinAppend(s[1..], x, sep);
    }
  }

  /** Merging the last two and joining the rest reads as the list spelt
      out. */
  lemma MergeLastReads(items: seq<string>)
    requires |items| >= 1
    ensures Join(MergeLast(items), ", ") == EnglishList(items)
  {
    var n := |items|;
    if n > 2 {
      MergeLastLong(items[..n - 2], items[n - 2], items[n - 1]);
      assert items == items[..n - 2] + [items[n - 2], items[n - 1]];
    }
  }

  /** The case of three or more items, stated on the parts. */
  lemma MergeLastLong(head: seq<string>, x: string, y: string)
    requires |head| >= 1
    ensures Join(MergeLast(head + [x, y]), ", ") == EnglishList(head + [x, y])
  {
    var items := head + [x, y];
    var n := |items|;
    assert items[..n - 2] == head && items[n - 2] == x && items[n - 1] == y;
    assert items[..n - 1] == head + [x];
    JoinAppend(head, x + " and " + y, ", ");
    JoinAppend(head, x, ", ");
  }

  /** The sorted member names a group chat is labelled with: all of them up
      to five, otherwise the first four and a count of the others. */
  function Shown(names: seq<string>): (r: seq<string>)
    ensures |r| == if |names| <= 5 then |names| else 5
    ensures |names| > 5 ==> r[4] == Decimal(|names| - 4) + " others"
  {
    LessStrictOrder();
    var sorted := SortBy(names, Less);
    if |sorted| <= 5 then sorted
    else sorted[..4] + [Decimal(|sorted| - 4) + " others"]
  }

  /** Up to five names are all shown, in order; of more, the four shown are
      in order and none of the others comes before them. */
  lemma ShownSpec(names: seq<string>)
    ensures |names| <= 5 ==> multiset(Shown(names)) == multiset(names)
    ensures |names| > 5 ==> multiset(Shown(names)[..4]) <= multiset(names)
    ensures forall i, j :: 0 <= i < j < |Shown(names)| && (|names| <= 5 || j < 4) ==> !Less(Shown(names)[j], Shown(names)[i])
    ensures |names| > 5 ==> forall i, x :: 0 <= i < 4 && x in multiset(names) - multiset(Shown(names)[..4]) ==> !Less(x, Shown(names)[i])
  {
    LessStrictOrder();
    var sorted := SortBy(names, Less);
    var r := Shown(names);
    if |names| > 5 {
      assert r[..4] == sorted[..4];
      assert sorted == sorted[..4] + sorted[4..];
      OmittedFollow(sorted, names);
    }
  }

  /** In a sorted arrangement of `names`, every name after the first four
      is at least each of them. */
  lemma OmittedFollow(sorted: seq<string>, names: seq<string>)
    requires |sorted| > 4 && multiset(sorted) == multiset(names) && SortedBy(sorted, Less)
    ensures forall i, x :: 0 <= i < 4 && x in multiset(names) - multiset(sorted[..4]) ==> !Less(x, sorted[i])
  {
    assert sorted == sorted[..4] + sorted[4..];
    forall i, x | 0 <= i < 4 && x in multiset(names) - multiset(sorted[..4])
      ensures !Less(x, sorted[i])
    {
      assert x in multiset(sorted[4..]);
      var k :| 0 <= k < |sorted[4..]| && sorted[4..][k] == x;
      assert sorted[k + 4] == x;
    }
  }

  lemma LessStrictOrder()
    ensures StrictOrder(Less)
  {
    forall x, y | Less(x, y)
      ensures !Less(y, x)
    {
      LessAsymmetric(x, y);
    }
    forall x, y, z | Less(x, y) && Less(y, z)
      ensures Less(x, z)
    {
      LessTransitive(x, y, z);
    }
  }

  /** How a group chat is mentioned: a link to it, with the other members
      named; a group chat with no other member is an error. */
  function GroupChatLabel(siteUrl: string, teamName: string, channelName: string, channelId: string, userId: string,
                          usernames: seq<string>): (r: Result<string>)
    ensures r.Err? <==> |usernames| == 0
    ensures r.Err? ==> r.error == NewError("Channel " + channelId + " has no members other than user " + userId + ".")
    ensures r.Ok? ==> r.value == "[Group Chat](" + siteUrl + "/" + teamName + "/messages/" + channelName + ") with "
                                 + EnglishList(Shown(usernames))
  {
    if |usernames| == 0 then Err(NewError("Channel " + channelId + " has no members other than user " + userId + "."))
    else
      var names := Shown(usernames);
      MergeLastReads(names);
      Ok("[Group Chat](" + siteUrl + "/" + teamName + "/messages/" + channelName + ") with " + Join(MergeLast(names), ", "))
  }

  // ---------------------------------------------------------------------
  // Running a command

  const ListHeading: string := "## Character profiles"

  /** `doExecuteCommand`: the trigger is checked, the query classified and
      handed to its handler. A define query goes to the corrected
      `DefineProfile`. The help text and the `who am I` reply, which the
      source builds from an embedded file and from channel lookups, are
      taken as given; `listing` is the store's key listing. */
  method Execute(be: Backend, command: string, userId: string, channelId: string, rootId: string,
                 listing: seq<string>, helpText: string, whoAmI: Result<string>) returns (r: Reply)
    ensures ParseTrigger(command).Err? ==> r == Reply(be, Failed(ParseTrigger(command).error))
    ensures r.be.(kv := be.kv) == be
    ensures ParseTrigger(command).Ok? ==>
      var c := Classify(ParseTrigger(command).value);
      && (c.Define? ==> r == DefineProfile(be, userId, rootId, c.setPicture, c.profileId, c.name))
      && (c.Delete? ==> r == DeleteCommand(be, userId, c.profileId))
      && (c.IAm? ==> r == IAmCommand(be, userId, channelId, c.profileId))
      && (c.Help? ==> r == Reply(be, Done(helpText)))
      && (c.List? || c.WhoAmI? || c.Unrecognized? ==> r.be == be)
      && (c.List? && r.answer.Done? ==> r.answer.value == ListHeading)
      && (c.Unrecognized? ==> r.answer == Refused(NotRecognized))
  {
    match ParseTrigger(command)
    case Err(e) =>
      r := Reply(be, Failed(e));
    case Ok(query) =>
      match Classify(query)
      case Help =>
        r := Reply(be, Done(helpText));
      case Define(setPicture, profileId, name) =>
        r := DefineProfile(be, userId, rootId, setPicture, profileId, name);
      case Delete(profileId) =>
        r := DeleteCommand(be, userId, profileId);
      case List =>
        var profiles := ListProfiles(be, listing, userId);
        r := if profiles.Ok? then Reply(be, Done(ListHeading)) else Reply(be, Failed(profiles.error));
      case IAm(profileId) =>
        r := IAmCommand(be, userId, channelId, profileId);
      case WhoAmI =>
        r := Reply(be, if whoAmI.Ok? then Done(whoAmI.value) else Failed(whoAmI.error));
      case Unrecognized =>
        r := Refuse(be, NotRecognized);
  }
}

=== FILE: host.dfy ===
/** The host the plugin runs against, as the test backend models it: a KV
    store of byte strings with compare-and-swap, and the messages ("posts"),
    file records, users, teams and channel memberships the plugin looks up.

    The real host's implementations of these calls are not part of this
    model; the test backend is the reference for what the plugin assumes.
 */
module Host {
  import opened Wrappers
  import opened Codec
  import opened Strings

  // ---------------------------------------------------------------------
  // KV store

  type Store = map<string, Bytes>

  /** `KVGet`: a missing key reads as absent (nil), never as an error. */
  function KvGet(s: Store, key: string): (r: Option<Bytes>)
    ensures r.Some? <==> key in s
    ensures r.Some? ==> r.value == s[key]
  {
    if key in s then Some(s[key]) else None
  }

  /** `KVSet`: stores the value under the key and touches no other key. */
  function KvSet(s: Store, key: string, value: Bytes): (r: Store)
    ensures KvGet(r, key) == Some(value)
    ensures forall k :: k != key ==> KvGet(r, k) == KvGet(s, k)
  {
    s[key := value]
  }

  /** `KVDelete`: the key reads as absent afterwards; no other key changes. */
  function KvDelete(s: Store, key: string): (r: Store)
    ensures KvGet(r, key) == None
    ensures forall k :: k != key ==> KvGet(r, k) == KvGet(s, k)
  {
    s - {key}
  }

  /** `KVCompareAndSet`: an absent `expected` (nil) succeeds exactly when the
      key is absent; a present one exactly when the stored bytes are equal
      to it element by element. Only a success writes, and it writes the
      named key alone; a failure is not an error and changes nothing. */
  function KvCompareAndSet(s: Store, key: string, expected: Option<Bytes>, newValue: Bytes): (r: (Store, bool))
    ensures r.1 <==> KvGet(s, key) == expected
    ensures r.1 ==> KvGet(r.0, key) == Some(newValue) && forall k :: k != key ==> KvGet(r.0, k) == KvGet(s, k)
    ensures !r.1 ==> r.0 == s
  {
    if key in s then
      if expected.None? then (s, false)
      else if |s[key]| != |expected.value| then (s, false)
      else if exists i :: 0 <= i < |s[key]| && s[key][i] != expected.value[i] then (s, false)
      else
        assert s[key] == expected.value;
        (s[key := newValue], true)
    else if expected.None? then (s[key := newValue], true)
    else (s, false)
  }

  // ---------------------------------------------------------------------
  // Messages, files, users, teams

  /** A value of a message's property map (Go `interface{}`): nil, a string,
      or anything else, which the plugin only ever compares. */
  datatype Prop = PNil | PStr(str: string) | POther(repr: string)

  /** `post.Props[k]`: a missing key reads as nil. */
  function PropGet(props: map<string, Prop>, k: string): Prop
  {
    if k in props then props[k] else PNil
  }

  datatype Post = Post(
    id: string,
    userId: string,
    channelId: string,
    message: string,
    postType: string,
    deleteAt: int,
    fileIds: seq<string>,
    props: map<string, Prop>)

  /** The host's notion of a system message: a type starting with "system_". */
  predicate IsSystemMessage(p: Post) {
    HasPrefix(p.postType, "system_")
  }

  /** A file record. Whether the host considers the file an image, and
      whether the record passes the host's own validity check, are not
      computed here: they are facts the host reports. */
  datatype FileInfo = FileInfo(
    id: string,
    postId: string,
    name: string,
    extension: string,
    isImage: bool,
    validity: Option<AppError>)

  /** A user; `displayName` is what the host shows as the full name. */
  datatype User = User(id: string, username: string, displayName: string)

  datatype Team = Team(id: string, name: string)

  datatype ChannelMember = ChannelMember(userId: string, channelId: string)

  datatype Backend = Backend(
    kv: Store,
    posts: map<string, Post>,
    fileInfos: map<string, FileInfo>,
    users: map<string, User>,
    teams: map<string, Team>,
    channelMembers: seq<ChannelMember>,
    siteUrl: string)

  /** `GetPost`: a missing message and a deleted one (`DeleteAt != 0`) both
      give a 404 error. */
  function GetPost(be: Backend, id: string): (r: Result<Post>)
    ensures r.Ok? <==> id in be.posts && be.posts[id].deleteAt == 0
    ensures r.Ok? ==> r.value == be.posts[id]
    ensures r.Err? ==> r.error.status == StatusNotFound
  {
    if id !in be.posts || be.posts[id].deleteAt != 0 then
      Err(AppError("Unable to get the message.", StatusNotFound))
    else Ok(be.posts[id])
  }

  /** `UpdatePost`: an unknown id is an error and changes nothing; otherwise
      the stored message is replaced and nothing else changes. */
  function UpdatePost(be: Backend, post: Post): (r: Result<Backend>)
    ensures r.Ok? <==> post.id in be.posts
    ensures r.Ok? ==> r.value.posts.Keys == be.posts.Keys && r.value.posts[post.id] == post
    ensures r.Ok? ==> forall id :: id in be.posts && id != post.id ==> r.value.posts[id] == be.posts[id]
    ensures r.Ok? ==> r.value.(posts := be.posts) == be
  {
    if post.id !in be.posts then Err(NewError("Message \"" + post.id + "\" not found"))
    else Ok(be.(posts := be.posts[post.id := post]))
  }

  function GetFileInfo(be: Backend, id: string): (r: Result<FileInfo>)
    ensures r.Ok? <==> id in be.fileInfos
    ensures r.Ok? ==> r.value == be.fileInfos[id]
  {
    if id in be.fileInfos then Ok(be.fileInfos[id]) else Err(AppError("file_info_not_found", 0))
  }

  function GetUser(be: Backend, id: string): (r: Result<User>)
    ensures r.Ok? <==> id in be.users
    ensures r.Ok? ==> r.value == be.users[id]
  {
    if id in be.users then Ok(be.users[id]) else Err(AppError("user_not_found", 0))
  }

  function GetTeam(be: Backend, id: string): (r: Result<Team>)
    ensures r.Ok? <==> id in be.teams
    ensures r.Ok? ==> r.value == be.teams[id]
  {
    if id in be.teams then Ok(be.teams[id]) else Err(AppError("team_not_found", 0))
  }

  // ---------------------------------------------------------------------
  // Paging

  function Min(a: int, b: int): int {
    if a < b then a else b
  }

  /** Page `page` of `s` with `perPage` items a page: the items from
      `page * perPage` up to `(page + 1) * perPage`, both cut at the end. */
  function Page<T>(s: seq<T>, page: nat, perPage: nat): (r: seq<T>)
    ensures |r| <= perPage
    ensures Min(page * perPage, |s|) + |r| <= |s|
    ensures forall i :: 0 <= i < |r| ==> r[i] == s[Min(page * perPage, |s|) + i]
  {
    NextPageStart(page, perPage);
    var lo := Min(page * perPage, |s|);
    var hi := Min((page + 1) * perPage, |s|);
    s[lo..hi]
  }

  /** Page `page + 1` starts `perPage` items after page `page`. */
  lemma NextPageStart(page: nat, perPage: nat)
    ensures (page + 1) * perPage == page * perPage + perPage
  {
  }

  /** The pages before page `k`, read in order, are the first `k * perPage`
      items; so reading pages until one comes back short reads everything. */
  lemma {:induction false} PagesTile<T>(s: seq<T>, perPage: nat, k: nat)
    ensures Page(s, k, perPage) == s[Min(k * perPage, |s|)..Min((k + 1) * perPage, |s|)]
    ensures s[..Min((k + 1) * perPage, |s|)] == s[..Min(k * perPage, |s|)] + Page(s, k, perPage)
  {
    var lo := Min(k * perPage, |s|);
    var hi := Min((k + 1) * perPage, |s|);
    NextPageStart(k, perPage);
    assert lo <= hi;
    assert s[..hi] == s[..lo] + s[lo..hi];
  }

  /** The members of one channel, in the order the backend lists them. */
  function MembersOf(ms: seq<ChannelMember>, channelId: string): (r: seq<ChannelMember>)
    ensures forall i :: 0 <= i < |r| ==> r[i].channelId == channelId && r[i] in ms
    ensures forall m :: m in ms && m.channelId == channelId ==> m in r
    decreases |ms|
  {
    if |ms| == 0 then []
    else
      var last := ms[|ms| - 1];
      assert ms == ms[..|ms| - 1] + [last];
      MembersOf(ms[..|ms| - 1], channelId) + (if last.channelId == channelId then [last] else [])
  }

  /** Filtering keeps the backend's order: the members of a concatenation
      are the members of the first part followed by those of the second. */
  lemma {:induction false} MembersOfConcat(a: seq<ChannelMember>, b: seq<ChannelMember>, channelId: string)
    ensures MembersOf(a + b, channelId) == MembersOf(a, channelId) + MembersOf(b, channelId)
    decreases |b|
  {
    if |b| == 0 {
      assert a + b == a;
    } else {
      var init := b[..|b| - 1];
      var last := b[|b| - 1];
      assert b == init + [last];
      assert a + b == (a + init) + [last];
      MembersOfSnoc(a + init, last, channelId);
      MembersOfSnoc(init, last, channelId);
      MembersOfConcat(a, init, channelId);
    }
  }

  lemma MembersOfSnoc(ms: seq<ChannelMember>, m: ChannelMember, channelId: string)
    ensures MembersOf(ms + [m], channelId) == MembersOf(ms, channelId) + (if m.channelId == channelId then [m] else [])
  {
    assert (ms + [m])[..|ms|] == ms;
  }

  /** The slicing `GetChannelMembers` does: both bounds cut at the end. */
  method SlicePage<T>(s: seq<T>, page: nat, perPage: nat) returns (r: seq<T>)
    ensures r == Page(s, page, perPage)
  {
    var lo := page * perPage;
    if lo > |s| {
      lo := |s|;
    }
    var hi := (page + 1) * perPage;
    if hi > |s| {
      hi := |s|;
    }
    PagesTile(s, perPage, page);
    r := s[lo..hi];
  }

  /** `GetChannelMembers`: the channel's members, filtered in order, then
      the requested page of them. */
  method GetChannelMembers(be: Backend, channelId: string, page: nat, perPage: nat) returns (r: seq<ChannelMember>)
    ensures r == Page(MembersOf(be.channelMembers, channelId), page, perPage)
  {
    var ms := be.channelMembers;
    var ret: seq<ChannelMember> := [];
    var i := 0;
    while i < |ms|
      invariant 0 <= i <= |ms|
      invariant ret == MembersOf(ms[..i], channelId)
    {
      var member := ms[i];
      assert ms[..i + 1] == ms[..i] + [member];
      if member.channelId == channelId {
        ret := ret + [ChannelMember(member.userId, channelId)];
      }
      i := i + 1;
    }
    assert ms[..i] == ms;
    r := SlicePage(ret, page, perPage);
  }
}

=== FILE: idset.dfy ===
/** Large named sets of ids in the KV store (`server/idset.go`).

    An id is 26 characters over `[a-z0-9]`. The set `key` is stored in
    shards: the ids starting with the two characters `pp` form a string set
    under `"id_" + key + "_" + pp`, and the string set under `"idp_" + key`
    indexes the prefixes. Insertion adds the prefix to the index before the
    id to its shard, and removal never removes a prefix, so the index is
    always a superset of the prefixes in use, whatever fails in between.
 */
module Idset {
  import opened Wrappers
  import opened Codec
  import opened Strings
  import opened Host
  import opened Strset

  // ---------------------------------------------------------------------
  // Ids and keys

  predicate IsIdChar(c: char) {
    ('a' <= c <= 'z') || ('0' <= c <= '9')
  }

  /** `^[a-z0-9]{26}$`. */
  predicate ValidId(s: string) {
    |s| == 26 && forall i :: 0 <= i < |s| ==> IsIdChar(s[i])
  }

  const InvalidIdMessage: string := "Expected a 26-character alphanumeric string"

  /** `idValidate`. */
  function IdValidate(s: string): (r: Option<AppError>)
    ensures r.None? <==> ValidId(s)
    ensures r.Some? ==> r.value == NewError(InvalidIdMessage)
  {
    if ValidId(s) then None else Some(NewError(InvalidIdMessage))
  }

  function PrefixKey(key: string): string {
    "idp_" + key
  }

  function ShardKey(key: string, prefix: string): string {
    "id_" + key + "_" + prefix
  }

  /** The prefix index of a set is never the shard of any set. */
  lemma PrefixKeyNotShardKey(key: string, key': string, prefix: string)
    ensures PrefixKey(key) != ShardKey(key', prefix)
  {
    assert PrefixKey(key)[2] == 'p';
    assert ShardKey(key', prefix)[2] == '_';
  }

  /** Shards with two-character prefixes never collide: different sets or
      different prefixes mean different keys. */
  lemma ShardKeyInjective(key: string, prefix: string, key': string, prefix': string)
    requires |prefix| == |prefix'|
    requires ShardKey(key, prefix) == ShardKey(key', prefix')
    ensures key == key' && prefix == prefix'
  {
    var a := ShardKey(key, prefix);
    assert |key| == |key'|;
    assert a[3..3 + |key|] == key;
    assert ShardKey(key', prefix')[3..3 + |key'|] == key';
    assert a[4 + |key|..] == prefix;
    assert ShardKey(key', prefix')[4 + |key'|..] == prefix';
  }

  // ---------------------------------------------------------------------
  // The stored set, read declaratively

  /** The ids stored in one shard (none when it does not decode). */
  function ShardIds(kv: Store, key: string, prefix: string): seq<string> {
    match StrsetGet(kv, ShardKey(key, prefix))
    case Ok(ids) => ids
    case Err(_) => []
  }

  /** The prefixes in the index (none when it does not decode). */
  function Prefixes(kv: Store, key: string): seq<string> {
    match StrsetGet(kv, PrefixKey(key))
    case Ok(ps) => ps
    case Err(_) => []
  }

  /** An id is in the set when it is valid and stored in its own shard. */
  predicate InIdset(kv: Store, key: string, id: string) {
    ValidId(id) && id in ShardIds(kv, key, id[..2])
  }

  /** The documented invariant: every id in the set has its prefix indexed. */
  ghost predicate PrefixSuperset(kv: Store, key: string) {
    forall id :: InIdset(kv, key, id) ==> id[..2] in Prefixes(kv, key)
  }

  /** A shard as the operations leave it: decodable, strictly sorted, and
      holding only valid ids with its own prefix. */
  ghost predicate ShardWellFormed(kv: Store, key: string, prefix: string) {
    && StrsetGet(kv, ShardKey(key, prefix)).Ok?
    && StrictlySorted(ShardIds(kv, key, prefix))
    && forall id :: id in ShardIds(kv, key, prefix) ==> ValidId(id) && id[..2] == prefix
  }

  /** A set as the operations leave it, starting from nothing. */
  ghost predicate WellFormed(kv: Store, key: string) {
    && StrsetGet(kv, PrefixKey(key)).Ok?
    && StrictlySorted(Prefixes(kv, key))
    && (forall p :: p in Prefixes(kv, key) ==> |p| == 2)
    && (forall p :: |p| == 2 ==> ShardWellFormed(kv, key, p))
    && PrefixSuperset(kv, key)
  }

  /** An empty store holds every set, empty and well formed. */
  lemma EmptyWellFormed(key: string)
    ensures WellFormed(map[], key)
    ensures forall id :: !InIdset(map[], key, id)
  {
  }

  // ---------------------------------------------------------------------
  // Operations

  /** The store after an operation, and the error it reported, if any. A
      failed operation may still have written. */
  datatype Outcome = Outcome(kv: Store, err: Option<AppError>)

  /** `IdsetInsert`. */
  function IdsetInsert(kv: Store, key: string, element: string): (r: Outcome)
    ensures !ValidId(element) ==> r == Outcome(kv, Some(NewError(InvalidIdMessage)))
    ensures ValidId(element) ==> forall k :: k != PrefixKey(key) && k != ShardKey(key, element[..2]) ==> KvGet(r.kv, k) == KvGet(kv, k)
    ensures r.err.None? <==> ValidId(element) && StrsetGet(kv, PrefixKey(key)).Ok? && StrsetGet(kv, ShardKey(key, element[..2])).Ok?
  {
    match IdValidate(element)
    case Some(e) => Outcome(kv, Some(e))
    case None =>
      var p := element[..2];
      PrefixKeyNotShardKey(key, key, p);
      match StrsetInsert(kv, PrefixKey(key), p)
      case Err(e) => Outcome(kv, Some(e))
      case Ok(kv1) =>
        assert KvGet(kv1, ShardKey(key, p)) == KvGet(kv, ShardKey(key, p));
        match StrsetInsert(kv1, ShardKey(key, p), element)
        case Err(e) => Outcome(kv1, Some(e))
        case Ok(kv2) => Outcome(kv2, None)
  }

  /** `IdsetRemove`: touches the element's shard alone, never the index. */
  function IdsetRemove(kv: Store, key: string, element: string): (r: Outcome)
    ensures !ValidId(element) ==> r == Outcome(kv, Some(NewError(InvalidIdMessage)))
    ensures ValidId(element) ==> forall k :: k != ShardKey(key, element[..2]) ==> KvGet(r.kv, k) == KvGet(kv, k)
    ensures r.err.None? <==> ValidId(element) && StrsetGet(kv, ShardKey(key, element[..2])).Ok?
    ensures r.err.Some? ==> r.kv == kv
  {
    match IdValidate(element)
    case Some(e) => Outcome(kv, Some(e))
    case None =>
      match StrsetRemove(kv, ShardKey(key, element[..2]), element)
      case Err(e) => Outcome(kv, Some(e))
      case Ok(kv1) => Outcome(kv1, None)
  }

  /** `IdsetHas`: consults the element's shard alone; on a well-formed set
      the answer is membership. */
  function IdsetHas(kv: Store, key: string, element: string): (r: Result<bool>)
    ensures !ValidId(element) ==> r == Err(NewError(InvalidIdMessage))
    ensures r.Ok? && r.value ==> InIdset(kv, key, element)
    ensures ValidId(element) && ShardWellFormed(kv, key, element[..2]) ==> r == Ok(InIdset(kv, key, element))
  {
    match IdValidate(element)
    case Some(e) => Err(e)
    case None => StrsetHas(kv, ShardKey(key, element[..2]), element)
  }

  // ---------------------------------------------------------------------
  // The invariant

  lemma StrsetGetFrame(kv: Store, kv': Store, key: string)
    requires KvGet(kv, key) == KvGet(kv', key)
    ensures StrsetGet(kv, key) == StrsetGet(kv', key)
  {
  }

  /** Insertion keeps the prefix index a superset, whether it succeeds or
      fails halfway: the prefix is written before the id. */
  lemma InsertKeepsSuperset(kv: Store, key: string, element: string)
    requires PrefixSuperset(kv, key)
    ensures PrefixSuperset(IdsetInsert(kv, key, element).kv, key)
  {
    var r := IdsetInsert(kv, key, element);
    if ValidId(element) {
      var p := element[..2];
      PrefixKeyNotShardKey(key, key, p);
      var ins := StrsetInsert(kv, PrefixKey(key), p);
      if ins.Ok? {
        var kv1 := ins.value;
        // After the first write the index has grown by `p` and no shard changed.
        forall id | InIdset(kv1, key, id)
          ensures id[..2] in Prefixes(kv1, key)
        {
          PrefixKeyNotShardKey(key, key, id[..2]);
          StrsetGetFrame(kv, kv1, ShardKey(key, id[..2]));
          assert InIdset(kv, key, id);
        }
        var ins2 := StrsetInsert(kv1, ShardKey(key, p), element);
        if ins2.Ok? {
          var kv2 := ins2.value;
          assert r.kv == kv2;
          StrsetGetFrame(kv1, kv2, PrefixKey(key));
          forall id | InIdset(kv2, key, id)
            ensures id[..2] in Prefixes(kv2, key)
          {
            if id[..2] != p {
              var q := id[..2];
              if ShardKey(key, q) == ShardKey(key, p) {
                ShardKeyInjective(key, q, key, p);
              }
              StrsetGetFrame(kv1, kv2, ShardKey(key, q));
              assert InIdset(kv1, key, id);
            }
          }
        }
      }
    }
  }

  /** Removal keeps the prefix index a superset: it only shrinks a shard. */
  lemma RemoveKeepsSuperset(kv: Store, key: string, element: string)
    requires PrefixSuperset(kv, key)
    ensures PrefixSuperset(IdsetRemove(kv, key, element).kv, key)
  {
    var r := IdsetRemove(kv, key, element);
    if ValidId(element) && r.err.None? {
      var p := element[..2];
      PrefixKeyNotShardKey(key, key, p);
      StrsetGetFrame(kv, r.kv, PrefixKey(key));
      forall id | InIdset(r.kv, key, id)
        ensures id[..2] in Prefixes(r.kv, key)
      {
        var q := id[..2];
        if q == p {
          assert id in ShardIds(kv, key, q);
        } else {
          if ShardKey(key, q) == ShardKey(key, p) {
            ShardKeyInjective(key, q, key, p);
          }
          StrsetGetFrame(kv, r.kv, ShardKey(key, q));
        }
        assert InIdset(kv, key, id);
      }
    }
  }

  /** What a successful insertion writes: the prefix joins the index, the
      id joins its shard, and every other shard is as it was. */
  lemma InsertWrites(kv: Store, key: string, element: string)
    requires ValidId(element)
    requires StrsetGet(kv, PrefixKey(key)).Ok? && StrictlySorted(Prefixes(kv, key))
    requires ShardWellFormed(kv, key, element[..2])
    ensures var kv' := IdsetInsert(kv, key, element).kv;
      && IdsetInsert(kv, key, element).err.None?
      && StrsetGet(kv', PrefixKey(key)).Ok?
      && StrictlySorted(Prefixes(kv', key))
      && (forall y :: y in Prefixes(kv', key) <==> y in Prefixes(kv, key) || y == element[..2])
      && ShardWellFormed(kv', key, element[..2])
      && (forall id :: id in ShardIds(kv', key, element[..2]) <==> id in ShardIds(kv, key, element[..2]) || id == element)
      && (forall q :: |q| == 2 && q != element[..2] ==> StrsetGet(kv', ShardKey(key, q)) == StrsetGet(kv, ShardKey(key, q)))
  {
    var p := element[..2];
    PrefixKeyNotShardKey(key, key, p);
    Strset.InsertSemantics(kv, PrefixKey(key), p);
    var kv1 := StrsetInsert(kv, PrefixKey(key), p).value;
    StrsetGetFrame(kv, kv1, ShardKey(key, p));
    Strset.InsertSemantics(kv1, ShardKey(key, p), element);
    var kv2 := StrsetInsert(kv1, ShardKey(key, p), element).value;
    assert IdsetInsert(kv, key, element).kv == kv2;
    StrsetGetFrame(kv1, kv2, PrefixKey(key));
    forall q | |q| == 2 && q != p
      ensures StrsetGet(kv2, ShardKey(key, q)) == StrsetGet(kv, ShardKey(key, q))
    {
      PrefixKeyNotShardKey(key, key, q);
      if ShardKey(key, q) == ShardKey(key, p) {
        ShardKeyInjective(key, q, key, p);
      }
      StrsetGetFrame(kv, kv1, ShardKey(key, q));
      StrsetGetFrame(kv1, kv2, ShardKey(key, q));
    }
  }

  /** A shard's state depends only on what its key reads as. */
  lemma ShardFrame(kv: Store, kv': Store, key: string, q: string)
    requires StrsetGet(kv, ShardKey(key, q)) == StrsetGet(kv', ShardKey(key, q))
    ensures ShardIds(kv, key, q) == ShardIds(kv', key, q)
    ensures ShardWellFormed(kv, key, q) ==> ShardWellFormed(kv', key, q)
  {
  }

  /** An update of shard `p` alone keeps the other shards well formed and
      their ids in the set. */
  lemma OtherShardsFrame(kv: Store, kv': Store, key: string, p: string)
    requires forall q :: |q| == 2 && q != p ==> StrsetGet(kv', ShardKey(key, q)) == StrsetGet(kv, ShardKey(key, q))
    requires forall q :: |q| == 2 ==> ShardWellFormed(kv, key, q)
    requires |p| == 2 && ShardWellFormed(kv', key, p)
    ensures forall q :: |q| == 2 ==> ShardWellFormed(kv', key, q)
    ensures forall id :: ValidId(id) && id[..2] != p ==> (InIdset(kv', key, id) <==> InIdset(kv, key, id))
  {
    forall q | |q| == 2 && q != p
      ensures ShardWellFormed(kv', key, q)
    {
      ShardFrame(kv, kv', key, q);
    }
    forall id | ValidId(id) && id[..2] != p
      ensures InIdset(kv', key, id) <==> InIdset(kv, key, id)
    {
      ShardFrame(kv, kv', key, id[..2]);
    }
  }

  /** On a well-formed set, insertion succeeds for a valid id, keeps the
      set well formed, and adds exactly that id. */
  lemma InsertSemantics(kv: Store, key: string, element: string)
    requires WellFormed(kv, key) && ValidId(element)
    ensures IdsetInsert(kv, key, element).err.None?
    ensures WellFormed(IdsetInsert(kv, key, element).kv, key)
    ensures forall id :: InIdset(IdsetInsert(kv, key, element).kv, key, id) <==> InIdset(kv, key, id) || id == element
  {
    assert ShardWellFormed(kv, key, element[..2]);
    InsertWrites(kv, key, element);
    InsertedSet(kv, IdsetInsert(kv, key, element).kv, key, element);
  }

  /** A store written as insertion writes it holds the well-formed set
      with the id added. */
  lemma InsertedSet(kv: Store, kv2: Store, key: string, element: string)
    requires WellFormed(kv, key) && ValidId(element)
    requires StrsetGet(kv2, PrefixKey(key)).Ok? && StrictlySorted(Prefixes(kv2, key))
    requires forall y :: y in Prefixes(kv2, key) <==> y in Prefixes(kv, key) || y == element[..2]
    requires ShardWellFormed(kv2, key, element[..2])
    requires forall id :: id in ShardIds(kv2, key, element[..2]) <==> id in ShardIds(kv, key, element[..2]) || id == element
    requires forall q :: |q| == 2 && q != element[..2] ==> StrsetGet(kv2, ShardKey(key, q)) == StrsetGet(kv, ShardKey(key, q))
    ensures WellFormed(kv2, key)
    ensures forall id :: InIdset(kv2, key, id) <==> InIdset(kv, key, id) || id == element
  {
    var p := element[..2];
    OtherShardsFrame(kv, kv2, key, p);
    InsertedMembers(kv, kv2, key, element);
    assert forall q :: q in Prefixes(kv2, key) ==> |q| == 2;
    InsertedSuperset(kv, kv2, key, element);
  }

  lemma InsertedSuperset(kv: Store, kv2: Store, key: string, element: string)
    requires PrefixSuperset(kv, key)
    requires ValidId(element)
    requires forall y :: y in Prefixes(kv2, key) <==> y in Prefixes(kv, key) || y == element[..2]
    requires forall id :: InIdset(kv2, key, id) <==> InIdset(kv, key, id) || id == element
    ensures PrefixSuperset(kv2, key)
  {
    forall id | InIdset(kv2, key, id)
      ensures id[..2] in Prefixes(kv2, key)
    {
      if id != element {
        assert InIdset(kv, key, id);
      }
    }
  }

  lemma InsertedMembers(kv: Store, kv2: Store, key: string, element: string)
    requires ValidId(element)
    requires forall id :: id in ShardIds(kv2, key, element[..2]) <==> id in ShardIds(kv, key, element[..2]) || id == element
    requires forall id :: ValidId(id) && id[..2] != element[..2] ==> (InIdset(kv2, key, id) <==> InIdset(kv, key, id))
    ensures forall id :: InIdset(kv2, key, id) <==> InIdset(kv, key, id) || id == element
  {
    var p := element[..2];
    forall id
      ensures InIdset(kv2, key, id) <==> InIdset(kv, key, id) || id == element
    {
      if ValidId(id) && id[..2] == p {
        assert id in ShardIds(kv2, key, p) <==> id in ShardIds(kv, key, p) || id == element;
      }
    }
  }

  /** What a successful removal writes: the id leaves its shard; the index
      and every other shard are as they were. */
  lemma RemoveWrites(kv: Store, key: string, element: string)
    requires ValidId(element)
    requires ShardWellFormed(kv, key, element[..2])
    ensures var kv' := IdsetRemove(kv, key, element).kv;
      && IdsetRemove(kv, key, element).err.None?
      && StrsetGet(kv', PrefixKey(key)) == StrsetGet(kv, PrefixKey(key))
      && ShardWellFormed(kv', key, element[..2])
      && (forall id :: id in ShardIds(kv', key, element[..2]) <==> id in ShardIds(kv, key, element[..2]) && id != element)
      && (forall q :: |q| == 2 && q != element[..2] ==> StrsetGet(kv', ShardKey(key, q)) == StrsetGet(kv, ShardKey(key, q)))
  {
    var p := element[..2];
    PrefixKeyNotShardKey(key, key, p);
    Strset.RemoveSemantics(kv, ShardKey(key, p), element);
    var kv1 := IdsetRemove(kv, key, element).kv;
    StrsetGetFrame(kv, kv1, PrefixKey(key));
    forall q | |q| == 2 && q != p
      ensures StrsetGet(kv1, ShardKey(key, q)) == StrsetGet(kv, ShardKey(key, q))
    {
      if ShardKey(key, q) == ShardKey(key, p) {
        ShardKeyInjective(key, q, key, p);
      }
      StrsetGetFrame(kv, kv1, ShardKey(key, q));
    }
  }

  /** On a well-formed set, removal succeeds for a valid id, keeps the set
      well formed, and drops exactly that id. */
  lemma RemoveSemantics(kv: Store, key: string, element: string)
    requires WellFormed(kv, key) && ValidId(element)
    ensures IdsetRemove(kv, key, element).err.None?
    ensures WellFormed(IdsetRemove(kv, key, element).kv, key)
    ensures forall id :: InIdset(IdsetRemove(kv, key, element).kv, key, id) <==> InIdset(kv, key, id) && id != element
  {
    var p := element[..2];
    assert ShardWellFormed(kv, key, p);
    RemoveWrites(kv, key, element);
    var kv1 := IdsetRemove(kv, key, element).kv;
    assert Prefixes(kv1, key) == Prefixes(kv, key);
    OtherShardsFrame(kv, kv1, key, p);
    forall id | InIdset(kv1, key, id)
      ensures id[..2] in Prefixes(kv1, key)
    {
      assert InIdset(kv, key, id);
    }
  }

  /** On a well-formed set `IdsetHas` answers membership. */
  lemma HasSemantics(kv: Store, key: string, element: string)
    requires WellFormed(kv, key) && ValidId(element)
    ensures IdsetHas(kv, key, element) == Ok(InIdset(kv, key, element))
  {
    assert ShardWellFormed(kv, key, element[..2]);
  }
}

=== FILE: iteration.dfy ===
/** Iterating over an id set (`IdsetIter` in `server/idset.go`).

    The iteration reads the prefix index once, then each indexed shard in
    turn when it reaches it, and calls the callback for each id after the
    cursor `beginAfter`, up to `maxIterations` ids (0 or less: no limit). The
    callback may change the store, and its first error ends the iteration.

    The callback is a function of the backend, an accumulator standing for
    whatever the caller's closure captures, and the id; it returns the new
    backend and accumulator and its error, if any.

    The main theorem: on a well-formed set, with a callback that touches no
    shard of the set but its own id's, iterating is running the callback
    over the ids in ascending order, cut at the cursor and the limit.
 */
module Iteration {
  import opened Wrappers
  import opened Strings
  import opened Host
  import opened Strset
  import opened Idset

  /** What a callback, or the whole iteration, leaves behind. */
  datatype Step<A> = Step(be: Backend, acc: A, err: Option<AppError>)

  /** A run over part of the ids: either it goes on, with the remaining
      count, or it has returned. */
  datatype Flow<A> = Continue(be: Backend, acc: A, remaining: int) | Stop(step: Step<A>)

  function ToStep<A>(f: Flow<A>): Step<A> {
    match f
    case Continue(be, acc, _) => Step(be, acc, None)
    case Stop(s) => s
  }

  function FlowBackend<A>(f: Flow<A>): Backend {
    match f
    case Continue(be, _, _) => be
    case Stop(s) => s.be
  }

  // ---------------------------------------------------------------------
  // The iteration as the source writes it

  /** The inner loop over one shard's ids. */
  function IterIds<A>(exec: (Backend, A, string) -> Step<A>, be: Backend, acc: A, ids: seq<string>, beginAfter: string, max: int): Flow<A>
    decreases |ids|
  {
    if |ids| == 0 then Continue(be, acc, max)
    else if !Less(beginAfter, ids[0]) then IterIds(exec, be, acc, ids[1..], beginAfter, max)
    else
      var s := exec(be, acc, ids[0]);
      if s.err.Some? then Stop(s)
      else if max > 0 && max - 1 == 0 then Stop(Step(s.be, s.acc, None))
      else IterIds(exec, s.be, s.acc, ids[1..], beginAfter, if max > 0 then max - 1 else max)
  }

  /** The outer loop over the prefix index; each shard is read when reached. */
  function IterPrefixes<A>(exec: (Backend, A, string) -> Step<A>, key: string, be: Backend, acc: A,
                           prefixes: seq<string>, beginAfter: string, beginAfterPrefix: string, max: int): Step<A>
    decreases |prefixes|
  {
    if |prefixes| == 0 then Step(be, acc, None)
    else if Less(prefixes[0], beginAfterPrefix) then
      IterPrefixes(exec, key, be, acc, prefixes[1..], beginAfter, beginAfterPrefix, max)
    else
      match StrsetGet(be.kv, ShardKey(key, prefixes[0]))
      case Err(e) => Step(be, acc, Some(e))
      case Ok(ids) =>
        match IterIds(exec, be, acc, ids, beginAfter, max)
        case Stop(s) => s
        case Continue(be', acc', max') => IterPrefixes(exec, key, be', acc', prefixes[1..], beginAfter, beginAfterPrefix, max')
  }

  /** `IdsetIter`. A non-empty cursor must be a valid id. */
  function IdsetIter<A>(exec: (Backend, A, string) -> Step<A>, be: Backend, acc: A, key: string, beginAfter: string, max: int): (r: Step<A>)
    ensures beginAfter != "" && !ValidId(beginAfter) ==> r == Step(be, acc, Some(NewError(InvalidIdMessage)))
    ensures StrsetGet(be.kv, PrefixKey(key)).Err? && (beginAfter == "" || ValidId(beginAfter)) ==> r == Step(be, acc, Some(NewError(UnmarshalError)))
  {
    if beginAfter != "" && IdValidate(beginAfter).Some? then Step(be, acc, IdValidate(beginAfter))
    else
      var beginAfterPrefix := if beginAfter == "" then "" else beginAfter[..2];
      match StrsetGet(be.kv, PrefixKey(key))
      case Err(e) => Step(be, acc, Some(e))
      case Ok(prefixes) => IterPrefixes(exec, key, be, acc, prefixes, beginAfter, beginAfterPrefix, max)
  }

  // ---------------------------------------------------------------------
  // The iteration as a list

  /** The ids after the cursor (`id > beginAfter`), in order. */
  function After(xs: seq<string>, beginAfter: string): (r: seq<string>)
    ensures forall x :: x in r <==> x in xs && Less(beginAfter, x)
    decreases |xs|
  {
    if |xs| == 0 then []
    else (if Less(beginAfter, xs[0]) then [xs[0]] else []) + After(xs[1..], beginAfter)
  }

  /** The first `max` items, or all when `max` is 0 or less. */
  function Limit(xs: seq<string>, max: int): (r: seq<string>)
    ensures max > 0 ==> |r| == if max < |xs| then max else |xs|
    ensures max <= 0 ==> r == xs
    ensures r == xs[..|r|]
  {
    if max > 0 && max < |xs| then xs[..max] else xs
  }

  /** The ids of the shards of `prefixes`, shard after shard. */
  function Flatten(kv: Store, key: string, prefixes: seq<string>): seq<string>
    decreases |prefixes|
  {
    if |prefixes| == 0 then [] else ShardIds(kv, key, prefixes[0]) + Flatten(kv, key, prefixes[1..])
  }

  /** Every id of the set, in index order. */
  function AllIds(kv: Store, key: string): seq<string> {
    Flatten(kv, key, Prefixes(kv, key))
  }

  /** The ids an iteration visits. */
  function Visits(kv: Store, key: string, beginAfter: string, max: int): seq<string> {
    Limit(After(AllIds(kv, key), beginAfter), max)
  }

  /** Running the callback over a list of ids, stopping at its first error. */
  function RunAll<A>(exec: (Backend, A, string) -> Step<A>, be: Backend, acc: A, ids: seq<string>): Step<A>
    decreases |ids|
  {
    if |ids| == 0 then Step(be, acc, None)
    else
      var s := exec(be, acc, ids[0]);
      if s.err.Some? then s else RunAll(exec, s.be, s.acc, ids[1..])
  }

  /** The first step of a run. */
  lemma RunAllCons<A>(exec: (Backend, A, string) -> Step<A>, be: Backend, acc: A, ids: seq<string>)
    requires |ids| > 0
    ensures RunAll(exec, be, acc, ids) ==
      var s := exec(be, acc, ids[0]);
      if s.err.Some? then s else RunAll(exec, s.be, s.acc, ids[1..])
  {
  }

  /** How a callback treats one message, judged from the message alone:
      whether it fails on it, what it stores in its place, and whether the
      message leaves the set being iterated. */
  datatype PostLaw = PostLaw(fails: Post -> bool, rewrite: Post -> Post, leaves: Post -> bool)

  /** One step obeys the law from a backend: it fails exactly on a message
      the law fails on, and otherwise replaces that message alone, keeps the
      backend in shape, and takes the id out of the set exactly when the law
      says the message leaves. */
  ghost predicate Obeys(law: PostLaw, good: Backend -> bool, member: (Backend, string) -> bool,
                        be: Backend, x: string, s: Step<()>)
  {
    && (s.err.None? <==> !(x in be.posts && law.fails(be.posts[x])))
    && (s.err.None? ==>
          && s.be.(kv := be.kv, posts := be.posts) == be
          && s.be.posts == (if x in be.posts then be.posts[x := law.rewrite(be.posts[x])] else be.posts)
          && good(s.be)
          && forall y :: member(s.be, y) <==> member(be, y) && !(y == x && x in be.posts && law.leaves(be.posts[x])))
  }

  /** Every step from a backend in shape, for a valid id, obeys the law. */
  ghost predicate AlwaysObeys(law: PostLaw, good: Backend -> bool, member: (Backend, string) -> bool,
                              exec: (Backend, (), string) -> Step<()>)
  {
    forall b, x {:trigger exec(b, (), x)} :: good(b) && ValidId(x) ==> Obeys(law, good, member, b, x, exec(b, (), x))
  }

  /** A run over distinct ids obeys the law message by message, judged from
      the messages as they were before the run. */
  ghost predicate RunObeys(law: PostLaw, good: Backend -> bool, member: (Backend, string) -> bool,
                           be: Backend, ids: seq<string>, s: Step<()>)
  {
    && (s.err.None? <==> forall x :: x in ids ==> !(x in be.posts && law.fails(be.posts[x])))
    && (s.err.None? ==>
          && s.be.(kv := be.kv, posts := be.posts) == be
          && s.be.posts.Keys == be.posts.Keys
          && (forall x :: x in be.posts ==> s.be.posts[x] == if x in ids then law.rewrite(be.posts[x]) else be.posts[x])
          && good(s.be)
          && forall y :: member(s.be, y) <==> member(be, y) && !(y in ids && y in be.posts && law.leaves(be.posts[y])))
  }

  /** Steps that obey a law make a run that obeys it: the ids being
      distinct, no message is judged after it has been rewritten. */
  lemma {:induction false} RunObeysLaw(law: PostLaw, good: Backend -> bool, member: (Backend, string) -> bool,
                                       exec: (Backend, (), string) -> Step<()>, be: Backend, ids: seq<string>)
    requires AlwaysObeys(law, good, member, exec)
    requires good(be)
    requires NoDuplicates(ids) && forall x :: x in ids ==> ValidId(x)
    ensures RunObeys(law, good, member, be, ids, RunAll(exec, be, (), ids))
    decreases |ids|
  {
    if |ids| > 0 {
      var x := ids[0];
      var rest := ids[1..];
      var s1 := exec(be, (), x);
      assert Obeys(law, good, member, be, x, s1);
      assert forall y :: y in ids <==> y == x || y in rest;
      if s1.err.None? {
        assert s1.acc == ();
        assert NoDuplicates(rest) && x !in rest by {
          forall i, j | 0 <= i < j < |rest| ensures rest[i] != rest[j] {
            assert rest[i] == ids[i + 1] && rest[j] == ids[j + 1];
          }
        }
        RunObeysLaw(law, good, member, exec, s1.be, rest);
      }
    }
  }

  /** A callback that writes no shard of the set `key` other than the one of
      the id it is called for. */
  ghost predicate StaysInShard<A(!new)>(exec: (Backend, A, string) -> Step<A>, key: string) {
    forall be, acc, id, q :: |id| >= 2 && |q| == 2 && q != id[..2] ==>
      KvGet(exec(be, acc, id).be.kv, ShardKey(key, q)) == KvGet(be.kv, ShardKey(key, q))
  }

  /** The source's loop run over a list of ids, with the remaining count. */
  function RunFlow<A>(exec: (Backend, A, string) -> Step<A>, be: Backend, acc: A, ids: seq<string>, max: int): Flow<A>
    decreases |ids|
  {
    if |ids| == 0 then Continue(be, acc, max)
    else
      var s := exec(be, acc, ids[0]);
      if s.err.Some? then Stop(s)
      else if max > 0 && max - 1 == 0 then Stop(Step(s.be, s.acc, None))
      else RunFlow(exec, s.be, s.acc, ids[1..], if max > 0 then max - 1 else max)
  }

  /** Running on after a flow that went on. */
  function Then<A>(f: Flow<A>, exec: (Backend, A, string) -> Step<A>, more: seq<string>): Flow<A> {
    match f
    case Stop(s) => Stop(s)
    case Continue(be, acc, max) => RunFlow(exec, be, acc, more, max)
  }

  /** The ids the outer loop hands to the callback, shard by shard: shards
      before the cursor's prefix are skipped, and within a shard the ids up
      to the cursor. */
  function FlatAfter(kv: Store, key: string, prefixes: seq<string>, beginAfter: string, beginAfterPrefix: string): seq<string>
    decreases |prefixes|
  {
    if |prefixes| == 0 then []
    else if Less(prefixes[0], beginAfterPrefix) then FlatAfter(kv, key, prefixes[1..], beginAfter, beginAfterPrefix)
    else After(ShardIds(kv, key, prefixes[0]), beginAfter) + FlatAfter(kv, key, prefixes[1..], beginAfter, beginAfterPrefix)
  }

  // ---------------------------------------------------------------------
  // Lemmas about the lists

  lemma {:induction false} AfterConcat(xs: seq<string>, ys: seq<string>, beginAfter: string)
    ensures After(xs + ys, beginAfter) == After(xs, beginAfter) + After(ys, beginAfter)
    decreases |xs|
  {
    if |xs| > 0 {
      assert (xs + ys)[0] == xs[0] && (xs + ys)[1..] == xs[1..] + ys;
      AfterConcat(xs[1..], ys, beginAfter);
    } else {
      assert xs + ys == ys;
    }
  }

  lemma AfterNone(xs: seq<string>, beginAfter: string)
    requires forall x :: x in xs ==> !Less(beginAfter, x)
    ensures After(xs, beginAfter) == []
  {
  }

  /** The shards of the index, read in order, are the whole set in
      ascending order: prefixes are sorted, each shard is sorted, and all
      ids of a shard share its two-character prefix. */
  lemma {:induction false} FlattenSorted(kv: Store, key: string, prefixes: seq<string>)
    requires StrictlySorted(prefixes)
    requires forall q :: q in prefixes ==> |q| == 2 && ShardWellFormed(kv, key, q)
    ensures StrictlySorted(Flatten(kv, key, prefixes))
    ensures forall x :: x in Flatten(kv, key, prefixes) <==> ValidId(x) && x[..2] in prefixes && x in ShardIds(kv, key, x[..2])
    decreases |prefixes|
  {
    if |prefixes| > 0 {
      var p := prefixes[0];
      var rest := prefixes[1..];
      assert StrictlySorted(rest) by {
        forall i, j | 0 <= i < j < |rest|
          ensures Less(rest[i], rest[j])
        {
          assert rest[i] == prefixes[i + 1] && rest[j] == prefixes[j + 1];
        }
      }
      FlattenSorted(kv, key, rest);
      var S := ShardIds(kv, key, p);
      var F := Flatten(kv, key, rest);
      forall a, b | a in S && b in F
        ensures Less(a, b)
      {
        var k :| 0 <= k < |rest| && rest[k] == b[..2];
        assert Less(prefixes[0], prefixes[k + 1]);
        LessByPrefix(a, b, 2);
      }
      StrictlySortedConcat(S, F);
      assert prefixes == [p] + rest;
    }
  }

  /** On a well-formed set, `AllIds` lists exactly the members, in strictly
      ascending order. */
  lemma AllIdsSpec(kv: Store, key: string)
    requires WellFormed(kv, key)
    ensures StrictlySorted(AllIds(kv, key))
    ensures forall x :: x in AllIds(kv, key) <==> InIdset(kv, key, x)
  {
    FlattenSorted(kv, key, Prefixes(kv, key));
  }

  /** Skipping the shards before the cursor's prefix loses nothing after
      the cursor: their ids all sort before it. */
  lemma {:induction false} FlatAfterIsAfter(kv: Store, key: string, prefixes: seq<string>, beginAfter: string, beginAfterPrefix: string)
    requires forall q :: q in prefixes ==> ShardReadable(kv, key, q)
    requires (beginAfter == "" && beginAfterPrefix == "") || (ValidId(beginAfter) && beginAfterPrefix == beginAfter[..2])
    ensures FlatAfter(kv, key, prefixes, beginAfter, beginAfterPrefix) == After(Flatten(kv, key, prefixes), beginAfter)
    decreases |prefixes|
  {
    if |prefixes| > 0 {
      var p := prefixes[0];
      var S := ShardIds(kv, key, p);
      assert forall q :: q in prefixes[1..] ==> q in prefixes;
      FlatAfterIsAfter(kv, key, prefixes[1..], beginAfter, beginAfterPrefix);
      AfterConcat(S, Flatten(kv, key, prefixes[1..]), beginAfter);
      assert p in prefixes;
      assert ShardReadable(kv, key, p);
      if Less(p, beginAfterPrefix) {
        forall x | x in S
          ensures !Less(beginAfter, x)
        {
          assert x[..2] == p;
          LessByPrefix(x, beginAfter, 2);
          LessAsymmetric(x, beginAfter);
        }
        AfterNone(S, beginAfter);
      }
    }
  }

  // ---------------------------------------------------------------------
  // Lemmas about running

  /** The inner loop is the list run over the ids after the cursor. */
  lemma {:induction false} IterIdsIsRunFlow<A>(exec: (Backend, A, string) -> Step<A>, be: Backend, acc: A, ids: seq<string>, beginAfter: string, max: int)
    ensures IterIds(exec, be, acc, ids, beginAfter, max) == RunFlow(exec, be, acc, After(ids, beginAfter), max)
    decreases |ids|
  {
    if |ids| > 0 {
      var tail := After(ids[1..], beginAfter);
      if Less(beginAfter, ids[0]) {
        var l := [ids[0]] + tail;
        assert l[0] == ids[0] && l[1..] == tail;
        var s := exec(be, acc, ids[0]);
        IterIdsIsRunFlow(exec, s.be, s.acc, ids[1..], beginAfter, if max > 0 then max - 1 else max);
      } else {
        assert After(ids, beginAfter) == tail;
        IterIdsIsRunFlow(exec, be, acc, ids[1..], beginAfter, max);
      }
    }
  }

  /** Running over two lists is running over the first, then, if it went
      on, over the second from where it left off. */
  lemma {:induction false} FlowConcat<A>(exec: (Backend, A, string) -> Step<A>, be: Backend, acc: A, xs: seq<string>, ys: seq<string>, max: int)
    ensures RunFlow(exec, be, acc, xs + ys, max) == Then(RunFlow(exec, be, acc, xs, max), exec, ys)
    decreases |xs|
  {
    if |xs| > 0 {
      assert (xs + ys)[0] == xs[0] && (xs + ys)[1..] == xs[1..] + ys;
      var s := exec(be, acc, xs[0]);
      FlowConcat(exec, s.be, s.acc, xs[1..], ys, if max > 0 then max - 1 else max);
    } else {
      assert xs + ys == ys;
    }
  }

  /** The count cuts the list: running with a count of `max` is running
      the callback over the first `max` ids (all, when `max` is 0 or less). */
  lemma {:induction false} FlowLimit<A>(exec: (Backend, A, string) -> Step<A>, be: Backend, acc: A, ids: seq<string>, max: int)
    ensures ToStep(RunFlow(exec, be, acc, ids, max)) == RunAll(exec, be, acc, Limit(ids, max))
    decreases |ids|
  {
    if |ids| > 0 {
      var l := Limit(ids, max);
      assert l[0] == ids[0];
      var s := exec(be, acc, ids[0]);
      if s.err.None? {
        var max' := if max > 0 then max - 1 else max;
        if max > 0 && max - 1 == 0 {
          assert l == [ids[0]];
        } else {
          assert l[1..] == Limit(ids[1..], max');
          FlowLimit(exec, s.be, s.acc, ids[1..], max');
        }
      }
    }
  }

  /** A callback that stays in its own shard, run over ids of shard `p`,
      leaves every other shard of the set as it was. */
  lemma {:induction false} FlowFrame<A(!new)>(exec: (Backend, A, string) -> Step<A>, key: string, be: Backend, acc: A, ids: seq<string>, max: int, p: string)
    requires StaysInShard(exec, key)
    requires forall x :: x in ids ==> |x| >= 2 && x[..2] == p
    ensures forall q :: |q| == 2 && q != p ==>
      KvGet(FlowBackend(RunFlow(exec, be, acc, ids, max)).kv, ShardKey(key, q)) == KvGet(be.kv, ShardKey(key, q))
    decreases |ids|
  {
    if |ids| > 0 {
      var s := exec(be, acc, ids[0]);
      assert ids[0] in ids;
      if s.err.None? && !(max > 0 && max - 1 == 0) {
        assert forall x :: x in ids[1..] ==> x in ids;
        FlowFrame(exec, key, s.be, s.acc, ids[1..], if max > 0 then max - 1 else max, p);
      }
    }
  }

  /** What the outer loop needs of an indexed shard: a two-character
      prefix, a shard that decodes, and ids that all carry the prefix. */
  predicate ShardReadable(kv: Store, key: string, q: string) {
    && |q| == 2
    && StrsetGet(kv, ShardKey(key, q)).Ok?
    && forall x :: x in ShardIds(kv, key, q) ==> |x| >= 2 && x[..2] == q
  }

  predicate NoDuplicates(xs: seq<string>) {
    forall i, j :: 0 <= i < j < |xs| ==> xs[i] != xs[j]
  }

  lemma ShardReadableFrom(kv: Store, key: string, q: string)
    requires |q| == 2 && ShardWellFormed(kv, key, q)
    ensures ShardReadable(kv, key, q)
  {
  }

  lemma SortedNoDuplicates(ps: seq<string>)
    requires StrictlySorted(ps)
    ensures NoDuplicates(ps)
  {
    forall i, j | 0 <= i < j < |ps|
      ensures ps[i] != ps[j]
    {
      if ps[i] == ps[j] {
        StrictlySortedNoDuplicates(ps, i, j);
      }
    }
  }

  /** The indexed shards of a well-formed set are readable, each once. */
  lemma WellFormedReadable(kv: Store, key: string)
    requires WellFormed(kv, key)
    ensures forall q :: q in Prefixes(kv, key) ==> ShardReadable(kv, key, q)
    ensures NoDuplicates(Prefixes(kv, key))
  {
    forall q | q in Prefixes(kv, key)
      ensures ShardReadable(kv, key, q)
    {
      ShardReadableFrom(kv, key, q);
    }
    SortedNoDuplicates(Prefixes(kv, key));
  }

  /** After a shard of `p` has been run through and the run goes on, the
      other indexed shards still read as at the start. */
  lemma ShardRunFrame<A(!new)>(exec: (Backend, A, string) -> Step<A>, key: string, be0: Backend, be: Backend, acc: A,
                               p: string, visit: seq<string>, rest: seq<string>, max: int)
    requires StaysInShard(exec, key)
    requires forall x :: x in visit ==> |x| >= 2 && x[..2] == p
    requires p !in rest
    requires forall q :: q in rest ==> |q| == 2 && KvGet(be.kv, ShardKey(key, q)) == KvGet(be0.kv, ShardKey(key, q))
    ensures forall q :: q in rest ==>
      KvGet(FlowBackend(RunFlow(exec, be, acc, visit, max)).kv, ShardKey(key, q)) == KvGet(be0.kv, ShardKey(key, q))
  {
    FlowFrame(exec, key, be, acc, visit, max, p);
  }

  /** The outer loop over prefixes whose shards still read as they did at
      the start is the list run over the ids it hands on. */
  lemma {:induction false} IterPrefixesIsRunFlow<A(!new)>(exec: (Backend, A, string) -> Step<A>, key: string, be0: Backend, be: Backend, acc: A,
                                                         prefixes: seq<string>, beginAfter: string, beginAfterPrefix: string, max: int)
    requires StaysInShard(exec, key)
    requires NoDuplicates(prefixes)
    requires forall q :: q in prefixes ==> ShardReadable(be0.kv, key, q)
    requires forall q :: q in prefixes ==> KvGet(be.kv, ShardKey(key, q)) == KvGet(be0.kv, ShardKey(key, q))
    ensures IterPrefixes(exec, key, be, acc, prefixes, beginAfter, beginAfterPrefix, max)
         == ToStep(RunFlow(exec, be, acc, FlatAfter(be0.kv, key, prefixes, beginAfter, beginAfterPrefix), max))
    decreases |prefixes|
  {
    if |prefixes| > 0 {
      var p := prefixes[0];
      var rest := prefixes[1..];
      assert NoDuplicates(rest) by {
        forall i, j | 0 <= i < j < |rest|
          ensures rest[i] != rest[j]
        {
          assert rest[i] == prefixes[i + 1] && rest[j] == prefixes[j + 1];
        }
      }
      assert forall q :: q in rest ==> q in prefixes;
      if Less(p, beginAfterPrefix) {
        IterPrefixesIsRunFlow(exec, key, be0, be, acc, rest, beginAfter, beginAfterPrefix, max);
      } else {
        assert p in prefixes;
        StrsetGetFrame(be.kv, be0.kv, ShardKey(key, p));
        var ids := ShardIds(be0.kv, key, p);
        var visit := After(ids, beginAfter);
        IterIdsIsRunFlow(exec, be, acc, ids, beginAfter, max);
        FlowConcat(exec, be, acc, visit, FlatAfter(be0.kv, key, rest, beginAfter, beginAfterPrefix), max);
        var f := RunFlow(exec, be, acc, visit, max);
        if f.Continue? {
          ShardRunFrame(exec, key, be0, be, acc, p, visit, rest, max);
          IterPrefixesIsRunFlow(exec, key, be0, f.be, f.acc, rest, beginAfter, beginAfterPrefix, f.remaining);
        }
      }
    }
  }

  /** The iteration over readable, distinct indexed shards. */
  lemma IterationOverShards<A(!new)>(exec: (Backend, A, string) -> Step<A>, be: Backend, acc: A, key: string, beginAfter: string, max: int)
    requires StrsetGet(be.kv, PrefixKey(key)).Ok?
    requires NoDuplicates(Prefixes(be.kv, key))
    requires forall q :: q in Prefixes(be.kv, key) ==> ShardReadable(be.kv, key, q)
    requires beginAfter == "" || ValidId(beginAfter)
    requires StaysInShard(exec, key)
    ensures IdsetIter(exec, be, acc, key, beginAfter, max) == RunAll(exec, be, acc, Visits(be.kv, key, beginAfter, max))
  {
    var prefixes := Prefixes(be.kv, key);
    var beginAfterPrefix := if beginAfter == "" then "" else beginAfter[..2];
    IterPrefixesIsRunFlow(exec, key, be, be, acc, prefixes, beginAfter, beginAfterPrefix, max);
    FlatAfterIsAfter(be.kv, key, prefixes, beginAfter, beginAfterPrefix);
    FlowLimit(exec, be, acc, After(AllIds(be.kv, key), beginAfter), max);
  }

  /** The iteration theorem: on a well-formed set, with a valid or empty
      cursor and a callback that stays in its own shard, iterating is
      running the callback over the set's ids in ascending order, after the
      cursor, at most `max` of them when `max > 0`, stopping at the first
      error. */
  lemma IterationSpec<A(!new)>(exec: (Backend, A, string) -> Step<A>, be: Backend, acc: A, key: string, beginAfter: string, max: int)
    requires WellFormed(be.kv, key)
    requires beginAfter == "" || ValidId(beginAfter)
    requires StaysInShard(exec, key)
    ensures IdsetIter(exec, be, acc, key, beginAfter, max) == RunAll(exec, be, acc, Visits(be.kv, key, beginAfter, max))
  {
    WellFormedReadable(be.kv, key);
    IterationOverShards(exec, be, acc, key, beginAfter, max);
  }

  // ---------------------------------------------------------------------
  // What an iteration visits

  /** Without a limit, an iteration visits exactly the members of the set
      after the cursor, in ascending order; with a limit `max > 0`, the
      first `max` of those. */
  lemma VisitsSpec(kv: Store, key: string, beginAfter: string, max: int)
    requires WellFormed(kv, key)
    ensures StrictlySorted(Visits(kv, key, beginAfter, max))
    ensures max <= 0 ==> forall x :: x in Visits(kv, key, beginAfter, max) <==> InIdset(kv, key, x) && Less(beginAfter, x)
    ensures max > 0 ==> Visits(kv, key, beginAfter, max) == Visits(kv, key, beginAfter, 0)[..|Visits(kv, key, beginAfter, max)|]
    ensures max > 0 ==> |Visits(kv, key, beginAfter, max)| == Min(max, |Visits(kv, key, beginAfter, 0)|)
  {
    AllIdsSpec(kv, key);
    var all := After(AllIds(kv, key), beginAfter);
    AfterSorted(AllIds(kv, key), beginAfter);
    var v := Visits(kv, key, beginAfter, max);
    assert v == all[..|v|];
    forall i, j | 0 <= i < j < |v|
      ensures Less(v[i], v[j])
    {
      assert v[i] == all[i] && v[j] == all[j];
    }
  }

  /** A whole iteration, without cursor or limit, visits every member of a
      well-formed set once. */
  lemma VisitsWhole(kv: Store, key: string)
    requires WellFormed(kv, key)
    ensures NoDuplicates(Visits(kv, key, "", 0))
    ensures forall x :: x in Visits(kv, key, "", 0) <==> InIdset(kv, key, x)
  {
    VisitsSpec(kv, key, "", 0);
    SortedNoDuplicates(Visits(kv, key, "", 0));
    forall x | InIdset(kv, key, x)
      ensures Less("", x)
    {
    }
  }

  /** Filtering keeps a sorted list sorted. */
  lemma {:induction false} AfterSorted(xs: seq<string>, beginAfter: string)
    requires StrictlySorted(xs)
    ensures StrictlySorted(After(xs, beginAfter))
    decreases |xs|
  {
    if |xs| > 0 {
      var tail := xs[1..];
      assert StrictlySorted(tail) by {
        forall i, j | 0 <= i < j < |tail|
          ensures Less(tail[i], tail[j])
        {
          assert tail[i] == xs[i + 1] && tail[j] == xs[j + 1];
        }
      }
      AfterSorted(tail, beginAfter);
      var head := if Less(beginAfter, xs[0]) then [xs[0]] else [];
      forall a, b | a in head && b in After(tail, beginAfter)
        ensures Less(a, b)
      {
        var k :| 0 <= k < |tail| && tail[k] == b;
        assert xs[0] == a && xs[k + 1] == b;
      }
      StrictlySortedConcat(head, After(tail, beginAfter));
    }
  }

  /** The empty cursor skips nothing (every id is non-empty). */
  lemma {:induction false} AfterEmptyCursor(xs: seq<string>)
    requires forall x :: x in xs ==> |x| > 0
    ensures After(xs, "") == xs
    decreases |xs|
  {
    if |xs| > 0 {
      assert xs[0] in xs;
      assert forall x :: x in xs[1..] ==> x in xs;
      AfterEmptyCursor(xs[1..]);
      assert xs == [xs[0]] + xs[1..];
    }
  }

  /** Resuming after the `k`-th visited id visits the rest: the cursor is
      how the source pages through a set. */
  lemma {:induction false} AfterResume(xs: seq<string>, k: nat)
    requires StrictlySorted(xs) && k < |xs|
    ensures After(xs, xs[k]) == xs[k + 1..]
    decreases |xs|
  {
    var tail := xs[1..];
    assert StrictlySorted(tail) by {
      forall i, j | 0 <= i < j < |tail|
        ensures Less(tail[i], tail[j])
      {
        assert tail[i] == xs[i + 1] && tail[j] == xs[j + 1];
      }
    }
    if k == 0 {
      LessIrreflexive(xs[0]);
      forall x | x in tail
        ensures Less(xs[0], x)
      {
        var i :| 0 <= i < |tail| && tail[i] == x;
        assert x == xs[i + 1];
      }
      AfterAll(tail, xs[0]);
    } else {
      assert tail[k - 1] == xs[k];
      assert Less(xs[0], xs[k]);
      LessAsymmetric(xs[0], xs[k]);
      AfterResume(tail, k - 1);
      assert tail[k..] == xs[k + 1..];
    }
  }

  lemma {:induction false} AfterAll(xs: seq<string>, beginAfter: string)
    requires forall x :: x in xs ==> Less(beginAfter, x)
    ensures After(xs, beginAfter) == xs
    decreases |xs|
  {
    if |xs| > 0 {
      assert xs[0] in xs;
      assert forall x :: x in xs[1..] ==> x in xs;
      AfterAll(xs[1..], beginAfter);
      assert xs == [xs[0]] + xs[1..];
    }
  }

  /** A callback that only collects the ids it is given. */
  function Collect(be: Backend, acc: seq<string>, id: string): Step<seq<string>> {
    Step(be, acc + [id], None)
  }

  lemma {:induction false} RunAllCollect(be: Backend, acc: seq<string>, ids: seq<string>)
    ensures RunAll(Collect, be, acc, ids) == Step(be, acc + ids, None)
    decreases |ids|
  {
    if |ids| > 0 {
      var exec: (Backend, seq<string>, string) -> Step<seq<string>> := Collect;
      assert exec(be, acc, ids[0]) == Step(be, acc + [ids[0]], None);
      assert RunAll(exec, be, acc, ids) == RunAll(exec, be, acc + [ids[0]], ids[1..]);
      RunAllCollect(be, acc + [ids[0]], ids[1..]);
      assert ids == [ids[0]] + ids[1..];
      assert acc + [ids[0]] + ids[1..] == acc + ids;
    } else {
      assert acc + ids == acc;
    }
  }

  /** Collecting a whole well-formed set without a cursor or a limit lists
      every member once, in ascending order, and changes nothing. */
  lemma CollectAll(be: Backend, key: string)
    requires WellFormed(be.kv, key)
    ensures IdsetIter(Collect, be, [], key, "", 0).err.None?
    ensures IdsetIter(Collect, be, [], key, "", 0).be == be
    ensures StrictlySorted(IdsetIter(Collect, be, [], key, "", 0).acc)
    ensures forall x :: x in IdsetIter(Collect, be, [], key, "", 0).acc <==> InIdset(be.kv, key, x)
  {
    IterationSpec(Collect, be, [], key, "", 0);
    RunAllCollect(be, [], Visits(be.kv, key, "", 0));
    VisitsSpec(be.kv, key, "", 0);
    forall x | InIdset(be.kv, key, x)
      ensures Less("", x)
    {
    }
  }
}

=== FILE: plugin.dfy ===
/** The plugin's hooks and the icon URL of a profile (`server/plugin.go`). */
module Icons {
  import opened Strings
  import opened Profiles

  /** Where the plugin serves its own static images. */
  const PluginPath: string := "/plugins/com.axelsvensson.mattermost-plugin-character-profiles/"
  const FilesPath: string := "/api/v4/files/"
  const UsersPath: string := "/api/v4/users/"

  /** `profileIconUrl`: a character's uploaded picture (its thumbnail if
      asked), the plugin's character image when it has none, the user's own
      picture for the real profile, and a "no" sign for anything else. */
  function ProfileIconUrl(siteUrl: string, p: Profile, thumbnail: bool): (r: string)
    ensures HasPrefix(r, siteUrl)
    ensures p.status == Character && p.pictureFileId != "" ==>
      r == siteUrl + FilesPath + p.pictureFileId + (if thumbnail then "/thumbnail" else "")
    ensures p.status == Character && p.pictureFileId == "" ==>
      r == siteUrl + PluginPath + (if thumbnail then "character-thumbnail.jpeg" else "character.png")
    ensures p.status == Me ==> r == siteUrl + UsersPath + p.userId + "/image"
    ensures p.status !in {Character, Me} ==>
      r == siteUrl + PluginPath + (if thumbnail then "no-sign-thumbnail.jpg" else "no-sign.jpg")
  {
    var path :=
      if p.status == Character then
        if p.pictureFileId == "" then
          if thumbnail then PluginPath + "character-thumbnail.jpeg" else PluginPath + "character.png"
        else if thumbnail then FilesPath + p.pictureFileId + "/thumbnail"
        else FilesPath + p.pictureFileId
      else if p.status == Me then UsersPath + p.userId + "/image"
      else if thumbnail then PluginPath + "no-sign-thumbnail.jpg"
      else PluginPath + "no-sign.jpg";
    assert (siteUrl + path)[..|siteUrl|] == siteUrl;
    siteUrl + path
  }

  /** A character's picture URL names its file: the file id is what follows
      the files path. */
  lemma PictureUrlNamesFile(siteUrl: string, p: Profile)
    requires p.status == Character && p.pictureFileId != ""
    ensures TrimPrefix(ProfileIconUrl(siteUrl, p, false), siteUrl + FilesPath) == p.pictureFileId
  {
    var pre := siteUrl + FilesPath;
    var r := ProfileIconUrl(siteUrl, p, false);
    assert r == pre + p.pictureFileId;
    assert r[..|pre|] == pre;
  }

  /** So two characters with pictures share an icon exactly when they share
      the picture file. */
  lemma PictureUrlInjective(siteUrl: string, p: Profile, q: Profile)
    requires p.status == Character && p.pictureFileId != ""
    requires q.status == Character && q.pictureFileId != ""
    ensures ProfileIconUrl(siteUrl, p, false) == ProfileIconUrl(siteUrl, q, false) <==> p.pictureFileId == q.pictureFileId
  {
    PictureUrlNamesFile(siteUrl, p);
    PictureUrlNamesFile(siteUrl, q);
  }
}

/** The hooks the host calls before it stores a message
    (`MessageWillBePosted`, `MessageWillBeUpdated` in `server/plugin.go`).
    The plugin's backend exists once the plugin is activated; before that
    it is absent, and every message is rejected. */
module PluginHooks {
  import opened Wrappers
  import opened Host
  import opened Posts

  const NotInitialized: string := "Backend not initialized"

  /** A new message: rejected before activation, otherwise shown as the
      profile it names, is tagged with, or the channel's default. */
  function MessageWillBePosted(backend: Option<Backend>, post: Option<Post>): (r: (Option<Post>, string))
    ensures r.1 != "" <==> backend.None?
    ensures backend.None? ==> r == (None, NotInitialized)
    ensures r.0.Some? ==> backend.Some? && ShowsCurrentProfile(backend.value, r.0.value)
    ensures r.0.Some? ==> post.Some? && r.0.value.(props := post.value.props, message := post.value.message) == post.value
  {
    if backend.None? then (None, NotInitialized)
    else ProfiledPost(backend.value, post, false)
  }

  /** An edited message: as a new one, except that an untagged message
      without a one-off prefix does not take the channel's default. The
      message as it was before the edit plays no part. */
  function MessageWillBeUpdated(backend: Option<Backend>, newPost: Option<Post>, oldPost: Option<Post>): (r: (Option<Post>, string))
    ensures r.1 != "" <==> backend.None?
    ensures backend.None? ==> r == (None, NotInitialized)
    ensures r.0.Some? ==> backend.Some? && ShowsCurrentProfile(backend.value, r.0.value)
    ensures r.0.Some? ==> newPost.Some? && r.0.value.(props := newPost.value.props, message := newPost.value.message) == newPost.value
  {
    if backend.None? then (None, NotInitialized)
    else ProfiledPost(backend.value, newPost, true)
  }

  /** Whenever the edit hook changes a message, the post hook would have
      changed it the same way: editing only ever withholds the channel's
      default profile. */
  lemma EditAgreesWithPost(backend: Option<Backend>, post: Option<Post>, oldPost: Option<Post>)
    requires MessageWillBeUpdated(backend, post, oldPost).0.Some?
    ensures MessageWillBePosted(backend, post) == MessageWillBeUpdated(backend, post, oldPost)
  {
  }
}

=== FILE: post.dfy ===
/** Messages written as a character (`server/post.go`).

    A message shows a character when its props carry the character's
    identifier, name and icon and pretend to come from a webhook (the host
    only honours a name override from one). Every message tagged with a
    character is also listed in an id set per user and character, so that
    the messages can be found again when the character changes.
 */
module Posts {
  import opened Wrappers
  import opened Strings
  import opened Host
  import opened Idset
  import opened Iteration
  import opened Profiles
  import opened Icons

  // ---------------------------------------------------------------------
  // Tags

  const IdentifierProp: string := "profile_identifier"
  const UsernameProp: string := "override_username"
  const IconProp: string := "override_icon_url"
  const WebhookProp: string := "from_webhook"

  /** The props a profile writes; nothing else of a message is touched. */
  const ProfileProps: set<string> := {IdentifierProp, UsernameProp, IconProp, WebhookProp}

  /** `getIdsetKey`: the id set of the messages written as a character. */
  function IdsetKey(userId: string, profileId: string): string {
    "profiledpost_" + userId + "_" + profileId
  }

  lemma IdsetKeyInjective(userId: string, a: string, b: string)
    requires IdsetKey(userId, a) == IdsetKey(userId, b)
    ensures a == b
  {
    var n := |"profiledpost_" + userId + "_"|;
    assert IdsetKey(userId, a)[n..] == a;
    assert IdsetKey(userId, b)[n..] == b;
  }

  /** A message shown as written by the user themself: every profile prop is nil. */
  predicate TaggedAsMe(p: Post) {
    && PropGet(p.props, IdentifierProp) == PNil
    && PropGet(p.props, UsernameProp) == PNil
    && PropGet(p.props, IconProp) == PNil
    && PropGet(p.props, WebhookProp) == PNil
  }

  /** A message shown as written by character `c`, with its name and icon. */
  predicate TaggedAs(siteUrl: string, p: Post, c: Profile) {
    && PropGet(p.props, IdentifierProp) == PStr(c.identifier)
    && PropGet(p.props, UsernameProp) == PStr(c.name)
    && PropGet(p.props, IconProp) == PStr(ProfileIconUrl(siteUrl, c, false))
    && PropGet(p.props, WebhookProp) == PStr("true")
  }

  /** `q` is `p` with at most its profile props changed. */
  predicate RetaggedOnly(p: Post, q: Post) {
    q.(props := p.props) == p && q.props - ProfileProps == p.props - ProfileProps
  }

  function Stamp(props: map<string, Prop>, id: Prop, name: Prop, icon: Prop, webhook: Prop): map<string, Prop> {
    props[IdentifierProp := id][UsernameProp := name][IconProp := icon][WebhookProp := webhook]
  }

  /** `profilePost`: the message shown as the given profile. Only a
      character or the real profile can be shown; the site address is the
      host's, for the icon. */
  function ProfilePost(siteUrl: string, post: Post, p: Profile): (r: (Option<Post>, string))
    ensures r.0.Some? <==> p.status in {Character, Me}
    ensures r.0.None? ==> r.1 == "Invalid profile status"
    ensures r.0.Some? ==> r.1 == "" && RetaggedOnly(post, r.0.value)
    ensures p.status == Me ==> TaggedAsMe(r.0.value)
    ensures p.status == Character ==> TaggedAs(siteUrl, r.0.value, p)
  {
    match p.status
    case Me => (Some(post.(props := Stamp(post.props, PNil, PNil, PNil, PNil))), "")
    case Character =>
      var icon := ProfileIconUrl(siteUrl, p, false);
      (Some(post.(props := Stamp(post.props, PStr(p.identifier), PStr(p.name), PStr(icon), PStr("true")))), "")
    case _ => (None, "Invalid profile status")
  }

  /** Showing a message as a profile replaces whatever profile it showed:
      the last one applied wins, and applying one twice is applying it once. */
  lemma ProfilePostOverrides(siteUrl: string, post: Post, p: Profile, q: Profile)
    requires p.status in {Character, Me}
    ensures ProfilePost(siteUrl, ProfilePost(siteUrl, post, p).0.value, q) == ProfilePost(siteUrl, post, q)
  {
    var shown := ProfilePost(siteUrl, post, p).0.value;
    if q.status in {Character, Me} {
      var m := Stamp(post.props, PNil, PNil, PNil, PNil);
      if p.status == Character {
        var icon := ProfileIconUrl(siteUrl, p, false);
        m := Stamp(post.props, PStr(p.identifier), PStr(p.name), PStr(icon), PStr("true"));
      }
      assert shown == post.(props := m);
      if q.status == Me {
        StampTwice(post.props, m, PNil, PNil, PNil, PNil);
      } else {
        var icon := ProfileIconUrl(siteUrl, q, false);
        StampTwice(post.props, m, PStr(q.identifier), PStr(q.name), PStr(icon), PStr("true"));
      }
    }
  }

  /** Stamping the four profile props over a map that differs from another
      only in those props gives the same map. */
  lemma StampTwice(props: map<string, Prop>, stamped: map<string, Prop>, id: Prop, name: Prop, icon: Prop, webhook: Prop)
    requires stamped.Keys == props.Keys + ProfileProps
    requires forall k :: k in props && k !in ProfileProps ==> stamped[k] == props[k]
    ensures Stamp(stamped, id, name, icon, webhook) == Stamp(props, id, name, icon, webhook)
  {
    var a := Stamp(stamped, id, name, icon, webhook);
    var b := Stamp(props, id, name, icon, webhook);
    assert a.Keys == b.Keys;
    assert forall k :: k in a ==> a[k] == b[k];
  }

  lemma ProfilePostIdempotent(siteUrl: string, post: Post, p: Profile)
    requires p.status in {Character, Me}
    ensures ProfilePost(siteUrl, ProfilePost(siteUrl, post, p).0.value, p) == ProfilePost(siteUrl, post, p)
  {
    ProfilePostOverrides(siteUrl, post, p, p);
  }

  /** A message that already shows a profile is shown unchanged as it. */
  lemma ProfilePostFixpoint(siteUrl: string, post: Post, p: Profile)
    requires p.status == Character && TaggedAs(siteUrl, post, p) && ProfileProps <= post.props.Keys
    ensures ProfilePost(siteUrl, post, p).0 == Some(post)
  {
    var q := ProfilePost(siteUrl, post, p).0.value;
    assert q.props == post.props;
  }

  // ---------------------------------------------------------------------
  // One-off messages

  predicate IsOneOffSeparator(c: char) {
    c == ' ' || c == '\n'
  }

  /** `msg` reads `id: rest` (or with a line break after the colon), `id`
      being lower-case letters. */
  predicate OneOffForm(msg: string, id: string, rest: string) {
    && |msg| == |id| + 2 + |rest|
    && |id| > 0 && AllLowerLetters(id)
    && msg[..|id|] == id && msg[|id|] == ':' && IsOneOffSeparator(msg[|id| + 1])
    && msg[|id| + 2..] == rest
  }

  /** The pattern `(?s)^([a-z]+):[ \n](.*)$`: the identifier and the rest. */
  function ParseOneOff(msg: string): (r: Option<(string, string)>)
    ensures r.Some? ==> OneOffForm(msg, r.value.0, r.value.1)
  {
    var n := LowerRun(msg);
    if 0 < n && n + 2 <= |msg| && msg[n] == ':' && IsOneOffSeparator(msg[n + 1]) then
      Some((msg[..n], msg[n + 2..]))
    else None
  }

  /** The parse is exact: a message has the one-off form with an identifier
      and a rest exactly when the parser returns those two. */
  lemma OneOffParse(msg: string, id: string, rest: string)
    ensures ParseOneOff(msg) == Some((id, rest)) <==> OneOffForm(msg, id, rest)
  {
    if OneOffForm(msg, id, rest) {
      assert msg == id + msg[|id|..];
      LowerRunOf(id, msg[|id|..]);
    }
  }

  /** Writing a one-off message and parsing it gives back its parts. */
  lemma OneOffRoundTrip(id: string, sep: char, rest: string)
    requires |id| > 0 && AllLowerLetters(id) && IsOneOffSeparator(sep)
    ensures ParseOneOff(id + [':', sep] + rest) == Some((id, rest))
  {
    var msg := id + [':', sep] + rest;
    assert msg[..|id|] == id && msg[|id| + 2..] == rest;
    OneOffParse(msg, id, rest);
  }

  // ---------------------------------------------------------------------
  // Choosing the profile of a message

  /** A one-off prefix naming a character or the real profile: that profile
      and the message without the prefix. */
  function OneOff(be: Backend, p: Post): Option<(Profile, string)> {
    match ParseOneOff(p.message)
    case None => None
    case Some(parts) =>
      match GetProfile(be, p.userId, parts.0, {Character, Me})
      case Ok(profile) => Some((profile, parts.1))
      case Err(_) => None
  }

  /** The character a message is already tagged with, if it still resolves. */
  function CurrentTag(be: Backend, p: Post): Option<Profile> {
    match PropGet(p.props, IdentifierProp)
    case PStr(id) =>
      var r := GetProfile(be, p.userId, id, {Character});
      if r.Ok? then Some(r.value) else None
    case _ => None
  }

  /** The message shows the real profile, or a character that resolves now
      with its current name and icon. */
  predicate ShowsCurrentProfile(be: Backend, p: Post) {
    || TaggedAsMe(p)
    || (PropGet(p.props, IdentifierProp).PStr? &&
        var r := GetProfile(be, p.userId, PropGet(p.props, IdentifierProp).str, {Character});
        r.Ok? && TaggedAs(be.siteUrl, p, r.value))
  }

  /** Whichever of the two masks a profile is read with, a profile both
      accept is read the same. */
  lemma GetProfileAccepted(be: Backend, userId: string, id: string, a: Mask, b: Mask)
    requires GetProfile(be, userId, id, a).Ok? && GetProfile(be, userId, id, a).value.status in b
    ensures GetProfile(be, userId, id, b) == GetProfile(be, userId, id, a)
  {
  }

  lemma ShowsProfile(be: Backend, post: Post, p: Profile)
    requires GetProfile(be, post.userId, p.identifier, {Character, Me}) == Ok(p)
    ensures ShowsCurrentProfile(be, ProfilePost(be.siteUrl, post, p).0.value)
  {
    if p.status == Character {
      GetProfileAccepted(be, post.userId, p.identifier, {Character, Me}, {Character});
    }
  }

  /** `ProfiledPost`: the message as it is to be stored, or nothing to leave
      it as it is. A one-off prefix that resolves wins and is cut off; then
      the character the message is tagged with, if it still resolves; an
      edited message stops there; a new one takes the channel's default
      profile. System messages and messages without a user are left alone.
      The reason string is always empty: a message is never rejected. */
  function ProfiledPost(be: Backend, post: Option<Post>, isEdited: bool): (r: (Option<Post>, string))
    ensures r.1 == ""
    ensures post.None? ==> r.0.None?
    ensures post.Some? && (IsSystemMessage(post.value) || post.value.userId == "") ==> r.0.None?
    ensures r.0.Some? ==> r.0.value.(props := post.value.props, message := post.value.message) == post.value
    ensures r.0.Some? ==> r.0.value.props - ProfileProps == post.value.props - ProfileProps
    ensures r.0.Some? ==> ShowsCurrentProfile(be, r.0.value)
    ensures r.0.Some? && r.0.value.message != post.value.message ==>
      ParseOneOff(post.value.message).Some? && r.0.value.message == ParseOneOff(post.value.message).value.1
  {
    if post.None? then (None, "")
    else
      var p := post.value;
      if IsSystemMessage(p) || p.userId == "" then (None, "")
      else match OneOff(be, p)
        case Some(found) =>
          ShowsProfile(be, p.(message := found.1), found.0);
          ProfilePost(be.siteUrl, p.(message := found.1), found.0)
        case None =>
          match CurrentTag(be, p)
          case Some(c) =>
            GetProfileAccepted(be, p.userId, c.identifier, {Character}, {Character, Me});
            ShowsProfile(be, p, c);
            ProfilePost(be.siteUrl, p, c)
          case None =>
            if isEdited then (None, "")
            else
              var id := GetDefaultProfileIdentifier(be.kv, p.userId, p.channelId);
              match GetProfile(be, p.userId, id, {Character, Me})
              case Ok(d) =>
                ShowsProfile(be, p, d);
                ProfilePost(be.siteUrl, p, d)
              case Err(_) => (None, "")
  }

  /** A one-off prefix that names a resolvable profile decides, whatever the
      message is tagged with and whether it is new or edited. */
  lemma OneOffWins(be: Backend, post: Post, isEdited: bool, id: string, sep: char, rest: string)
    requires !IsSystemMessage(post) && post.userId != ""
    requires |id| > 0 && AllLowerLetters(id) && IsOneOffSeparator(sep)
    requires post.message == id + [':', sep] + rest
    requires GetProfile(be, post.userId, id, {Character, Me}).Ok?
    ensures var r := ProfiledPost(be, Some(post), isEdited).0;
      && r.Some? && r.value.message == rest
      && (GetProfile(be, post.userId, id, {Character, Me}).value.status == Me ==> TaggedAsMe(r.value))
      && (GetProfile(be, post.userId, id, {Character, Me}).value.status == Character ==>
            TaggedAs(be.siteUrl, r.value, GetProfile(be, post.userId, id, {Character, Me}).value))
  {
    OneOffRoundTrip(id, sep, rest);
  }

  /** What an edit does once no one-off prefix resolves. */
  lemma EditedResult(be: Backend, q: Post)
    requires !IsSystemMessage(q) && q.userId != "" && OneOff(be, q).None?
    ensures ProfiledPost(be, Some(q), true) ==
      if CurrentTag(be, q).Some? then ProfilePost(be.siteUrl, q, CurrentTag(be, q).value) else (None, "")
  {
  }

  /** What a new message gets once neither a one-off prefix nor its tag resolves. */
  lemma NewResult(be: Backend, q: Post)
    requires !IsSystemMessage(q) && q.userId != "" && OneOff(be, q).None? && CurrentTag(be, q).None?
    ensures var d := GetProfile(be, q.userId, GetDefaultProfileIdentifier(be.kv, q.userId, q.channelId), {Character, Me});
      ProfiledPost(be, Some(q), false) == if d.Ok? then ProfilePost(be.siteUrl, q, d.value) else (None, "")
  {
  }

  /** Editing a message that is not one-off and carries no character that
      still resolves leaves it as it is. */
  lemma EditLeavesUntagged(be: Backend, post: Post)
    requires OneOff(be, post).None? && CurrentTag(be, post).None?
    ensures ProfiledPost(be, Some(post), true).0.None?
  {
  }

  /** A message the plugin has just shown as a profile, edited without a new
      one-off prefix, keeps showing that profile: either it is left alone or
      it comes back unchanged. */
  lemma ReprofileStable(be: Backend, post: Post, isEdited: bool)
    requires ProfiledPost(be, Some(post), isEdited).0.Some?
    requires OneOff(be, ProfiledPost(be, Some(post), isEdited).0.value).None?
    ensures var q := ProfiledPost(be, Some(post), isEdited).0.value;
      ProfiledPost(be, Some(q), true).0 in {None, Some(q)}
  {
    var q := ProfiledPost(be, Some(post), isEdited).0.value;
    assert q.(props := post.props, message := post.message) == post;
    EditedResult(be, q);
    if !TaggedAsMe(q) {
      var c := GetProfile(be, q.userId, PropGet(q.props, IdentifierProp).str, {Character}).value;
      assert CurrentTag(be, q) == Some(c);
      assert ProfileProps <= q.props.Keys;
      ProfilePostFixpoint(be.siteUrl, q, c);
    }
  }

  /** Binding a channel to a character makes the new messages there, unless
      one-off or already tagged, show that character. */
  lemma DefaultAppliesToNewPosts(be: Backend, channelId: string, profileId: string, post: Post)
    requires SetDefaultProfileIdentifier(be, post.userId, channelId, profileId).Ok?
    requires post.channelId == channelId && !IsSystemMessage(post) && post.userId != ""
    requires ParseOneOff(post.message).None? && !PropGet(post.props, IdentifierProp).PStr?
    ensures var bound := SetDefaultProfileIdentifier(be, post.userId, channelId, profileId).value;
      ProfiledPost(bound.0, Some(post), false).0 == Some(ProfilePost(be.siteUrl, post, bound.1).0.value)
  {
    var bound := SetDefaultProfileIdentifier(be, post.userId, channelId, profileId).value;
    var be' := bound.0;
    assert be' == be.(kv := be'.kv);
    assert ProfileKey(post.userId, profileId) != DefaultProfileKey(post.userId, channelId) by {
      assert ProfileKey(post.userId, profileId)[0] == 'p';
    }
    GetProfileReadsOneKey(be, be'.kv, post.userId, profileId, {Character, Me});
    GetProfileReadsOneKey(be, be'.kv, post.userId, profileId, {Character});
    GetProfileAccepted(be, post.userId, profileId, {Character}, {Character, Me});
    assert OneOff(be', post).None?;
    assert CurrentTag(be', post).None?;
    NewResult(be', post);
  }

  // ---------------------------------------------------------------------
  // Registering messages

  /** The character a message is tagged with, when the tag is a non-empty
      string. */
  function TaggedIdentifier(p: Post): Option<string> {
    match PropGet(p.props, IdentifierProp)
    case PStr(id) => if id != "" then Some(id) else None
    case _ => None
  }

  /** `RegisterPost`: a message tagged with a character is added to that
      character's id set; any other message writes nothing. */
  function RegisterPost(kv: Store, post: Option<Post>): (r: Outcome)
    ensures post.None? ==> r == Outcome(kv, Some(NewError("Message is nil")))
    ensures post.Some? && TaggedIdentifier(post.value).None? ==> r == Outcome(kv, None)
    ensures post.Some? && TaggedIdentifier(post.value).Some? && !ValidId(post.value.id) ==>
      r == Outcome(kv, Some(NewError(InvalidIdMessage)))
    ensures post.Some? && TaggedIdentifier(post.value).Some? && ValidId(post.value.id) ==>
      var key := IdsetKey(post.value.userId, TaggedIdentifier(post.value).value);
      forall k :: k != PrefixKey(key) && k != ShardKey(key, post.value.id[..2]) ==> KvGet(r.kv, k) == KvGet(kv, k)
  {
    if post.None? then Outcome(kv, Some(NewError("Message is nil")))
    else match TaggedIdentifier(post.value)
      case None => Outcome(kv, None)
      case Some(id) => IdsetInsert(kv, IdsetKey(post.value.userId, id), post.value.id)
  }

  /** On a well-formed set, registering a tagged message adds exactly its id
      to its character's set and keeps the set well formed. */
  lemma RegisterSemantics(kv: Store, post: Post)
    requires TaggedIdentifier(post).Some? && ValidId(post.id)
    requires WellFormed(kv, IdsetKey(post.userId, TaggedIdentifier(post).value))
    ensures var key := IdsetKey(post.userId, TaggedIdentifier(post).value);
      var r := RegisterPost(kv, Some(post));
      && r.err.None? && WellFormed(r.kv, key)
      && forall id :: InIdset(r.kv, key, id) <==> InIdset(kv, key, id) || id == post.id
  {
    Idset.InsertSemantics(kv, IdsetKey(post.userId, TaggedIdentifier(post).value), post.id);
  }

  // ---------------------------------------------------------------------
  // Reading messages

  /** `GetPostIfExists`: a missing or deleted message is nothing rather than
      an error. The host reports no other failure. */
  function GetPostIfExists(be: Backend, postId: string): (r: Result<Option<Post>>)
    ensures r.Ok?
    ensures r.value.Some? <==> postId in be.posts && be.posts[postId].deleteAt == 0
    ensures r.value.Some? ==> r.value.value == be.posts[postId]
  {
    match GetPost(be, postId)
    case Ok(p) => Ok(Some(p))
    case Err(e) =>
      if e.status == StatusNotFound then Ok(None)
      else Err(ErrorPre("GetPostIfExists: ", e))
  }

  /** The live message stored under `postId`, if any. */
  predicate IsLive(be: Backend, postId: string) {
    postId in be.posts && be.posts[postId].deleteAt == 0
  }

  /** The backend after an operation, and the error it reported, if any. A
      failed operation may already have changed the backend. */
  datatype Outcome2 = Outcome2(be: Backend, err: Option<AppError>)

  function UpdatePrefix(userId: string, oldId: string, newId: string): string {
    "updatePostsUsingProfile(" + userId + ", " + oldId + ", " + newId + ")"
  }

  /** Every message is stored under its own id. */
  predicate PostsById(be: Backend) {
    forall id :: id in be.posts ==> be.posts[id].id == id
  }

  // ---------------------------------------------------------------------
  // Rewriting the messages of a character

  /** A rewrite: the messages the user wrote as `oldId` are to show
      `profile` instead. */
  datatype Job = Job(userId: string, oldId: string, profile: Profile)

  /** What a rewrite does with one live message. */
  datatype Decision = Skip | Fail(error: AppError) | Rewrite(post: Post)

  /** The message's tag is nil or a string. */
  predicate HasTag(p: Post) {
    IdentifierProp in p.props && !p.props[IdentifierProp].POther?
  }

  /** The message is tagged with `id`; a nil tag counts as `""`. */
  predicate UsesTag(p: Post, id: string) {
    IdentifierProp in p.props && (p.props[IdentifierProp] == PStr(id) || (p.props[IdentifierProp] == PNil && id == ""))
  }

  /** The message already shows the profile: rewriting it would change nothing the host shows. */
  predicate AlreadyShows(siteUrl: string, p: Post, profile: Profile) {
    (profile.status == Me && TaggedAsMe(p)) || (profile.status == Character && TaggedAs(siteUrl, p, profile))
  }

  /** The rewrite's verdict on one live message: another user's message, a
      missing tag or a tag that is neither nil nor a string is an error; a
      message tagged otherwise, or already showing the profile, is skipped;
      the rest are shown as the profile. */
  function Decide(siteUrl: string, job: Job, postId: string, post: Post): (r: Decision)
    ensures r.Fail? <==> post.userId != job.userId || !HasTag(post) ||
                         (UsesTag(post, job.oldId) && job.profile.status !in {Character, Me})
    ensures !r.Fail? ==> (r.Rewrite? <==> UsesTag(post, job.oldId) && !AlreadyShows(siteUrl, post, job.profile))
    ensures r.Rewrite? ==> RetaggedOnly(post, r.post)
    ensures r.Rewrite? && job.profile.status == Me ==> TaggedAsMe(r.post)
    ensures r.Rewrite? && job.profile.status == Character ==> TaggedAs(siteUrl, r.post, job.profile)
  {
    if post.userId != job.userId then
      Fail(NewError("Found message with userId \"" + post.userId + "\" but expected \"" + job.userId + "\""))
    else if IdentifierProp !in post.props then
      Fail(NewError("Message \"" + postId + "\" has no profile_identifier"))
    else if post.props[IdentifierProp].POther? then
      Fail(NewError("Message \"" + postId + "\" has a profile_identifier that is not null or string"))
    else
      var tag := if post.props[IdentifierProp].PStr? then post.props[IdentifierProp].str else "";
      if tag != job.oldId then Skip
      else
        var shown := ProfilePost(siteUrl, post, job.profile);
        match shown.0
        case None => Fail(NewError(shown.1))
        case Some(q) =>
          if && q.message == post.message
             && PropGet(q.props, IdentifierProp) == PropGet(post.props, IdentifierProp)
             && PropGet(q.props, UsernameProp) == PropGet(post.props, UsernameProp)
             && PropGet(q.props, IconProp) == PropGet(post.props, IconProp)
             && PropGet(q.props, WebhookProp) == PropGet(post.props, WebhookProp)
          then Skip
          else Rewrite(q)
  }

  /** One call of the rewrite's callback: a message that is gone is
      skipped; a rewritten message is stored, and leaves the old
      character's id set when it no longer carries the old identifier. */
  function UpdateStep(job: Job, be: Backend, postId: string): (r: Step<()>)
    ensures r.be.(kv := be.kv, posts := be.posts) == be
    ensures r.be.kv == be.kv || r.be.kv == IdsetRemove(be.kv, IdsetKey(job.userId, job.oldId), postId).kv
  {
    match GetPostIfExists(be, postId)
    case Err(e) => Step(be, (), Some(e))
    case Ok(found) =>
      if found.None? then Step(be, (), None)
      else match Decide(be.siteUrl, job, postId, found.value)
        case Skip => Step(be, (), None)
        case Fail(e) => Step(be, (), Some(e))
        case Rewrite(q) => Store(job, be, postId, q)
  }

  /** Storing a rewritten message, and taking it out of the old set when it
      no longer carries the old identifier. */
  function Store(job: Job, be: Backend, postId: string, q: Post): (r: Step<()>)
    ensures r.be.(kv := be.kv, posts := be.posts) == be
    ensures r.be.kv == be.kv || r.be.kv == IdsetRemove(be.kv, IdsetKey(job.userId, job.oldId), postId).kv
  {
    match UpdatePost(be, q)
    case Err(e) => Step(be, (), Some(e))
    case Ok(be') =>
      if PropGet(q.props, IdentifierProp) != PStr(job.oldId) then
        var o := IdsetRemove(be'.kv, IdsetKey(job.userId, job.oldId), postId);
        Step(be'.(kv := o.kv), (), o.err)
      else Step(be', (), None)
  }

  function Updater(job: Job): (Backend, (), string) -> Step<()> {
    (be, acc, postId) => UpdateStep(job, be, postId)
  }

  /** The callback removes ids only from the shard of the id it is called
      for, so the iteration can go on over the rest of the set. */
  lemma UpdaterStaysInShard(job: Job)
    ensures StaysInShard(Updater(job), IdsetKey(job.userId, job.oldId))
  {
    var key := IdsetKey(job.userId, job.oldId);
    forall be, acc, id, q | |id| >= 2 && |q| == 2 && q != id[..2]
      ensures KvGet(Updater(job)(be, acc, id).be.kv, ShardKey(key, q)) == KvGet(be.kv, ShardKey(key, q))
    {
      if ShardKey(key, q) == ShardKey(key, id[..2]) {
        ShardKeyInjective(key, q, key, id[..2]);
      }
    }
  }

  /** The rewrite fails on this live message. */
  predicate FailsFor(siteUrl: string, job: Job, p: Post) {
    p.deleteAt == 0 && Decide(siteUrl, job, p.id, p).Fail?
  }

  /** The rewrite takes this message out of the old character's set: it
      stores it with another identifier. */
  predicate LeavesFor(siteUrl: string, job: Job, p: Post) {
    && p.deleteAt == 0
    && var d := Decide(siteUrl, job, p.id, p);
       d.Rewrite? && PropGet(d.post.props, IdentifierProp) != PStr(job.oldId)
  }

  /** The message as the rewrite leaves it when it does not fail on it: a
      live message tagged with the old identifier shows the new profile,
      every other message is as it was. */
  function RewriteFor(siteUrl: string, job: Job, p: Post): (r: Post)
    ensures RetaggedOnly(p, r)
    ensures p.deleteAt != 0 || !UsesTag(p, job.oldId) ==> r == p
    ensures p.deleteAt == 0 && UsesTag(p, job.oldId) && !FailsFor(siteUrl, job, p) ==> AlreadyShows(siteUrl, r, job.profile)
  {
    if p.deleteAt == 0 && Decide(siteUrl, job, p.id, p).Rewrite? then Decide(siteUrl, job, p.id, p).post else p
  }

  lemma StepNotLive(job: Job, be: Backend, x: string)
    requires !(x in be.posts && be.posts[x].deleteAt == 0)
    ensures UpdateStep(job, be, x) == Step(be, (), None)
  {
  }

  lemma StepLive(job: Job, be: Backend, x: string)
    requires x in be.posts && be.posts[x].deleteAt == 0
    ensures UpdateStep(job, be, x) ==
      match Decide(be.siteUrl, job, x, be.posts[x])
      case Skip => Step(be, (), None)
      case Fail(e) => Step(be, (), Some(e))
      case Rewrite(q) => Store(job, be, x, q)
  {
    assert GetPostIfExists(be, x) == Ok(Some(be.posts[x]));
  }

  lemma PostsByIdUpdate(be: Backend, x: string, q: Post)
    requires PostsById(be) && q.id == x
    ensures PostsById(be.(posts := be.posts[x := q]))
  {
  }

  lemma StoreKeeps(job: Job, be: Backend, x: string, q: Post)
    requires x in be.posts && q.id == x && PropGet(q.props, IdentifierProp) == PStr(job.oldId)
    ensures Store(job, be, x, q) == Step(be.(posts := be.posts[x := q]), (), None)
  {
    assert UpdatePost(be, q) == Ok(be.(posts := be.posts[x := q]));
  }

  lemma StoreLeaves(job: Job, be: Backend, x: string, q: Post)
    requires x in be.posts && q.id == x && PropGet(q.props, IdentifierProp) != PStr(job.oldId)
    ensures var o := IdsetRemove(be.kv, IdsetKey(job.userId, job.oldId), x);
      Store(job, be, x, q) == Step(be.(posts := be.posts[x := q], kv := o.kv), (), o.err)
  {
    assert UpdatePost(be, q) == Ok(be.(posts := be.posts[x := q]));
  }

  /** Storing a rewritten message of a well-formed set succeeds. */
  lemma StoreEffect(job: Job, be: Backend, x: string, q: Post)
    requires PostsById(be) && ValidId(x) && x in be.posts && q.id == x
    requires WellFormed(be.kv, IdsetKey(job.userId, job.oldId))
    ensures var s := Store(job, be, x, q);
      var key := IdsetKey(job.userId, job.oldId);
      && s.err.None?
      && s.be.posts == be.posts[x := q]
      && PostsById(s.be)
      && WellFormed(s.be.kv, key)
      && forall y :: InIdset(s.be.kv, key, y) <==> InIdset(be.kv, key, y) && !(y == x && PropGet(q.props, IdentifierProp) != PStr(job.oldId))
  {
    var key := IdsetKey(job.userId, job.oldId);
    PostsByIdUpdate(be, x, q);
    if PropGet(q.props, IdentifierProp) != PStr(job.oldId) {
      StoreLeaves(job, be, x, q);
      Idset.RemoveSemantics(be.kv, key, x);
    } else {
      StoreKeeps(job, be, x, q);
    }
  }

  lemma UpdateSame<K, V>(m: map<K, V>, k: K)
    requires k in m
    ensures m[k := m[k]] == m
  {
  }

  /** What one step does, in terms of the message as it is when the step
      starts: it fails exactly when the rewrite fails on the message;
      otherwise it rewrites that message alone, and the set loses the id
      exactly when the message leaves the old identifier. */
  lemma StepEffect(job: Job, be: Backend, x: string)
    requires PostsById(be) && ValidId(x)
    requires WellFormed(be.kv, IdsetKey(job.userId, job.oldId))
    ensures var s := UpdateStep(job, be, x);
      var key := IdsetKey(job.userId, job.oldId);
      && (s.err.None? <==> !(x in be.posts && FailsFor(be.siteUrl, job, be.posts[x])))
      && (s.err.None? ==>
            && s.be.(kv := be.kv, posts := be.posts) == be
            && s.be.posts == (if x in be.posts then be.posts[x := RewriteFor(be.siteUrl, job, be.posts[x])] else be.posts)
            && PostsById(s.be)
            && WellFormed(s.be.kv, key)
            && forall y :: InIdset(s.be.kv, key, y) <==> InIdset(be.kv, key, y) && !(y == x && x in be.posts && LeavesFor(be.siteUrl, job, be.posts[x])))
  {
    if !(x in be.posts && be.posts[x].deleteAt == 0) {
      StepNotLive(job, be, x);
      if x in be.posts {
        UpdateSame(be.posts, x);
      }
    } else {
      StepLive(job, be, x);
      var post := be.posts[x];
      assert post.id == x;
      match Decide(be.siteUrl, job, x, post)
      case Skip =>
        assert RewriteFor(be.siteUrl, job, post) == post;
        UpdateSame(be.posts, x);
      case Fail(e) =>
      case Rewrite(q) =>
        StoreEffect(job, be, x, q);
    }
  }

  /** The rewrite's law for the iteration over the old character's set. */
  function Law(siteUrl: string, job: Job): PostLaw {
    PostLaw(p => FailsFor(siteUrl, job, p), p => RewriteFor(siteUrl, job, p), p => LeavesFor(siteUrl, job, p))
  }

  /** The shape the rewrite keeps: same site, messages stored under their
      ids, the old character's set well formed. */
  ghost function Good(siteUrl: string, job: Job): Backend -> bool {
    (b: Backend) => b.siteUrl == siteUrl && PostsById(b) && WellFormed(b.kv, IdsetKey(job.userId, job.oldId))
  }

  function Member(job: Job): (Backend, string) -> bool {
    (b: Backend, y: string) => InIdset(b.kv, IdsetKey(job.userId, job.oldId), y)
  }

  /** The callback run over distinct ids of a well-formed set obeys the
      rewrite's law. */
  lemma RunUpdates(job: Job, be: Backend, ids: seq<string>)
    requires PostsById(be)
    requires WellFormed(be.kv, IdsetKey(job.userId, job.oldId))
    requires NoDuplicates(ids) && forall x :: x in ids ==> ValidId(x)
    ensures RunObeys(Law(be.siteUrl, job), Good(be.siteUrl, job), Member(job), be, ids, RunAll(Updater(job), be, (), ids))
  {
    var law, good, member := Law(be.siteUrl, job), Good(be.siteUrl, job), Member(job);
    forall b, x | good(b) && ValidId(x)
      ensures Obeys(law, good, member, b, x, Updater(job)(b, (), x))
    {
      StepEffect(job, b, x);
    }
    RunObeysLaw(law, good, member, Updater(job), be, ids);
  }

  /** `updatePostsForProfile`: every message of the old character's set is
      shown as the new profile, and leaves the set when it no longer
      carries the old identifier. The real profile cannot be the old one,
      and the new one must resolve as a character or the real profile. An
      error is returned with the call in front of it; the messages already
      rewritten stay rewritten. */
  function UpdatePostsForProfile(be: Backend, userId: string, oldId: string, newId: string): (r: Outcome2)
    ensures IsMe(oldId) ==> r == Outcome2(be, Some(NewError(UpdatePrefix(userId, oldId, newId) + "Cannot update message that are using the user's real profile.")))
    ensures !IsMe(oldId) && GetProfile(be, userId, newId, {Character, Me}).Err? ==>
      r == Outcome2(be, Some(ErrorPre(UpdatePrefix(userId, oldId, newId), GetProfile(be, userId, newId, {Character, Me}).error)))
  {
    var pre := UpdatePrefix(userId, oldId, newId);
    if IsMe(oldId) then Outcome2(be, Some(NewError(pre + "Cannot update message that are using the user's real profile.")))
    else match GetProfile(be, userId, newId, {Character, Me})
      case Err(e) => Outcome2(be, Some(ErrorPre(pre, e)))
      case Ok(np) =>
        var key := IdsetKey(userId, oldId);
        var s := IdsetIter(Updater(Job(userId, oldId, np)), be, (), key, "", 0);
        Outcome2(s.be, if s.err.Some? then Some(ErrorPre(pre, s.err.value)) else None)
  }

  /** The iteration of the rewrite is the run of its callback over the
      whole set, and obeys the rewrite's law. */
  lemma IterUpdates(job: Job, be: Backend)
    requires PostsById(be)
    requires WellFormed(be.kv, IdsetKey(job.userId, job.oldId))
    ensures var ids := Visits(be.kv, IdsetKey(job.userId, job.oldId), "", 0);
      && (forall x :: x in ids <==> InIdset(be.kv, IdsetKey(job.userId, job.oldId), x))
      && RunObeys(Law(be.siteUrl, job), Good(be.siteUrl, job), Member(job), be, ids,
                  IdsetIter(Updater(job), be, (), IdsetKey(job.userId, job.oldId), "", 0))
  {
    var key := IdsetKey(job.userId, job.oldId);
    var ids := Visits(be.kv, key, "", 0);
    VisitsWhole(be.kv, key);
    UpdaterStaysInShard(job);
    IterationSpec(Updater(job), be, (), key, "", 0);
    assert forall x :: x in ids ==> ValidId(x);
    RunUpdates(job, be, ids);
  }

  /** The rewrite over the whole old set, when the new profile resolves: it
      succeeds exactly when it fails on no live message of the set; then
      each message of the set is rewritten, every other message and every
      other part of the backend is as it was, the set stays well formed and
      loses exactly the messages that left the old identifier. */
  lemma UpdateSpec(be: Backend, userId: string, oldId: string, newId: string)
    requires PostsById(be) && !IsMe(oldId)
    requires WellFormed(be.kv, IdsetKey(userId, oldId))
    requires GetProfile(be, userId, newId, {Character, Me}).Ok?
    ensures var r := UpdatePostsForProfile(be, userId, oldId, newId);
      var job := Job(userId, oldId, GetProfile(be, userId, newId, {Character, Me}).value);
      var key := IdsetKey(userId, oldId);
      && (r.err.None? <==> forall x :: InIdset(be.kv, key, x) && x in be.posts ==> !FailsFor(be.siteUrl, job, be.posts[x]))
      && (r.err.None? ==>
            && r.be.(kv := be.kv, posts := be.posts) == be
            && r.be.posts.Keys == be.posts.Keys
            && (forall x :: x in be.posts ==> r.be.posts[x] == if InIdset(be.kv, key, x) then RewriteFor(be.siteUrl, job, be.posts[x]) else be.posts[x])
            && PostsById(r.be)
            && WellFormed(r.be.kv, key)
            && forall y :: InIdset(r.be.kv, key, y) <==> InIdset(be.kv, key, y) && !(y in be.posts && LeavesFor(be.siteUrl, job, be.posts[y])))
  {
    var job := Job(userId, oldId, GetProfile(be, userId, newId, {Character, Me}).value);
    var key := IdsetKey(userId, oldId);
    var s := IdsetIter(Updater(job), be, (), key, "", 0);
    assert UpdatePostsForProfile(be, userId, oldId, newId) ==
      Outcome2(s.be, if s.err.Some? then Some(ErrorPre(UpdatePrefix(userId, oldId, newId), s.err.value)) else None);
    IterUpdates(job, be);
  }

  // ---------------------------------------------------------------------
  // Counting the messages of a character

  function CountPrefix(userId: string, profileId: string): string {
    "countPostsForProfile(" + userId + ", " + profileId + "): "
  }

  /** The counting callback: a message that is gone is not counted. */
  function CountStep(be: Backend, n: int, postId: string): (r: Step<int>)
    ensures r == Step(be, if IsLive(be, postId) then n + 1 else n, None)
  {
    match GetPostIfExists(be, postId)
    case Err(e) => Step(be, n, Some(e))
    case Ok(found) => Step(be, if found.Some? then n + 1 else n, None)
  }

  /** The live messages of a set: the count's reference definition. */
  ghost function LiveMembers(be: Backend, key: string): set<string> {
    set x | x in be.posts && InIdset(be.kv, key, x) && be.posts[x].deleteAt == 0
  }

  /** The live messages among some ids. */
  ghost function LiveIn(be: Backend, ids: seq<string>): set<string> {
    set x | x in ids && IsLive(be, x)
  }

  /** `countPostsForProfile`: the number of messages in the character's set
      that still exist. The real profile has no set to count. */
  function CountPostsForProfile(be: Backend, userId: string, profileId: string): (r: Result<int>)
    ensures IsMe(profileId) ==> r == Err(NewError(CountPrefix(userId, profileId) + "Cannot count messages that are using the user's real profile."))
  {
    var pre := CountPrefix(userId, profileId);
    if IsMe(profileId) then Err(NewError(pre + "Cannot count messages that are using the user's real profile."))
    else
      var s := IdsetIter(CountStep, be, 0, IdsetKey(userId, profileId), "", 0);
      if s.err.Some? then Err(ErrorPre(pre, s.err.value)) else Ok(s.acc)
  }

  /** Counting over distinct ids adds the live ones and never fails. */
  lemma {:induction false} RunCount(be: Backend, n: int, ids: seq<string>)
    requires NoDuplicates(ids)
    ensures RunAll(CountStep, be, n, ids) == Step(be, n + |LiveIn(be, ids)|, None)
    decreases |ids|
  {
    if |ids| == 0 {
      assert LiveIn(be, ids) == {};
    } else {
      var x, rest := ids[0], ids[1..];
      var m := if IsLive(be, x) then n + 1 else n;
      RunAllCons(CountStep, be, n, ids);
      RestDistinct(ids);
      RunCount(be, m, rest);
      LiveInCons(be, ids);
    }
  }

  lemma LiveInCons(be: Backend, ids: seq<string>)
    requires |ids| > 0 && NoDuplicates(ids)
    ensures |LiveIn(be, ids)| == |LiveIn(be, ids[1..])| + if IsLive(be, ids[0]) then 1 else 0
  {
    RestDistinct(ids);
    assert LiveIn(be, ids) == (if IsLive(be, ids[0]) then {ids[0]} else {}) + LiveIn(be, ids[1..]);
  }

  lemma RestDistinct(ids: seq<string>)
    requires |ids| > 0 && NoDuplicates(ids)
    ensures NoDuplicates(ids[1..]) && ids[0] !in ids[1..]
  {
    var rest := ids[1..];
    forall i, j | 0 <= i < j < |rest|
      ensures rest[i] != rest[j]
    {
      assert rest[i] == ids[i + 1] && rest[j] == ids[j + 1];
    }
    forall i | 0 <= i < |rest|
      ensures rest[i] != ids[0]
    {
      assert rest[i] == ids[i + 1];
    }
  }

  /** On a well-formed set the count succeeds and is the number of live
      messages in the set. */
  lemma CountSpec(be: Backend, userId: string, profileId: string)
    requires !IsMe(profileId) && WellFormed(be.kv, IdsetKey(userId, profileId))
    ensures CountPostsForProfile(be, userId, profileId) == Ok(|LiveMembers(be, IdsetKey(userId, profileId))|)
  {
    IterCount(be, IdsetKey(userId, profileId));
  }

  /** Iterating the counter over a whole well-formed set counts its live
      messages. */
  lemma IterCount(be: Backend, key: string)
    requires WellFormed(be.kv, key)
    ensures IdsetIter(CountStep, be, 0, key, "", 0) == Step(be, |LiveMembers(be, key)|, None)
  {
    CounterStaysInShard(key);
    IterationSpec(CountStep, be, 0, key, "", 0);
    RunCountWhole(be, key);
  }

  lemma RunCountWhole(be: Backend, key: string)
    requires WellFormed(be.kv, key)
    ensures RunAll(CountStep, be, 0, Visits(be.kv, key, "", 0)) == Step(be, |LiveMembers(be, key)|, None)
  {
    var ids := Visits(be.kv, key, "", 0);
    VisitsWhole(be.kv, key);
    RunCount(be, 0, ids);
    LiveInMembers(be, key, ids);
  }

  lemma LiveInMembers(be: Backend, key: string, ids: seq<string>)
    requires forall x :: x in ids <==> InIdset(be.kv, key, x)
    ensures LiveIn(be, ids) == LiveMembers(be, key)
  {
  }

  lemma CounterStaysInShard(key: string)
    ensures StaysInShard(CountStep, key)
  {
  }
}

=== FILE: profile.dfy ===
/** Character profiles (`server/profile.go`).

    A user's character profile is stored under `"profile_" + user + "_" + id`
    as a record of its display name and picture file. Reading one back
    resolves it to one of four statuses: a character, the user's real
    profile ("me"), a corrupt record, or no record at all; the caller says
    which statuses it accepts, and any other outcome is an error.
 */
module Profiles {
  import opened Wrappers
  import opened Codec
  import opened Strings
  import opened Sorting
  import opened Host

  // ---------------------------------------------------------------------
  // Profiles

  /** `isMe` (`server/character-command.go`): the identifiers that name the
      user's real profile. */
  predicate IsMe(id: string) {
    id == "" || id == "myself" || id == "me"
  }

  /** `PROFILE_CHARACTER`, `PROFILE_ME`, `PROFILE_CORRUPT`,
      `PROFILE_NONEXISTENT`. */
  datatype Status = Character | Me | Corrupt | Nonexistent

  /** The bit each status has in an accepted-status mask; a mask is modelled
      as the set of statuses whose bits it has. */
  function StatusBit(s: Status): int {
    match s
    case Character => 0x1
    case Me => 0x2
    case Corrupt => 0x4
    case Nonexistent => 0x8
  }

  type Mask = set<Status>

  /** Only the name and the picture file are stored; the rest is filled in
      when the profile is read. */
  datatype Profile = Profile(
    userId: string,
    identifier: string,
    name: string,
    pictureFileId: string,
    pictureFileInfo: Option<FileInfo>,
    picturePost: Option<Post>,
    status: Status,
    error: Option<AppError>)

  /** The record a profile is stored as (`EncodeToByte`). */
  function EncodeProfile(p: Profile): Bytes {
    EncodeStrings([p.name, p.pictureFileId])
  }

  /** `DecodeProfileFromByte`: the stored name and picture file, or nothing
      when the bytes are not a record. */
  function DecodeProfile(b: Bytes): Option<(string, string)> {
    match DecodeStrings(b)
    case Some(xs) => if |xs| == 2 then Some((xs[0], xs[1])) else None
    case None => None
  }

  lemma ProfileRoundTrip(p: Profile)
    ensures DecodeProfile(EncodeProfile(p)) == Some((p.name, p.pictureFileId))
  {
    StringsRoundTrip([p.name, p.pictureFileId]);
  }

  function ProfileKey(userId: string, profileId: string): string {
    "profile_" + userId + "_" + profileId
  }

  /** One user's profile keys share a prefix, and the identifier is what
      follows it; so a user's keys name different profiles. */
  lemma ProfileKeyPrefix(userId: string, profileId: string)
    ensures HasPrefix(ProfileKey(userId, profileId), ProfileKey(userId, ""))
    ensures TrimPrefix(ProfileKey(userId, profileId), ProfileKey(userId, "")) == profileId
  {
    var pre := ProfileKey(userId, "");
    assert ProfileKey(userId, profileId) == pre + profileId;
    assert (pre + profileId)[..|pre|] == pre;
  }

  lemma ProfileKeyInjective(userId: string, a: string, b: string)
    requires ProfileKey(userId, a) == ProfileKey(userId, b)
    ensures a == b
  {
    ProfileKeyPrefix(userId, a);
    ProfileKeyPrefix(userId, b);
  }

  // ---------------------------------------------------------------------
  // Validation

  /** `^[a-z]{1,60}$`. */
  predicate ValidIdentifier(s: string) {
    1 <= |s| <= 60 && AllLowerLetters(s)
  }

  /** The characters Markdown gives a meaning to, which a display name may
      not contain. */
  predicate IsFormatChar(c: char) {
    c in {'-', '*', '|', '`', '>', '#', '_', '.', '~', '[', ']'}
  }

  /** ``^[^-*|`>#*_.~[\]]{1,200}$``. */
  predicate ValidDisplayName(s: string) {
    1 <= |s| <= 200 && forall i :: 0 <= i < |s| ==> !IsFormatChar(s[i])
  }

  function LowerAscii(c: char): char {
    if 'A' <= c <= 'Z' then (c as int + 32) as char else c
  }

  function LowerAsciiString(s: string): (r: string)
    ensures |r| == |s|
    ensures forall i :: 0 <= i < |s| ==> r[i] == LowerAscii(s[i])
    decreases |s|
  {
    if |s| == 0 then "" else [LowerAscii(s[0])] + LowerAsciiString(s[1..])
  }

  /** `(?i)^(jpe?g|png)$`; none of these letters has a case variant outside
      ASCII. */
  predicate ValidExtension(ext: string) {
    LowerAsciiString(ext) in {"jpg", "jpeg", "png"}
  }

  /** The file and message a picture is taken from, as `validate` requires
      them. */
  predicate PictureValid(pictureFileId: string, file: FileInfo, post: Option<Post>) {
    && file.isImage
    && ValidExtension(file.extension)
    && file.validity.None?
    && post.Some?
    && post.value.deleteAt == 0
    && post.value.fileIds == [pictureFileId]
  }

  /** What `validate` requires of the picture fields. */
  predicate PictureConsistent(p: Profile)
    requires p.pictureFileId != "" ==> p.pictureFileInfo.Some?
  {
    if p.pictureFileId == "" then p.pictureFileInfo.None? && p.picturePost.None?
    else PictureValid(p.pictureFileId, p.pictureFileInfo.value, p.picturePost)
  }

  /** What `validate` requires of the status: a character or the real
      profile, no error, and an identifier that agrees with the status. */
  predicate StatusConsistent(p: Profile) {
    && p.error.None?
    && (p.status == Character || p.status == Me)
    && (p.status == Character ==> !IsMe(p.identifier))
    && (p.status == Me ==> IsMe(p.identifier))
  }

  /** Everything `validate` checks, as one condition. */
  predicate ProfileValid(p: Profile, profileId: string)
    requires p.pictureFileId != "" ==> p.pictureFileInfo.Some?
  {
    && p.identifier == profileId
    && ValidIdentifier(p.identifier)
    && ValidDisplayName(p.name)
    && PictureConsistent(p)
    && StatusConsistent(p)
  }

  function ValidationPrefix(profileId: string): string {
    "Failed validating profile `" + profileId + "`: "
  }

  /** The ways `validate` and `populateProfile` reject a profile. */
  datatype Invalid =
    | NotImage(name: string)
    | BadExtension(extension: string)
    | PostNil
    | PostDeleted
    | PostFileCount
    | PostWrongFile
    | StrayFileInfo
    | StrayPost
    | BadStatus
    | CharacterError
    | CharacterIsMe
    | MeError
    | MeNotMe
    | IdentifierMismatch
    | BadIdentifier
    | BadDisplayName

  /** The source's wording of each rejection. */
  function Message(why: Invalid): string {
    match why
    case NotImage(name) => "The file \"" + name + "\" is not recognized as an image file."
    case BadExtension(extension) => "The file extension \"" + extension + "\" is not valid for a profile picture. Only .JPG, .JPEG and .PNG are acceptable."
    case PostNil => "The post supposedly holding the profile picture is nil."
    case PostDeleted => "The post supposedly holding the profile picture is deleted."
    case PostFileCount => "The post supposedly holding the profile picture does not have exactly 1 file."
    case PostWrongFile => "The post supposedly holding the profile picture does not hold the expected file."
    case StrayFileInfo => "PictureFileInfo has a value despite no PictureFileId."
    case StrayPost => "PicturePost has a value despite no PictureFileId."
    case BadStatus => "Status is not PROFILE_CHARACTER or PROFILE_ME."
    case CharacterError => "Error is set despite status being PROFILE_CHARACTER."
    case CharacterIsMe => "Identifier indicates real profile despite status being PROFILE_CHARACTER."
    case MeError => "Error is set despite status being PROFILE_ME."
    case MeNotMe => "Identifier does not indicate real profile despite status being PROFILE_ME."
    case IdentifierMismatch => "Identifier mismatch."
    case BadIdentifier => "Identifier must be 1-60 lowercase letters a-z."
    case BadDisplayName => "Display name must be 1-200 characters and must not contain format control characters."
  }

  /** An error raised by `validate`: `pre` and the rejection's wording. */
  function Fail(pre: string, why: Invalid): (r: Option<AppError>)
    ensures r.Some? && r.value.status == StatusBadRequest && HasPrefix(r.value.message, pre)
  {
    var message := Message(why);
    assert (pre + message)[..|pre|] == pre;
    Some(NewError(pre + message))
  }

  /** A re-labelled foreign error keeps the new label in front. */
  function FailWith(pre: string, e: AppError): (r: Option<AppError>)
    ensures r.Some? && r.value.status == e.status && HasPrefix(r.value.message, pre)
  {
    Some(ErrorPre(pre, e))
  }

  /** The checks on the picture, in the source's order. */
  function ValidatePicture(pre: string, pictureFileId: string, file: FileInfo, post: Option<Post>): (r: Option<AppError>)
    ensures r.None? <==> PictureValid(pictureFileId, file, post)
    ensures r.Some? ==> HasPrefix(r.value.message, pre)
  {
    if !file.isImage then Fail(pre, NotImage(file.name))
    else if !ValidExtension(file.extension) then
      Fail(pre, BadExtension(file.extension))
    else if file.validity.Some? then FailWith(pre, file.validity.value)
    else if post.None? then Fail(pre, PostNil)
    else if post.value.deleteAt != 0 then Fail(pre, PostDeleted)
    else if |post.value.fileIds| != 1 then Fail(pre, PostFileCount)
    else if post.value.fileIds[0] != pictureFileId then
      Fail(pre, PostWrongFile)
    else None
  }

  /** The picture checks of `validate`. */
  function ValidatePictureFields(pre: string, p: Profile): (r: Option<AppError>)
    requires p.pictureFileId != "" ==> p.pictureFileInfo.Some?
    ensures r.None? <==> PictureConsistent(p)
    ensures r.Some? ==> HasPrefix(r.value.message, pre)
  {
    if p.pictureFileId == "" then
      if p.pictureFileInfo.Some? then Fail(pre, StrayFileInfo)
      else if p.picturePost.Some? then Fail(pre, StrayPost)
      else None
    else ValidatePicture(pre, p.pictureFileId, p.pictureFileInfo.value, p.picturePost)
  }

  /** The status checks of `validate`. */
  function ValidateStatus(pre: string, p: Profile): (r: Option<AppError>)
    ensures r.None? <==> StatusConsistent(p)
    ensures r.Some? ==> HasPrefix(r.value.message, pre)
  {
    match p.status
    case Character => ValidateCharacter(pre, p)
    case Me => ValidateMe(pre, p)
    case _ => Fail(pre, BadStatus)
  }

  function ValidateCharacter(pre: string, p: Profile): (r: Option<AppError>)
    requires p.status == Character
    ensures r.None? <==> StatusConsistent(p)
    ensures r.Some? ==> HasPrefix(r.value.message, pre)
  {
    if p.error.Some? then Fail(pre, CharacterError)
    else if IsMe(p.identifier) then Fail(pre, CharacterIsMe)
    else None
  }

  function ValidateMe(pre: string, p: Profile): (r: Option<AppError>)
    requires p.status == Me
    ensures r.None? <==> StatusConsistent(p)
    ensures r.Some? ==> HasPrefix(r.value.message, pre)
  {
    if p.error.Some? then Fail(pre, MeError)
    else if !IsMe(p.identifier) then Fail(pre, MeNotMe)
    else None
  }

  /** `validate`, its checks in the source's order. A profile with a picture
      file must have been populated first: the source dereferences its file
      record unchecked. */
  function Validate(p: Profile, profileId: string): (r: Option<AppError>)
    requires p.pictureFileId != "" ==> p.pictureFileInfo.Some?
    ensures r.None? <==> ProfileValid(p, profileId)
    ensures r.Some? ==> HasPrefix(r.value.message, ValidationPrefix(profileId))
  {
    var pre := ValidationPrefix(profileId);
    if p.identifier != profileId then Fail(pre, IdentifierMismatch)
    else if !ValidIdentifier(p.identifier) then Fail(pre, BadIdentifier)
    else if !ValidDisplayName(p.name) then
      Fail(pre, BadDisplayName)
    else if ValidatePictureFields(pre, p).Some? then ValidatePictureFields(pre, p)
    else ValidateStatus(pre, p)
  }

  /** The real profile with the empty identifier, which is how it is read,
      fails validation, because `""` is not a valid identifier (compare
      `MeNamedPasses`). */
  lemma MeNeedsIdentifier(p: Profile)
    requires p.pictureFileId != "" ==> p.pictureFileInfo.Some?
    requires p.status == Me && p.identifier == ""
    ensures Validate(p, "").Some?
  {
  }

  /** A real profile named `me` or `myself`, with a valid display name,
      consistent picture fields and no populate error, passes validation for its own identifier. */
  lemma MeNamedPasses(p: Profile)
    requires p.pictureFileId != "" ==> p.pictureFileInfo.Some?
    requires p.status == Me && p.identifier in {"me", "myself"}
    requires ValidDisplayName(p.name) && PictureConsistent(p) && p.error.None?
    ensures Validate(p, p.identifier).None?
  {
    assert ValidIdentifier(p.identifier) by {
      if p.identifier == "me" {
        assert IsLowerLetter('m') && IsLowerLetter('e');
      } else {
        assert forall c :: c in "myself" ==> IsLowerLetter(c);
      }
    }
  }

  /** Character and real identifiers are disjoint among valid profiles. */
  lemma ValidStatusMatchesIdentifier(p: Profile, profileId: string)
    requires p.pictureFileId != "" ==> p.pictureFileInfo.Some?
    requires Validate(p, profileId).None?
    ensures p.status == Character <==> !IsMe(profileId)
  {
  }

  // ---------------------------------------------------------------------
  // Populating

  function PopulatePrefix(profileId: string): string {
    "Failed to populate profile `" + profileId + "`: "
  }

  /** `populateProfile`: a profile with a picture gets its file record and
      the message holding the file, each fetched only if not already there. */
  function Populate(be: Backend, p: Profile): (r: Result<Profile>)
    ensures p.pictureFileId == "" ==> r == Ok(p)
    ensures r.Ok? ==> r.value.(pictureFileInfo := p.pictureFileInfo, picturePost := p.picturePost) == p
    ensures r.Ok? && p.pictureFileId != "" ==> r.value.pictureFileInfo.Some? && r.value.picturePost.Some?
    ensures r.Ok? && p.pictureFileInfo.Some? ==> r.value.pictureFileInfo == p.pictureFileInfo
    ensures r.Ok? && p.picturePost.Some? ==> r.value.picturePost == p.picturePost
    ensures p.pictureFileId != "" && p.pictureFileInfo.None? ==>
      (r.Ok? <==> p.pictureFileId in be.fileInfos && (p.picturePost.Some? || GetPost(be, be.fileInfos[p.pictureFileId].postId).Ok?))
    ensures r.Ok? && p.pictureFileId != "" && p.pictureFileInfo.None? ==> r.value.pictureFileInfo == Some(be.fileInfos[p.pictureFileId])
    ensures r.Ok? && p.pictureFileId != "" && p.picturePost.None? ==>
      r.value.pictureFileInfo.value.postId in be.posts && r.value.picturePost == Some(be.posts[r.value.pictureFileInfo.value.postId])
    ensures r.Err? ==> HasPrefix(r.error.message, PopulatePrefix(p.identifier))
  {
    if p.pictureFileId == "" then Ok(p)
    else
      var pre := PopulatePrefix(p.identifier);
      match (if p.pictureFileInfo.Some? then Ok(p.pictureFileInfo.value) else GetFileInfo(be, p.pictureFileId))
      case Err(e) => Err(ErrorPre(pre, e))
      case Ok(file) =>
        if p.picturePost.Some? then Ok(p.(pictureFileInfo := Some(file)))
        else
          match GetPost(be, file.postId)
          case Err(e) => Err(ErrorPre(pre, e))
          case Ok(post) => Ok(p.(pictureFileInfo := Some(file), picturePost := Some(post)))
  }

  /** Populating twice is populating once. */
  lemma PopulateIdempotent(be: Backend, p: Profile)
    requires Populate(be, p).Ok?
    ensures Populate(be, Populate(be, p).value) == Populate(be, p)
  {
  }

  // ---------------------------------------------------------------------
  // Reading and writing

  function CorruptPrefix(profileId: string): string {
    "Profile `" + profileId + "` is corrupt and needs to be recreated"
  }

  const DecodeFailure: string := "Failed to decode profile"

  /** The profile a stored record stands for, before populating. */
  function FromRecord(userId: string, profileId: string, record: Option<(string, string)>): Profile {
    match record
    case Some(r) => Profile(userId, profileId, r.0, r.1, None, None, Character, None)
    case None => Profile(userId, profileId, "", "", None, None, Character, None)
  }

  /** `getProfile`: the real profile for an `isMe` identifier, without
      reading the store; otherwise the stored record, populated and then
      classified as a character, corrupt, or missing, each status returned
      only when `accepted` holds it. A record that cannot be populated is an
      error whatever is accepted. */
  function GetProfile(be: Backend, userId: string, profileId: string, accepted: Mask): (r: Result<Profile>)
    ensures r.Ok? ==> r.value.userId == userId && r.value.identifier == profileId && r.value.status in accepted
    ensures r.Ok? ==> (r.value.error.Some? <==> r.value.status in {Corrupt, Nonexistent})
    ensures IsMe(profileId) ==> (r.Ok? <==> Me in accepted && userId in be.users)
    ensures IsMe(profileId) && r.Ok? ==> r.value.status == Me && r.value.name == be.users[userId].displayName
    ensures !IsMe(profileId) ==> r.Ok? ==> r.value.status != Me
    ensures !IsMe(profileId) && ProfileKey(userId, profileId) !in be.kv ==>
      (r.Ok? <==> Nonexistent in accepted) && (r.Ok? ==> r.value.status == Nonexistent)
    ensures !IsMe(profileId) && ProfileKey(userId, profileId) in be.kv ==> r.Ok? ==> r.value.status in {Character, Corrupt}
    ensures !IsMe(profileId) && ProfileKey(userId, profileId) in be.kv && DecodeProfile(be.kv[ProfileKey(userId, profileId)]).None? ==>
      (r.Ok? <==> Corrupt in accepted) && (r.Ok? ==> r.value.error == Some(NewError(DecodeFailure)))
    ensures r.Ok? && r.value.status == Character ==>
      r.value.pictureFileId != "" ==> r.value.pictureFileInfo.Some?
    ensures r.Ok? && r.value.status == Character ==> Validate(r.value, profileId).None?
  {
    if IsMe(profileId) then
      if Me in accepted then
        match GetUser(be, userId)
        case Err(e) => Err(e)
        case Ok(user) => Ok(Profile(userId, profileId, user.displayName, "", None, None, Me, None))
      else Err(NewError("Profile identifier `" + profileId + "` refers to the real profile."))
    else
      match KvGet(be.kv, ProfileKey(userId, profileId))
      case None =>
        var missing := NewError("Profile `" + profileId + "` does not exist.");
        if Nonexistent in accepted then Ok(Profile(userId, profileId, "", "", None, None, Nonexistent, Some(missing)))
        else Err(missing)
      case Some(b) => ResolveStored(be, userId, profileId, accepted, b)
  }

  /** The part of `getProfile` that classifies a stored record. */
  function ResolveStored(be: Backend, userId: string, profileId: string, accepted: Mask, b: Bytes): Result<Profile> {
    var record := DecodeProfile(b);
    match Populate(be, FromRecord(userId, profileId, record))
    case Err(e) => Err(e)
    case Ok(p) =>
      var corruption :=
        if record.None? then Some(NewError(DecodeFailure))
        else match Validate(p, profileId)
          case Some(v) => Some(ErrorPre(CorruptPrefix(profileId), v))
          case None => None;
      if corruption.Some? then
        if Corrupt in accepted then Ok(p.(status := Corrupt, error := corruption))
        else Err(corruption.value)
      else if Character in accepted then Ok(p)
      else Err(NewError("Profile identifier `" + profileId + "` refers to a character profile."))
  }

  /** A stored record that decodes is populated first: a failure there is
      the answer whatever is accepted. A populated record that fails
      validation is corrupt, with the validation error under the corrupt
      prefix; one that passes is the character with the stored name and
      picture. Each is returned only when its status is accepted. */
  lemma GetProfileStored(be: Backend, userId: string, profileId: string, accepted: Mask)
    requires !IsMe(profileId) && ProfileKey(userId, profileId) in be.kv
    requires DecodeProfile(be.kv[ProfileKey(userId, profileId)]).Some?
    ensures var record := DecodeProfile(be.kv[ProfileKey(userId, profileId)]).value;
      var populated := Populate(be, Profile(userId, profileId, record.0, record.1, None, None, Character, None));
      var r := GetProfile(be, userId, profileId, accepted);
      && (populated.Err? ==> r == Err(populated.error))
      && (populated.Ok? && Validate(populated.value, profileId).Some? ==>
            var e := ErrorPre(CorruptPrefix(profileId), Validate(populated.value, profileId).value);
            r == if Corrupt in accepted then Ok(populated.value.(status := Corrupt, error := Some(e))) else Err(e))
      && (populated.Ok? && Validate(populated.value, profileId).None? ==>
            (r.Ok? <==> Character in accepted)
            && (r.Ok? ==> r.value == populated.value && r.value.name == record.0 && r.value.pictureFileId == record.1))
  {
  }

  /** The real profile is resolved without looking at the store. */
  lemma GetProfileMeIgnoresStore(be: Backend, kv: Store, userId: string, profileId: string, accepted: Mask)
    requires IsMe(profileId)
    ensures GetProfile(be.(kv := kv), userId, profileId, accepted) == GetProfile(be, userId, profileId, accepted)
  {
  }

  /** A profile whose record is stored is resolved from that record alone:
      the rest of the store does not matter. */
  lemma GetProfileReadsOneKey(be: Backend, kv: Store, userId: string, profileId: string, accepted: Mask)
    requires KvGet(kv, ProfileKey(userId, profileId)) == KvGet(be.kv, ProfileKey(userId, profileId))
    ensures GetProfile(be.(kv := kv), userId, profileId, accepted) == GetProfile(be, userId, profileId, accepted)
  {
    var key := ProfileKey(userId, profileId);
    if !IsMe(profileId) && KvGet(be.kv, key).Some? {
      var b := KvGet(be.kv, key).value;
      PopulateIgnoresStore(be, kv, FromRecord(userId, profileId, DecodeProfile(b)));
      assert ResolveStored(be.(kv := kv), userId, profileId, accepted, b) == ResolveStored(be, userId, profileId, accepted, b);
    }
  }

  /** Populating reads the file records and messages, not the store. */
  lemma PopulateIgnoresStore(be: Backend, kv: Store, p: Profile)
    ensures Populate(be.(kv := kv), p) == Populate(be, p)
  {
  }

  /** `profileExists`. */
  function ProfileExists(kv: Store, userId: string, profileId: string): (r: bool)
    ensures r <==> ProfileKey(userId, profileId) in kv
  {
    KvGet(kv, ProfileKey(userId, profileId)).Some?
  }

  /** `setProfile`: populate, validate against the profile's own identifier,
      and only then store the record. */
  function SetProfile(be: Backend, userId: string, p: Profile): (r: Result<Backend>)
    ensures r.Ok? <==> Populate(be, p).Ok? && Validate(Populate(be, p).value, p.identifier).None?
    ensures r.Ok? ==> r.value.(kv := be.kv) == be
    ensures r.Ok? ==> forall k :: k != ProfileKey(userId, p.identifier) ==> KvGet(r.value.kv, k) == KvGet(be.kv, k)
    ensures r.Ok? ==> ProfileKey(userId, p.identifier) in r.value.kv
    ensures r.Ok? ==> DecodeProfile(r.value.kv[ProfileKey(userId, p.identifier)]) == Some((p.name, p.pictureFileId))
  {
    match Populate(be, p)
    case Err(e) => Err(e)
    case Ok(q) =>
      match Validate(q, q.identifier)
      case Some(e) => Err(e)
      case None =>
        ProfileRoundTrip(q);
        Ok(be.(kv := KvSet(be.kv, ProfileKey(userId, q.identifier), EncodeProfile(q))))
  }

  /** What `setProfile` stores, `getProfile` reads back: a character profile
      that was stored is resolved as that character, populated afresh. */
  lemma SetThenGet(be: Backend, userId: string, p: Profile, accepted: Mask)
    requires SetProfile(be, userId, p).Ok?
    requires !IsMe(p.identifier)
    requires p.pictureFileInfo.None? && p.picturePost.None?
    ensures var be' := SetProfile(be, userId, p).value;
      GetProfile(be', userId, p.identifier, accepted) ==
        if Character in accepted then Ok(Populate(be, p).value.(userId := userId, status := Character, error := None))
        else Err(NewError("Profile identifier `" + p.identifier + "` refers to a character profile."))
  {
    var be' := SetProfile(be, userId, p).value;
    var q := Populate(be, p).value;
    var key := ProfileKey(userId, p.identifier);
    ProfileRoundTrip(q);
    assert DecodeProfile(be'.kv[key]) == Some((p.name, p.pictureFileId));
    var base := FromRecord(userId, p.identifier, Some((p.name, p.pictureFileId)));
    assert base == p.(userId := userId, status := Character, error := None);
    assert Populate(be', base) == Populate(be, base);
    assert Populate(be, base) == Ok(q.(userId := userId, status := Character, error := None));
  }

  /** `deleteProfile`. */
  function DeleteProfile(kv: Store, userId: string, profileId: string): (r: Store)
    ensures !ProfileExists(r, userId, profileId)
    ensures forall k :: k != ProfileKey(userId, profileId) ==> KvGet(r, k) == KvGet(kv, k)
  {
    KvDelete(kv, ProfileKey(userId, profileId))
  }

  /** After deletion a character identifier resolves as missing. */
  lemma DeleteThenGet(be: Backend, userId: string, profileId: string, accepted: Mask)
    requires !IsMe(profileId)
    ensures var r := GetProfile(be.(kv := DeleteProfile(be.kv, userId, profileId)), userId, profileId, accepted);
      (r.Ok? <==> Nonexistent in accepted) && (r.Ok? ==> r.value.status == Nonexistent)
  {
  }

  // ---------------------------------------------------------------------
  // Listing

  const PerPage: nat := 50

  /** The keys of `keys` that start with `prefix`, with the prefix removed. */
  function KeysAfterPrefix(keys: seq<string>, prefix: string): (r: seq<string>)
    ensures |r| <= |keys|
    decreases |keys|
  {
    if |keys| == 0 then []
    else
      var last := keys[|keys| - 1];
      KeysAfterPrefix(keys[..|keys| - 1], prefix) + (if HasPrefix(last, prefix) then [TrimPrefix(last, prefix)] else [])
  }

  lemma {:induction false} KeysAfterPrefixConcat(a: seq<string>, b: seq<string>, prefix: string)
    ensures KeysAfterPrefix(a + b, prefix) == KeysAfterPrefix(a, prefix) + KeysAfterPrefix(b, prefix)
    decreases |b|
  {
    if |b| == 0 {
      assert a + b == a;
    } else {
      var b' := b[..|b| - 1];
      assert (a + b)[..|a + b| - 1] == a + b';
      assert (a + b)[|a + b| - 1] == b[|b| - 1];
      KeysAfterPrefixConcat(a, b', prefix);
    }
  }

  /** The listed keys are exactly the stripped keys that carry the prefix. */
  lemma {:induction false} KeysAfterPrefixMembers(keys: seq<string>, prefix: string)
    ensures forall x :: x in KeysAfterPrefix(keys, prefix) <==> prefix + x in keys
    decreases |keys|
  {
    if |keys| > 0 {
      var init := keys[..|keys| - 1];
      var last := keys[|keys| - 1];
      KeysAfterPrefixMembers(init, prefix);
      assert keys == init + [last];
      forall x
        ensures x in KeysAfterPrefix(keys, prefix) <==> prefix + x in keys
      {
        if HasPrefix(last, prefix) {
          assert last == prefix + TrimPrefix(last, prefix);
          if prefix + x == last {
            assert x == (prefix + x)[|prefix|..];
          }
        }
      }
    }
  }

  /** One page of keys filtered and stripped, in order. */
  method FilterPage(keys: seq<string>, prefix: string) returns (found: seq<string>)
    ensures found == KeysAfterPrefix(keys, prefix)
  {
    found := [];
    var j := 0;
    while j < |keys|
      invariant 0 <= j <= |keys|
      invariant found == KeysAfterPrefix(keys[..j], prefix)
    {
      assert keys[..j + 1][..j] == keys[..j];
      if HasPrefix(keys[j], prefix) {
        found := found + [TrimPrefix(keys[j], prefix)];
      }
      j := j + 1;
    }
    assert keys[..j] == keys;
  }

  /** `getKeysAfterPrefix`: reads the host's key listing `listing` a page of
      50 at a time (`KVList`), keeps the keys with the prefix and strips it,
      and stops after the first page shorter than 50. */
  method GetKeysAfterPrefix(listing: seq<string>, prefix: string) returns (r: seq<string>)
    ensures r == KeysAfterPrefix(listing, prefix)
  {
    r := [];
    var i: nat := 0;
    while true
      invariant i * PerPage <= |listing|
      invariant r == KeysAfterPrefix(listing[..i * PerPage], prefix)
      decreases |listing| - i * PerPage
    {
      var keys := Page(listing, i, PerPage);
      PagesTile(listing, PerPage, i);
      var found := FilterPage(keys, prefix);
      KeysAfterPrefixConcat(listing[..i * PerPage], keys, prefix);
      r := r + found;
      if |keys| < PerPage {
        assert listing[..Min((i + 1) * PerPage, |listing|)] == listing;
        return;
      }
      i := i + 1;
    }
  }

  /** `sortProfiles`' order: the real profile after every other, the rest
      by identifier. */
  function ProfileLess(a: Profile, b: Profile): bool {
    if a.status == Me then false
    else if b.status == Me then true
    else Less(a.identifier, b.identifier)
  }

  lemma ProfileLessStrictOrder()
    ensures StrictOrder(ProfileLess)
  {
    forall x, y | ProfileLess(x, y)
      ensures !ProfileLess(y, x)
    {
      LessAsymmetric(x.identifier, y.identifier);
    }
    forall x, y, z | ProfileLess(x, y) && ProfileLess(y, z)
      ensures ProfileLess(x, z)
    {
      if z.status != Me {
        LessTransitive(x.identifier, y.identifier, z.identifier);
      }
    }
  }

  /** `sortProfiles`: a permutation in which the real profile comes last and
      the other profiles ascend by identifier. */
  function SortProfiles(ps: seq<Profile>): (r: seq<Profile>)
    ensures multiset(r) == multiset(ps)
    ensures forall i, j :: 0 <= i < j < |r| && r[i].status == Me ==> r[j].status == Me
    ensures forall i, j :: 0 <= i < j < |r| && r[j].status != Me ==> !Less(r[j].identifier, r[i].identifier)
  {
    ProfileLessStrictOrder();
    var r := SortBy(ps, ProfileLess);
    assert forall i, j :: 0 <= i < j < |r| ==> !ProfileLess(r[j], r[i]);
    r
  }

  /** A permutation has the same elements at some positions. */
  lemma PermutationMembers(all: seq<Profile>, s: seq<Profile>)
    requires multiset(s) == multiset(all)
    ensures |s| == |all|
    ensures forall i :: 0 <= i < |s| ==> s[i] in all
    ensures forall k :: 0 <= k < |all| ==> exists i :: 0 <= i < |s| && s[i] == all[k]
  {
    assert |s| == |multiset(s)| == |multiset(all)| == |all|;
    forall i | 0 <= i < |s|
      ensures s[i] in all
    {
      assert s[i] in multiset(all);
    }
    forall k | 0 <= k < |all|
      ensures exists i :: 0 <= i < |s| && s[i] == all[k]
    {
      assert all[k] in multiset(s);
    }
  }

  /** The only real profile among the listed ones ends the sorted list. */
  lemma MeLast(ret: seq<Profile>, me: Profile, s: seq<Profile>)
    requires forall k :: 0 <= k < |ret| ==> ret[k].status != Me
    requires me.status == Me
    requires |s| == |ret| + 1
    requires forall i :: 0 <= i < |s| ==> s[i] in ret + [me]
    requires exists i :: 0 <= i < |s| && s[i] == me
    requires forall i, j :: 0 <= i < j < |s| && s[i].status == Me ==> s[j].status == Me
    ensures s[|s| - 1] == me
  {
    var last := s[|s| - 1];
    assert last.status == Me;
    assert last in ret + [me];
  }

  /** Every listed identifier has its profile somewhere in a permutation of
      the listed profiles. */
  lemma ListedCovered(ret: seq<Profile>, keys: seq<string>, all: seq<Profile>, s: seq<Profile>)
    requires |ret| == |keys| && |ret| <= |all| && all[..|ret|] == ret
    requires forall k :: 0 <= k < |ret| ==> ret[k].identifier == keys[k] && ret[k].status in {Character, Corrupt}
    requires forall k :: 0 <= k < |all| ==> exists i :: 0 <= i < |s| && s[i] == all[k]
    ensures forall x :: x in keys ==> exists i :: 0 <= i < |s| && s[i].identifier == x && s[i].status in {Character, Corrupt}
  {
    forall x | x in keys
      ensures exists i :: 0 <= i < |s| && s[i].identifier == x && s[i].status in {Character, Corrupt}
    {
      var k :| 0 <= k < |keys| && keys[k] == x;
      assert all[k] == ret[k];
      var j :| 0 <= j < |s| && s[j] == all[k];
    }
  }

  /** The listed characters and the real profile, sorted: the real profile
      ends the list and every listed identifier appears in it. */
  lemma SortedListing(ret: seq<Profile>, me: Profile, keys: seq<string>, userId: string, s: seq<Profile>)
    requires |ret| == |keys|
    requires forall k :: 0 <= k < |ret| ==> ret[k].identifier == keys[k] && ret[k].status in {Character, Corrupt} && ret[k].userId == userId
    requires me.status == Me && me.identifier == "" && me.userId == userId
    requires multiset(s) == multiset(ret + [me])
    requires forall i, j :: 0 <= i < j < |s| && s[i].status == Me ==> s[j].status == Me
    ensures |s| == |keys| + 1
    ensures s[|s| - 1] == me
    ensures forall i :: 0 <= i < |s| ==> s[i].userId == userId
    ensures forall x :: x in keys ==> exists i :: 0 <= i < |s| && s[i].identifier == x && s[i].status in {Character, Corrupt}
  {
    var all := ret + [me];
    PermutationMembers(all, s);
    assert all[|ret|] == me;
    MeLast(ret, me, s);
    assert all[..|ret|] == ret;
    ListedCovered(ret, keys, all, s);
  }

  /** The profiles the listed identifiers resolve to as characters or as
      corrupt, in listing order; an identifier that resolves to neither
      contributes nothing. */
  function Resolved(be: Backend, userId: string, keys: seq<string>): seq<Profile>
    decreases |keys|
  {
    if |keys| == 0 then []
    else
      Resolved(be, userId, keys[..|keys| - 1])
        + match GetProfile(be, userId, keys[|keys| - 1], {Character, Corrupt})
          case Ok(p) => [p]
          case Err(_) => []
  }

  /** Every listed identifier resolves as a character or as corrupt. */
  predicate AllResolve(be: Backend, userId: string, keys: seq<string>)
  {
    forall x :: x in keys ==> GetProfile(be, userId, x, {Character, Corrupt}).Ok?
  }

  /** One more resolved identifier extends the resolved prefix by its profile. */
  lemma ResolvedStep(be: Backend, userId: string, keys: seq<string>, i: nat, p: Profile)
    requires i < |keys| && AllResolve(be, userId, keys[..i])
    requires GetProfile(be, userId, keys[i], {Character, Corrupt}) == Ok(p)
    ensures Resolved(be, userId, keys[..i + 1]) == Resolved(be, userId, keys[..i]) + [p]
    ensures AllResolve(be, userId, keys[..i + 1])
  {
    assert keys[..i + 1][..i] == keys[..i];
    assert keys[..i + 1] == keys[..i] + [keys[i]];
  }

  /** When every identifier resolves, the resolved profiles line up with the
      identifiers one for one. */
  lemma {:induction false} ResolvedShape(be: Backend, userId: string, keys: seq<string>)
    requires AllResolve(be, userId, keys)
    ensures ListedAll(Resolved(be, userId, keys), userId, keys)
    decreases |keys|
  {
    if |keys| > 0 {
      var init := keys[..|keys| - 1];
      var q := ResolvedLast(be, userId, keys);
      ResolvedShape(be, userId, init);
      ListedAllSnoc(Resolved(be, userId, init), q, userId, init, keys[|keys| - 1]);
      assert init + [keys[|keys| - 1]] == keys;
    }
  }

  /** The last identifier of a fully resolving listing adds one profile, its own. */
  lemma ResolvedLast(be: Backend, userId: string, keys: seq<string>) returns (q: Profile)
    requires |keys| > 0 && AllResolve(be, userId, keys)
    ensures AllResolve(be, userId, keys[..|keys| - 1])
    ensures Resolved(be, userId, keys) == Resolved(be, userId, keys[..|keys| - 1]) + [q]
    ensures ListedAs(q, userId, keys[|keys| - 1])
  {
    assert AllResolve(be, userId, keys[..|keys| - 1]) by {
      forall x | x in keys[..|keys| - 1] ensures x in keys { }
    }
    assert keys[|keys| - 1] in keys;
    q := GetProfile(be, userId, keys[|keys| - 1], {Character, Corrupt}).value;
  }

  /** Profiles that match the identifiers one for one, as the listing shows them. */
  predicate ListedAll(ps: seq<Profile>, userId: string, keys: seq<string>)
  {
    |ps| == |keys| && forall k :: 0 <= k < |keys| ==> ListedAs(ps[k], userId, keys[k])
  }

  /** Matching profiles extend by one matching profile. */
  lemma ListedAllSnoc(ps: seq<Profile>, p: Profile, userId: string, keys: seq<string>, x: string)
    requires ListedAll(ps, userId, keys) && ListedAs(p, userId, x)
    ensures ListedAll(ps + [p], userId, keys + [x])
  {
    assert forall k :: 0 <= k < |keys| ==> (ps + [p])[k] == ps[k] && (keys + [x])[k] == keys[k];
  }

  /** A profile as the listing shows it: the user's character or corrupt
      profile with the given identifier. */
  predicate ListedAs(p: Profile, userId: string, profileId: string)
  {
    p.identifier == profileId && p.status in {Character, Corrupt} && p.userId == userId
  }

  /** `listProfiles`: every listed profile key of the user resolved as a
      character or as corrupt (any other outcome aborts), then the real
      profile, sorted. */
  method ListProfiles(be: Backend, listing: seq<string>, userId: string) returns (r: Result<seq<Profile>>)
    ensures r.Ok? <==> (GetProfile(be, userId, "", {Me}).Ok? &&
      AllResolve(be, userId, KeysAfterPrefix(listing, ProfileKey(userId, ""))))
    ensures r.Ok? ==> (multiset(r.value) ==
      multiset(Resolved(be, userId, KeysAfterPrefix(listing, ProfileKey(userId, ""))) + [GetProfile(be, userId, "", {Me}).value]))
    ensures r.Ok? ==> r.value[|r.value| - 1] == GetProfile(be, userId, "", {Me}).value
    ensures r.Ok? ==> |r.value| == |KeysAfterPrefix(listing, ProfileKey(userId, ""))| + 1
    ensures r.Ok? ==> forall x :: x in KeysAfterPrefix(listing, ProfileKey(userId, "")) ==>
      exists i :: 0 <= i < |r.value| && r.value[i].identifier == x && r.value[i].status in {Character, Corrupt}
    ensures r.Ok? ==> r.value[|r.value| - 1].status == Me && r.value[|r.value| - 1].identifier == ""
    ensures r.Ok? ==> forall i :: 0 <= i < |r.value| ==> r.value[i].userId == userId
    ensures r.Ok? ==> forall i, j :: 0 <= i < j < |r.value| && r.value[j].status != Me ==> !Less(r.value[j].identifier, r.value[i].identifier)
  {
    var keys := GetKeysAfterPrefix(listing, ProfileKey(userId, ""));
    var listed := ResolveListed(be, keys, userId);
    if listed.Err? {
      return Err(listed.error);
    }
    var ret := listed.value;
    var me := GetProfile(be, userId, "", {Me});
    if me.Err? {
      return Err(me.error);
    }
    var sorted := SortProfiles(ret + [me.value]);
    SortedListing(ret, me.value, keys, userId, sorted);
    r := Ok(sorted);
  }

  /** One listed identifier, resolved as a character or as corrupt. */
  method ResolveOne(be: Backend, userId: string, profileId: string) returns (r: Result<Profile>)
    ensures r.Ok? ==> r.value.identifier == profileId && r.value.status in {Character, Corrupt} && r.value.userId == userId
    ensures r == GetProfile(be, userId, profileId, {Character, Corrupt})
  {
    r := GetProfile(be, userId, profileId, {Character, Corrupt});
  }

  /** The loop of `listProfiles`: each listed identifier resolved, in order,
      as a character or as corrupt; the first that is neither aborts. */
  method ResolveListed(be: Backend, keys: seq<string>, userId: string) returns (r: Result<seq<Profile>>)
    ensures r.Ok? <==> AllResolve(be, userId, keys)
    ensures r.Ok? ==> r.value == Resolved(be, userId, keys)
    ensures r.Ok? ==> |r.value| == |keys|
    ensures r.Ok? ==> forall k :: 0 <= k < |keys| ==>
      r.value[k].identifier == keys[k] && r.value[k].status in {Character, Corrupt} && r.value[k].userId == userId
  {
    var ret: seq<Profile> := [];
    var i := 0;
    while i < |keys|
      invariant 0 <= i <= |keys|
      invariant ret == Resolved(be, userId, keys[..i])
      invariant AllResolve(be, userId, keys[..i])
    {
      var p := ResolveOne(be, userId, keys[i]);
      if p.Err? {
        assert !AllResolve(be, userId, keys) by { assert keys[i] in keys; }
        return Err(p.error);
      }
      ResolvedStep(be, userId, keys, i, p.value);
      ret := ret + [p.value];
      i := i + 1;
    }
    assert keys[..i] == keys;
    ResolvedShape(be, userId, keys);
    r := Ok(ret);
  }

  // ---------------------------------------------------------------------
  // Default profiles

  function DefaultProfileKey(userId: string, channelId: string): string {
    "defaultprofile_" + userId + "_" + channelId
  }

  /** `getDefaultProfileIdentifier`: the stored bytes as a string; none
      stored reads as `""`, the real profile. */
  function GetDefaultProfileIdentifier(kv: Store, userId: string, channelId: string): (r: string)
    ensures DefaultProfileKey(userId, channelId) !in kv ==> r == ""
  {
    match KvGet(kv, DefaultProfileKey(userId, channelId))
    case None => ""
    case Some(b) => DecodeRaw(b)
  }

  /** `removeDefaultProfile`. */
  function RemoveDefaultProfile(kv: Store, userId: string, channelId: string): (r: Store)
    ensures GetDefaultProfileIdentifier(r, userId, channelId) == ""
    ensures forall k :: k != DefaultProfileKey(userId, channelId) ==> KvGet(r, k) == KvGet(kv, k)
  {
    KvDelete(kv, DefaultProfileKey(userId, channelId))
  }

  /** `setDefaultProfileIdentifier`: binds the channel to the profile only
      when it resolves as a character, and returns that profile. */
  function SetDefaultProfileIdentifier(be: Backend, userId: string, channelId: string, profileId: string): (r: Result<(Backend, Profile)>)
    ensures r.Ok? <==> GetProfile(be, userId, profileId, {Character}).Ok?
    ensures r.Ok? ==> r.value.1 == GetProfile(be, userId, profileId, {Character}).value
    ensures r.Ok? ==> r.value.0.(kv := be.kv) == be
    ensures r.Ok? ==> GetDefaultProfileIdentifier(r.value.0.kv, userId, channelId) == profileId
    ensures r.Ok? ==> forall k :: k != DefaultProfileKey(userId, channelId) ==> KvGet(r.value.0.kv, k) == KvGet(be.kv, k)
  {
    match GetProfile(be, userId, profileId, {Character})
    case Err(e) => Err(e)
    case Ok(p) =>
      RawRoundTrip(profileId);
      Ok((be.(kv := KvSet(be.kv, DefaultProfileKey(userId, channelId), EncodeChars(profileId))), p))
  }

  /** A bound channel never names the real profile: binding only succeeds
      for a character identifier. */
  lemma DefaultNeverMe(be: Backend, userId: string, channelId: string, profileId: string)
    requires SetDefaultProfileIdentifier(be, userId, channelId, profileId).Ok?
    ensures !IsMe(GetDefaultProfileIdentifier(SetDefaultProfileIdentifier(be, userId, channelId, profileId).value.0.kv, userId, channelId))
  {
  }
}

=== FILE: sorting.dfy ===
/** Sorting by a caller-supplied "less" relation, as Go's `sort.Slice` and
    `sort.Strings` do. Go's sorts are not stable; any permutation with no
    inversion is an acceptable answer, and the one computed here is the
    stable one.
 */
module Sorting {

  /** What `sort.Slice` needs of its `less` function: a strict order. */
  ghost predicate StrictOrder<T(!new)>(less: (T, T) -> bool) {
    && (forall x, y :: less(x, y) ==> !less(y, x))
    && (forall x, y, z :: less(x, y) && less(y, z) ==> less(x, z))
  }

  /** No element is strictly less than one placed before it. */
  ghost predicate SortedBy<T>(s: seq<T>, less: (T, T) -> bool) {
    forall i, j :: 0 <= i < j < |s| ==> !less(s[j], s[i])
  }

  /** Inserts `x` before the first element it is strictly less than. */
  function Insert<T(!new)>(x: T, s: seq<T>, less: (T, T) -> bool): (r: seq<T>)
    requires StrictOrder(less) && SortedBy(s, less)
    ensures multiset(r) == multiset(s) + multiset{x}
    ensures SortedBy(r, less)
    decreases |s|
  {
    if |s| == 0 then [x]
    else if less(x, s[0]) then
      BelowHead(x, s, less);
      [x] + s
    else
      var rest := Insert(x, s[1..], less);
      assert s == [s[0]] + s[1..];
      RestAboveHead(x, s, rest, less);
      [s[0]] + rest
  }

  /** What is strictly less than the head of a sorted sequence is strictly
      less than no element of it. */
  lemma BelowHead<T(!new)>(x: T, s: seq<T>, less: (T, T) -> bool)
    requires StrictOrder(less) && SortedBy(s, less)
    requires |s| > 0 && less(x, s[0])
    ensures forall j :: 0 <= j < |s| ==> !less(s[j], x)
  {
    forall j | 0 <= j < |s|
      ensures !less(s[j], x)
    {
      if j > 0 {
        assert !less(s[j], s[0]);
      }
    }
  }

  /** Inserting an element not below the head into the tail leaves nothing
      below the head. */
  lemma RestAboveHead<T(!new)>(x: T, s: seq<T>, rest: seq<T>, less: (T, T) -> bool)
    requires SortedBy(s, less)
    requires |s| > 0 && !less(x, s[0])
    requires multiset(rest) == multiset(s[1..]) + multiset{x}
    ensures forall j :: 0 <= j < |rest| ==> !less(rest[j], s[0])
  {
    forall j | 0 <= j < |rest|
      ensures !less(rest[j], s[0])
    {
      assert rest[j] in multiset(rest);
      assert rest[j] == x || rest[j] in multiset(s[1..]);
      if rest[j] != x {
        var k :| 0 <= k < |s[1..]| && s[1..][k] == rest[j];
        assert s[k + 1] == rest[j];
      }
    }
  }

  /** Insertion sort: a permutation of `s` with no inversions. */
  function SortBy<T(!new)>(s: seq<T>, less: (T, T) -> bool): (r: seq<T>)
    requires StrictOrder(less)
    ensures multiset(r) == multiset(s)
    ensures |r| == |s|
    ensures SortedBy(r, less)
    decreases |s|
  {
    if |s| == 0 then []
    else
      assert s == s[..|s| - 1] + [s[|s| - 1]];
      var r := Insert(s[|s| - 1], SortBy(s[..|s| - 1], less), less);
      assert |r| == |multiset(r)|;
      r
  }
}

=== FILE: strings.dfy ===
/** Strings as the plugin compares them.

    Go compares strings byte by byte over their UTF-8 encoding, which orders
    them exactly like a lexicographic comparison of their code points. Dafny's
    own `<` on sequences means "proper prefix", so the order is defined here.
 */
module Strings {

  /** Go's `a < b` on strings. */
  predicate Less(a: string, b: string)
    decreases |a|
  {
    if |a| == 0 then |b| > 0
    else if |b| == 0 then false
    else if a[0] != b[0] then a[0] < b[0]
    else Less(a[1..], b[1..])
  }

  lemma {:induction false} LessIrreflexive(a: string)
    ensures !Less(a, a)
    decreases |a|
  {
    if |a| > 0 {
      LessIrreflexive(a[1..]);
    }
  }

  lemma {:induction false} LessAsymmetric(a: string, b: string)
    ensures Less(a, b) ==> !Less(b, a)
    decreases |a|
  {
    if |a| > 0 && |b| > 0 && a[0] == b[0] {
      LessAsymmetric(a[1..], b[1..]);
    }
  }

  lemma {:induction false} LessTransitive(a: string, b: string, c: string)
    requires Less(a, b) && Less(b, c)
    ensures Less(a, c)
    decreases |a|
  {
    if |a| > 0 && a[0] == b[0] && b[0] == c[0] {
      LessTransitive(a[1..], b[1..], c[1..]);
    }
  }

  /** Two different strings are always ordered one way or the other. */
  lemma {:induction false} LessTotal(a: string, b: string)
    ensures a == b || Less(a, b) || Less(b, a)
    decreases |a|
  {
    if |a| > 0 && |b| > 0 && a[0] == b[0] {
      LessTotal(a[1..], b[1..]);
      if a[1..] == b[1..] {
        assert a == [a[0]] + a[1..] && b == [b[0]] + b[1..];
      }
    }
  }

  /** Strings of equal length that compare one way keep comparing that way
      whatever is appended to them: a two-character id prefix orders the ids. */
  lemma {:induction false} LessExtend(p: string, q: string, x: string, y: string)
    requires |p| == |q| && Less(p, q)
    ensures Less(p + x, q + y)
    decreases |p|
  {
    if p[0] == q[0] {
      assert (p + x)[1..] == p[1..] + x;
      assert (q + y)[1..] == q[1..] + y;
      LessExtend(p[1..], q[1..], x, y);
    }
  }

  /** Lemma used throughout: for equal-length prefixes, order of prefixes decides. */
  lemma LessByPrefix(a: string, b: string, n: nat)
    requires n <= |a| && n <= |b| && Less(a[..n], b[..n])
    ensures Less(a, b)
  {
    assert a == a[..n] + a[n..];
    assert b == b[..n] + b[n..];
    LessExtend(a[..n], b[..n], a[n..], b[n..]);
  }

  /** A strictly increasing sequence: sorted with no duplicates. */
  ghost predicate StrictlySorted(s: seq<string>) {
    forall i, j :: 0 <= i < j < |s| ==> Less(s[i], s[j])
  }

  /** Strict sortedness follows from sortedness of neighbours. */
  lemma {:induction false} StrictlySortedFromAdjacent(s: seq<string>)
    requires forall i :: 0 <= i < |s| - 1 ==> Less(s[i], s[i + 1])
    ensures StrictlySorted(s)
    decreases |s|
  {
    if |s| > 1 {
      StrictlySortedFromAdjacent(s[1..]);
      forall j | 1 <= j < |s|
        ensures Less(s[0], s[j])
      {
        if j > 1 {
          assert Less(s[1], s[j]) by { assert s[1..][0] == s[1] && s[1..][j - 1] == s[j]; }
          LessTransitive(s[0], s[1], s[j]);
        }
      }
      forall i, j | 0 <= i < j < |s|
        ensures Less(s[i], s[j])
      {
        if i > 0 {
          assert s[1..][i - 1] == s[i] && s[1..][j - 1] == s[j];
        }
      }
    }
  }

  /** Two sorted runs, every element of the first below every element of
      the second, make one sorted run. */
  lemma StrictlySortedConcat(a: seq<string>, b: seq<string>)
    requires StrictlySorted(a) && StrictlySorted(b)
    requires forall x, y :: x in a && y in b ==> Less(x, y)
    ensures StrictlySorted(a + b)
  {
    var c := a + b;
    forall i, j | 0 <= i < j < |c|
      ensures Less(c[i], c[j])
    {
      if i < |a| && j >= |a| {
        assert c[i] in a && c[j] in b;
      } else if i >= |a| {
        assert c[i] == b[i - |a|] && c[j] == b[j - |a|];
      }
    }
  }

  lemma StrictlySortedNoDuplicates(s: seq<string>, i: int, j: int)
    requires StrictlySorted(s) && 0 <= i < |s| && 0 <= j < |s| && s[i] == s[j]
    ensures i == j
  {
    if i < j {
      LessIrreflexive(s[i]);
    } else if j < i {
      LessIrreflexive(s[j]);
    }
  }

  predicate HasPrefix(s: string, prefix: string) {
    |prefix| <= |s| && s[..|prefix|] == prefix
  }

  /** `strings.TrimPrefix`. */
  function TrimPrefix(s: string, prefix: string): (r: string)
    ensures HasPrefix(s, prefix) ==> prefix + r == s
    ensures !HasPrefix(s, prefix) ==> r == s
  {
    if HasPrefix(s, prefix) then
      assert s == s[..|prefix|] + s[|prefix|..];
      s[|prefix|..]
    else s
  }

  predicate IsLowerLetter(c: char) {
    'a' <= c <= 'z'
  }

  predicate AllLowerLetters(s: string) {
    forall i :: 0 <= i < |s| ==> IsLowerLetter(s[i])
  }

  /** The length of the run of lower-case letters `s` starts with: what a
      greedy `[a-z]+` consumes. */
  function LowerRun(s: string): (n: nat)
    ensures n <= |s|
    ensures AllLowerLetters(s[..n])
    ensures n < |s| ==> !IsLowerLetter(s[n])
    decreases |s|
  {
    if |s| > 0 && IsLowerLetter(s[0]) then
      var n := 1 + LowerRun(s[1..]);
      assert forall i :: 1 <= i < n ==> s[..n][i] == s[1..][..n - 1][i - 1];
      n
    else 0
  }

  /** The run ends exactly where the letters end: a letter string followed
      by a non-letter is read back whole. */
  lemma {:induction false} LowerRunOf(a: string, b: string)
    requires AllLowerLetters(a)
    requires |b| > 0 ==> !IsLowerLetter(b[0])
    ensures LowerRun(a + b) == |a|
    decreases |a|
  {
    if |a| > 0 {
      assert (a + b)[1..] == a[1..] + b;
      LowerRunOf(a[1..], b);
    } else {
      assert a + b == b;
    }
  }

  function DigitChar(d: nat): (c: char)
    requires d < 10
    ensures '0' <= c <= '9'
  {
    ['0', '1', '2', '3', '4', '5', '6', '7', '8', '9'][d]
  }

  /** The decimal rendering of a natural number (`%d`). */
  function Decimal(n: nat): (r: string)
    ensures |r| >= 1
    ensures forall i :: 0 <= i < |r| ==> '0' <= r[i] <= '9'
    decreases n
  {
    if n < 10 then [DigitChar(n)] else Decimal(n / 10) + [DigitChar(n % 10)]
  }

  /** `strings.Join`. */
  function Join(items: seq<string>, sep: string): string
    decreases |items|
  {
    if |items| == 0 then ""
    else if |items| == 1 then items[0]
    else items[0] + sep + Join(items[1..], sep)
  }
}

=== FILE: strset.dfy ===
/** Named sets of strings in the KV store (`server/strset.go`).

    A set is a strictly increasing array of strings stored, encoded, under
    one key. Insertion and removal read the array, find the position by
    binary search, and write the new array with one compare-and-swap against
    the exact bytes read. Nothing here assumes the stored array is sorted:
    the operations are defined on any decodable array, and the set
    properties are stated for the strictly sorted ones the operations
    themselves produce.
 */
module Strset {
  import opened Wrappers
  import opened Codec
  import opened Strings
  import opened Host

  // ---------------------------------------------------------------------
  // Binary search (`sort.SearchStrings`)

  /** `sort.Search` over `[lo, hi)` with the predicate `a[h] >= x`. */
  function SearchRange(a: seq<string>, x: string, lo: nat, hi: nat): (r: nat)
    requires lo <= hi <= |a|
    ensures lo <= r <= hi
    decreases hi - lo
  {
    if lo >= hi then lo
    else
      var h := (lo + hi) / 2;
      if Less(a[h], x) then SearchRange(a, x, h + 1, hi) else SearchRange(a, x, lo, h)
  }

  /** `sort.SearchStrings(a, x)`. */
  function SearchStrings(a: seq<string>, x: string): (r: nat)
    ensures r <= |a|
  {
    SearchRange(a, x, 0, |a|)
  }

  lemma {:induction false} SearchRangeLowerBound(a: seq<string>, x: string, lo: nat, hi: nat)
    requires lo <= hi <= |a| && StrictlySorted(a)
    requires forall k :: 0 <= k < lo ==> Less(a[k], x)
    requires forall k :: hi <= k < |a| ==> !Less(a[k], x)
    ensures var r := SearchRange(a, x, lo, hi);
      && (forall k :: 0 <= k < r ==> Less(a[k], x))
      && (forall k :: r <= k < |a| ==> !Less(a[k], x))
    decreases hi - lo
  {
    if lo < hi {
      var h := (lo + hi) / 2;
      if Less(a[h], x) {
        forall k | 0 <= k < h + 1
          ensures Less(a[k], x)
        {
          if k < h {
            LessTransitive(a[k], a[h], x);
          }
        }
        SearchRangeLowerBound(a, x, h + 1, hi);
      } else {
        forall k | h <= k < |a|
          ensures !Less(a[k], x)
        {
          if k > h && Less(a[k], x) {
            LessTransitive(a[h], a[k], x);
          }
        }
        SearchRangeLowerBound(a, x, lo, h);
      }
    }
  }

  /** On a sorted array the search returns the first position whose element
      is not less than `x`: everything before it is less, nothing after is. */
  lemma SearchLowerBound(a: seq<string>, x: string)
    requires StrictlySorted(a)
    ensures forall k :: 0 <= k < SearchStrings(a, x) ==> Less(a[k], x)
    ensures forall k :: SearchStrings(a, x) <= k < |a| ==> !Less(a[k], x)
  {
    SearchRangeLowerBound(a, x, 0, |a|);
  }

  /** Whether the search lands on `x`: the membership test the set uses. */
  predicate FoundAt(a: seq<string>, x: string, i: nat) {
    i < |a| && a[i] == x
  }

  /** On a sorted array the search lands on `x` exactly when `x` is an
      element; on any array, landing on `x` means it is one. */
  lemma SearchFinds(a: seq<string>, x: string)
    ensures FoundAt(a, x, SearchStrings(a, x)) ==> x in a
    ensures StrictlySorted(a) ==> (FoundAt(a, x, SearchStrings(a, x)) <==> x in a)
  {
    var i := SearchStrings(a, x);
    if StrictlySorted(a) && x in a {
      SearchLowerBound(a, x);
      var k :| 0 <= k < |a| && a[k] == x;
      if k < i {
        LessIrreflexive(x);
      }
    }
  }

  // ---------------------------------------------------------------------
  // Reading

  /** What `strsetGet` returns: the decoded array and the raw bytes read
      (absent when the key is). */
  datatype Read = Read(contents: seq<string>, raw: Option<Bytes>)

  const UnmarshalError: string := "Failed to unmarshal string array."

  /** `strsetGet`: an absent key is the empty set; stored bytes that do not
      decode are an error. */
  function ReadSet(kv: Store, key: string): (r: Result<Read>)
    ensures r.Err? <==> key in kv && DecodeStrings(kv[key]).None?
    ensures r.Err? ==> r.error == NewError(UnmarshalError)
    ensures r.Ok? ==> r.value.raw == KvGet(kv, key)
    ensures key !in kv ==> r == Ok(Read([], None))
    ensures r.Ok? && key in kv ==> EncodeStrings(r.value.contents) == kv[key]
  {
    match KvGet(kv, key)
    case None => Ok(Read([], None))
    case Some(bs) =>
      match DecodeStrings(bs)
      case None => Err(NewError(UnmarshalError))
      case Some(contents) =>
        StringsCanonical(bs);
        Ok(Read(contents, Some(bs)))
  }

  /** `StrsetGet`. */
  function StrsetGet(kv: Store, key: string): (r: Result<seq<string>>)
    ensures r.Err? <==> key in kv && DecodeStrings(kv[key]).None?
    ensures r.Err? ==> r.error == NewError(UnmarshalError)
    ensures key !in kv ==> r == Ok([])
    ensures r.Ok? && key in kv ==> kv[key] == EncodeStrings(r.value)
  {
    var read :- ReadSet(kv, key);
    Ok(read.contents)
  }

  /** A set stored by the operations below reads back as what was stored. */
  lemma GetAfterStore(kv: Store, key: string, xs: seq<string>)
    ensures StrsetGet(kv[key := EncodeStrings(xs)], key) == Ok(xs)
  {
    StringsRoundTrip(xs);
  }

  // ---------------------------------------------------------------------
  // Updating

  /** `xs` with `x` placed at position `i`. */
  function InsertAt(xs: seq<string>, i: nat, x: string): (r: seq<string>)
    requires i <= |xs|
    ensures |r| == |xs| + 1 && r[i] == x
    ensures r[..i] == xs[..i] && r[i + 1..] == xs[i..]
  {
    xs[..i] + [x] + xs[i..]
  }

  /** `xs` without its element at position `i`. */
  function RemoveAt(xs: seq<string>, i: nat): (r: seq<string>)
    requires i < |xs|
    ensures |r| + 1 == |xs|
    ensures r[..i] == xs[..i] && r[i..] == xs[i + 1..]
  {
    xs[..i] + xs[i + 1..]
  }

  /** The array `StrsetInsert` writes, or none when the search finds the
      element already there. */
  function Inserted(xs: seq<string>, x: string): Option<seq<string>>
  {
    var i := SearchStrings(xs, x);
    if FoundAt(xs, x, i) then None else Some(InsertAt(xs, i, x))
  }

  /** The array `StrsetRemove` writes, or none when the search does not find
      the element. */
  function Removed(xs: seq<string>, x: string): Option<seq<string>>
  {
    var i := SearchStrings(xs, x);
    if FoundAt(xs, x, i) then Some(RemoveAt(xs, i)) else None
  }

  /** Writes `xs` back with one compare-and-swap against the bytes read. The
      result of the swap is ignored, as the source ignores it. */
  function WriteBack(kv: Store, key: string, read: Read, xs: seq<string>): Store
  {
    KvCompareAndSet(kv, key, read.raw, EncodeStrings(xs)).0
  }

  /** What the search-and-insert adds, on any array: the element, and
      nothing else; finding it means it was there. */
  lemma InsertedElements(xs: seq<string>, x: string)
    ensures Inserted(xs, x).None? ==> x in xs
    ensures Inserted(xs, x).Some? ==> forall y :: y in Inserted(xs, x).value <==> y in xs || y == x
  {
    var i := SearchStrings(xs, x);
    assert xs == xs[..i] + xs[i..];
  }

  /** What the search-and-remove keeps, on any array: only old elements. */
  lemma RemovedElements(xs: seq<string>, x: string)
    ensures Removed(xs, x).Some? ==> forall y :: y in Removed(xs, x).value ==> y in xs
  {
    var i := SearchStrings(xs, x);
    if FoundAt(xs, x, i) {
      var r := RemoveAt(xs, i);
      forall y | y in r
        ensures y in xs
      {
        var k :| 0 <= k < |r| && r[k] == y;
        if k < i {
          assert r[..i][k] == y;
        } else {
          assert r[i..][k - i] == y;
        }
      }
    }
  }

  /** `StrsetInsert`: on any decodable array, afterwards the set reads back
      as the old elements plus the new one. */
  function StrsetInsert(kv: Store, key: string, element: string): (r: Result<Store>)
    ensures r.Err? <==> StrsetGet(kv, key).Err?
    ensures r.Err? ==> r.error == NewError(UnmarshalError)
    ensures r.Ok? ==> forall k :: k != key ==> KvGet(r.value, k) == KvGet(kv, k)
    ensures r.Ok? ==> StrsetGet(r.value, key).Ok?
    ensures r.Ok? ==> forall y :: y in StrsetGet(r.value, key).value <==> y in StrsetGet(kv, key).value || y == element
  {
    var read :- ReadSet(kv, key);
    InsertedElements(read.contents, element);
    match Inserted(read.contents, element)
    case None => Ok(kv)
    case Some(xs) =>
      GetAfterStore(kv, key, xs);
      Ok(WriteBack(kv, key, read, xs))
  }

  /** `StrsetRemove`: on any decodable array, afterwards the set reads back
      as a subset of the old one. */
  function StrsetRemove(kv: Store, key: string, element: string): (r: Result<Store>)
    ensures r.Err? <==> StrsetGet(kv, key).Err?
    ensures r.Err? ==> r.error == NewError(UnmarshalError)
    ensures r.Ok? ==> forall k :: k != key ==> KvGet(r.value, k) == KvGet(kv, k)
    ensures r.Ok? ==> StrsetGet(r.value, key).Ok?
    ensures r.Ok? ==> forall y :: y in StrsetGet(r.value, key).value ==> y in StrsetGet(kv, key).value
  {
    var read :- ReadSet(kv, key);
    RemovedElements(read.contents, element);
    match Removed(read.contents, element)
    case None => Ok(kv)
    case Some(xs) =>
      GetAfterStore(kv, key, xs);
      Ok(WriteBack(kv, key, read, xs))
  }

  /** `StrsetHas`: never true for a string that is not stored, and on a sorted
      set true exactly for the stored ones. */
  function StrsetHas(kv: Store, key: string, element: string): (r: Result<bool>)
    ensures r.Err? <==> StrsetGet(kv, key).Err?
    ensures r.Ok? && r.value ==> element in StrsetGet(kv, key).value
    ensures r.Ok? && StrictlySorted(StrsetGet(kv, key).value) ==> (r.value <==> element in StrsetGet(kv, key).value)
  {
    var read :- ReadSet(kv, key);
    var i := SearchStrings(read.contents, element);
    SearchFinds(read.contents, element);
    Ok(FoundAt(read.contents, element, i))
  }

  // ---------------------------------------------------------------------
  // Set semantics

  /** The write-back succeeds when nothing changed the key since the read:
      it is a plain store of the new array. */
  lemma WriteBackStores(kv: Store, key: string, xs: seq<string>)
    requires ReadSet(kv, key).Ok?
    ensures WriteBack(kv, key, ReadSet(kv, key).value, xs) == kv[key := EncodeStrings(xs)]
  {
  }

  /** Placing `x` at its search position keeps a sorted array sorted and
      adds exactly `x`. */
  lemma InsertedSorted(xs: seq<string>, x: string)
    requires StrictlySorted(xs) && x !in xs
    ensures Inserted(xs, x).Some?
    ensures StrictlySorted(Inserted(xs, x).value)
    ensures forall y :: y in Inserted(xs, x).value <==> y in xs || y == x
  {
    var i := SearchStrings(xs, x);
    SearchFinds(xs, x);
    SearchLowerBound(xs, x);
    var r := InsertAt(xs, i, x);
    forall k | i <= k < |xs|
      ensures Less(x, xs[k])
    {
      LessTotal(x, xs[k]);
    }
    forall k | 0 <= k < |r| - 1
      ensures Less(r[k], r[k + 1])
    {
      if k + 1 < i {
        assert r[k] == xs[k] && r[k + 1] == xs[k + 1];
      } else if k + 1 == i {
        assert r[k] == xs[k];
      } else if k == i {
        assert r[k + 1] == xs[k];
      } else {
        assert r[k] == xs[k - 1] && r[k + 1] == xs[k];
      }
    }
    StrictlySortedFromAdjacent(r);
    assert xs == xs[..i] + xs[i..];
  }

  /** Dropping the element the search finds keeps a sorted array sorted and
      removes exactly that element. */
  lemma RemovedSorted(xs: seq<string>, x: string)
    requires StrictlySorted(xs) && x in xs
    ensures Removed(xs, x).Some?
    ensures StrictlySorted(Removed(xs, x).value)
    ensures forall y :: y in Removed(xs, x).value <==> y in xs && y != x
  {
    var i := SearchStrings(xs, x);
    SearchFinds(xs, x);
    RemoveAtSorted(xs, i);
    RemoveAtMembers(xs, i);
  }

  /** Where each element of `RemoveAt(xs, i)` comes from. */
  lemma RemoveAtIndex(xs: seq<string>, i: nat)
    requires i < |xs|
    ensures forall k :: 0 <= k < |RemoveAt(xs, i)| ==> RemoveAt(xs, i)[k] == if k < i then xs[k] else xs[k + 1]
  {
    var r := RemoveAt(xs, i);
    forall k | 0 <= k < |r|
      ensures r[k] == if k < i then xs[k] else xs[k + 1]
    {
      if k < i {
        assert r[..i][k] == r[k];
      } else {
        assert r[i..][k - i] == r[k];
      }
    }
  }

  lemma RemoveAtSorted(xs: seq<string>, i: nat)
    requires StrictlySorted(xs) && i < |xs|
    ensures StrictlySorted(RemoveAt(xs, i))
  {
    var r := RemoveAt(xs, i);
    RemoveAtIndex(xs, i);
    forall a, b | 0 <= a < b < |r|
      ensures Less(r[a], r[b])
    {
      var a', b' := if a < i then a else a + 1, if b < i then b else b + 1;
      assert r[a] == xs[a'] && r[b] == xs[b'];
    }
  }

  lemma RemoveAtMembers(xs: seq<string>, i: nat)
    requires StrictlySorted(xs) && i < |xs|
    ensures forall y :: y in RemoveAt(xs, i) <==> y in xs && y != xs[i]
  {
    var r := RemoveAt(xs, i);
    RemoveAtIndex(xs, i);
    forall y | y in r
      ensures y in xs && y != xs[i]
    {
      var k :| 0 <= k < |r| && r[k] == y;
      var k' := if k < i then k else k + 1;
      assert xs[k'] == y;
      if y == xs[i] {
        StrictlySortedNoDuplicates(xs, i, k');
      }
    }
    forall y | y in xs && y != xs[i]
      ensures y in r
    {
      var k :| 0 <= k < |xs| && xs[k] == y;
      if k < i {
        assert r[k] == y;
      } else {
        assert r[k - 1] == y;
      }
    }
  }

  /** Inserting into a sorted set: an element already there writes nothing;
      otherwise the set afterwards is sorted and holds exactly the old
      elements and the new one. */
  lemma InsertSemantics(kv: Store, key: string, element: string)
    requires StrsetGet(kv, key).Ok? && StrictlySorted(StrsetGet(kv, key).value)
    ensures StrsetInsert(kv, key, element).Ok?
    ensures element in StrsetGet(kv, key).value ==> StrsetInsert(kv, key, element).value == kv
    ensures var after := StrsetGet(StrsetInsert(kv, key, element).value, key);
      && after.Ok?
      && StrictlySorted(after.value)
      && forall y :: y in after.value <==> y in StrsetGet(kv, key).value || y == element
  {
    var xs := StrsetGet(kv, key).value;
    SearchFinds(xs, element);
    if element !in xs {
      InsertedSorted(xs, element);
      WriteBackStores(kv, key, Inserted(xs, element).value);
      GetAfterStore(kv, key, Inserted(xs, element).value);
    }
  }

  /** Removing from a sorted set: an absent element writes nothing;
      otherwise the set afterwards is sorted and holds exactly the old
      elements but that one. */
  lemma RemoveSemantics(kv: Store, key: string, element: string)
    requires StrsetGet(kv, key).Ok? && StrictlySorted(StrsetGet(kv, key).value)
    ensures StrsetRemove(kv, key, element).Ok?
    ensures element !in StrsetGet(kv, key).value ==> StrsetRemove(kv, key, element).value == kv
    ensures var after := StrsetGet(StrsetRemove(kv, key, element).value, key);
      && after.Ok?
      && StrictlySorted(after.value)
      && forall y :: y in after.value <==> y in StrsetGet(kv, key).value && y != element
  {
    var xs := StrsetGet(kv, key).value;
    SearchFinds(xs, element);
    if element in xs {
      RemovedSorted(xs, element);
      WriteBackStores(kv, key, Removed(xs, element).value);
      GetAfterStore(kv, key, Removed(xs, element).value);
    }
  }
}

=== FILE: wrappers.dfy ===
/** Failure-compatible wrappers and the plugin's error value.

    The host reports failures as `*model.AppError` values carrying a message
    and an HTTP status code; the plugin builds its own with `appError` (status
    400) and re-labels foreign ones with `appErrorPre`.
 */
module Wrappers {

  datatype Option<+T> = None | Some(value: T) {
    predicate IsFailure() {
      None?
    }

    function PropagateFailure<U>(): Option<U>
      requires None?
    {
      None
    }

    function Extract(): T
      requires Some?
    {
      value
    }
  }

  /** An error as the host and the plugin report it: a message and an HTTP status. */
  datatype AppError = AppError(message: string, status: int)

  const StatusBadRequest: int := 400
  const StatusNotFound: int := 404

  datatype Result<+T> = Ok(value: T) | Err(error: AppError) {
    predicate IsFailure() {
      Err?
    }

    function PropagateFailure<U>(): Result<U>
      requires Err?
    {
      Err(error)
    }

    function Extract(): T
      requires Ok?
    {
      value
    }
  }

  /** `appError`: an error raised by the plugin itself (status 400). */
  function NewError(message: string): (e: AppError)
    ensures e.message == message && e.status == StatusBadRequest
  {
    AppError(message, StatusBadRequest)
  }

  /** `appErrorPre`: the same error with `prefix + ": "` in front of its
      message; the status code is kept, so a not-found error stays one. */
  function ErrorPre(prefix: string, e: AppError): (r: AppError)
    ensures r.status == e.status
    ensures |r.message| == |prefix| + 2 + |e.message|
    ensures r.message[..|prefix|] == prefix && r.message[|prefix| + 2..] == e.message
  {
    AppError(prefix + ": " + e.message, e.status)
  }
}
